=== FILE: README.md ===
# ConfigLake decision logic in Dafny

ConfigLake is a small Flask service that stores configuration values and
encrypted secrets per project and environment. Clients reach them through a
bearer-token API guarded by IP whitelists. This project models the decision
logic around its database as pure functions over an immutable store, and
proves properties of that model:

- **Whitelist matching** (`Whitelist`, `Net`, `Text`). `Whitelist` covers:
  - which entries apply to a request;
  - splitting an entry at `^(.+):(\d+)$`;
  - comparing a client address with a literal, a CIDR block (host bits
    masked, as `ip_network(..., strict=False)` does) or a DNS name;
  - matching the browser `Origin` header (section 7 of RFC 6454) against
    full-URL, `host:port` and bare entries;
  - the validation the add routes apply before storing an entry.

  `Net` holds address and network arithmetic. `Text` holds the Python string
  operations involved: `split(' ')`, `strip()`, `int()` of digits,
  `bytes.hex()` and `bytes.fromhex()`.
- **Request guards** (`Auth`):
  - the role guard: owner 3 > maintainer 2 > reader 1, unknown 0, and
    administrators pass as owner;
  - its `_with_ip` variant, which checks the IP before authentication;
  - the bearer-token guard (section 2.1 of RFC 6750): header, then active
    token, then strict expiry, then IP.
- **Client API and token management** (`Api`): the token-to-path scoping of
  the three read endpoints, and creating, revoking and toggling tokens.
- **Management routes** (`Projects`, `Admin`):
  - projects, environments and memberships, with last-owner protection;
  - the whitelist routes;
  - config and secret upsert and delete;
  - the administrator flag and user deletion with the sole-owner check.
- **CORS** (`Cors`): the `after_request` hook that echoes a whitelisted
  origin on client API responses.
- **Backups**:
  - `BackupDocs`: the export of one project to a document.
  - `ProjectRestore`: the restore of a document into a new project.
  - `RoundTrip`: export followed by restore recreates the project up to the
    fields the export drops.
  - `EncryptedBackup`: the password-encrypted ZIP container.
  - `Crypto`: key derivation.

The store (`Schema`) keeps one map per table, keyed by row id. Memberships are
keyed by their (user, project) pair. A single counter hands out row ids to
every table; the database numbers each table on its own (see "## Left out").
`Schema.Valid` is the invariant every route keeps:

- ids are below the counter;
- usernames, emails and project names are unique;
- environments, configs, secrets and tokens hang off existing rows;
- (name, project), (key, environment) and token text are unique.

`Rows` holds the row-level changes and the conditions under which each keeps
the invariant. `Tables` models queries without `ORDER BY` as ascending-id
scans, `.first()` as the lowest matching id, and a dictionary filled in a loop.

Every route is a function returning `Result<_, Error>`: one error constructor
per error response, in the order the handler checks them. A failed restore
returns an error and no store, which is how the transaction rollback appears
here.

## Model

| member | source | states |
|---|---|---|
| Text.Split | app/utils/security.py:207 | `split(' ')` gives at least one field and no field holds the separator |
| Text.SplitJoin | app/utils/security.py:207 | joining the fields with the separator gives the header back |
| Text.SplitHead | app/utils/security.py:207 | after a separator-free head and a separator, the second field is what follows up to the next separator |
| Text.LastIndexOf | app/utils/security.py:43 | the position found holds the character and none follows it, or the character is absent |
| Text.Strip | app/utils/security.py:278 | `strip()` removes exactly the leading and trailing whitespace and keeps the middle as a slice |
| Text.StripUnpadded | app/utils/security.py:278 | text without surrounding whitespace is its own strip |
| Text.HexRoundTrip | app/utils/backup.py:103-212 | a salt written with `hex()` reads back with `fromhex()` unchanged |
| Text.DecimalValue | app/routes/projects.py:302 | `int()` of a digit string: a single digit is its own value, and n digits give a value below 10^n |
| Text.DecimalText | app/routes/projects.py:302 | the decimal text of a number is a digit string without a leading zero |
| Text.DecimalRoundTrip | app/routes/projects.py:302 | `int()` reads a number's decimal text back as the number |
| Text.Hex | app/utils/backup.py:103 | two characters per byte, each a hexadecimal digit and none whitespace |
| Text.FromHex | app/utils/backup.py:212 | an accepted text holds only hexadecimal digits and ASCII whitespace, at least two characters per byte |
| Tables.IdsBelow | app/utils/backup.py:32 | the ids of a table below the counter, each exactly once, ascending |
| Tables.Where | app/utils/backup.py:43 | filtering keeps exactly the listed ids whose rows satisfy the filter, in order |
| Tables.Select | app/utils/backup.py:32 | `filter_by(...).all()` lists exactly the matching rows, ascending |
| Tables.First | app/utils/security.py:209-212 | `.first()` returns a matching row with no lower matching id, or None when no row matches |
| Tables.FirstUnique | app/utils/security.py:209-212 | when one row matches, `.first()` finds it |
| Tables.IncreasingDistinct | app/utils/backup.py:32 | an ascending listing names each row once |
| Tables.Collect | app/routes/api.py:30-32 | the dictionary filled in a loop holds exactly the keys of the rows listed |
| Tables.CollectDistinct | app/routes/api.py:30-32 | with distinct keys, each row's value is found under its key |
| Tables.SelectCollect | app/routes/api.py:28-32 | the dictionary of a query's rows maps each matching row's key to its value and holds nothing else |
| Net.NetworkMembership | app/utils/security.py:63 | an address lies in a masked network exactly when it has the version and agrees on the leading prefix bits |
| Net.Mask | app/utils/security.py:62 | the masked value is the start of the block of size 2^(width - prefix) holding the value: at most the value, within one block of it, and a multiple of the block size |
| Net.NetworkOf | app/utils/security.py:62 | `ip_network(address/prefix, strict=False)` keeps the version and prefix, and the address lies in the block that starts at the base |
| Net.NetworkHoldsItsAddress | app/utils/security.py:95-96 | the written address lies in its own network |
| Net.FullPrefixIsSingleAddress | app/utils/security.py:95-96 | a /32 or /128 network holds one address only |
| Net.HostBitsIgnored | app/utils/security.py:95 | addresses that differ only in host bits give the same network |
| Net.CidrExample | app/utils/security.py:94-97 | 10.0.0.0/24 holds 10.0.0.7 and not 10.0.1.7, and 10.0.0.7/24 is the same network |
| Net.ParseNetwork | app/utils/security.py:62 | `ip_network` rejects a prefix longer than the address width; an accepted network holds the written address |
| Whitelist.SplitHostPortSound | app/utils/security.py:43-48 | a split found is a match of `^(.+):(\d+)$`: non-empty host without newline, digits for the port |
| Whitelist.SplitHostPort | app/utils/security.py:43-48 | a split puts the text back together as host, colon and port, with a non-empty host without newline and a digit port |
| Whitelist.SplitHostPortComplete | app/utils/security.py:43-48 | every match of the pattern is the split found, at the last colon: the decomposition is unique |
| Whitelist.SplitOfHostPort | app/utils/security.py:43-48 | `host:port` splits back into host and port even when the host holds colons |
| Whitelist.LoopbackV6Splits | app/utils/security.py:43-48 | the IPv6 loopback `::1` reads as host `:` and port `1` |
| Whitelist.Scope | app/utils/security.py:15-30 | with a non-zero environment id, that environment's entries plus the project-wide ones; otherwise every entry of the project |
| Whitelist.ClientIp | app/utils/security.py:12 | a non-empty `X-Forwarded-For` wins; a missing or empty one falls back to the peer address |
| Whitelist.ResolvedMatch | app/utils/security.py:54-57 | a match means some resolved address equals the client |
| Whitelist.HostMatches | app/utils/security.py:50-101 | a match is the client's own address, a network holding it, or a name resolving to it; a text that parses as an address is never resolved |
| Whitelist.EntryMatches | app/utils/security.py:39-102 | an entry matches only when its host part admits the client in one of those three ways |
| Whitelist.CheckIpWhitelist | app/utils/security.py:10-107 | denies with no applicable entry or an unparseable client text; otherwise allows exactly when some applicable entry matches |
| Whitelist.CheckIpWhitelistLoop | app/utils/security.py:39-105 | visiting entries one by one and stopping at the first match gives the same verdict |
| Whitelist.PortNeverMatters | app/utils/security.py:43-69 | two entries differing only in port match the same clients |
| Whitelist.CidrEntryMatches | app/utils/security.py:61-64 | an unflagged entry with `/` matches exactly the clients in its network, and nothing when it does not parse |
| Whitelist.LiteralEntryMatches | app/utils/security.py:65-69 | an unflagged literal entry matches only the equal address |
| Whitelist.UnparseableEntry | app/utils/security.py:70-79 | an unflagged non-address entry without a port is skipped; with a port its host is resolved instead |
| Whitelist.FqdnEntryMatches | app/utils/security.py:51-59 | a flagged entry matches exactly what its host resolves to; a resolver failure means no match |
| Whitelist.DeadEntryIgnored | app/utils/security.py:39-105 | an entry that can never match does not change the verdict while another entry applies |
| Whitelist.HostRun | app/utils/security.py:259 | the longest prefix free of `:` and `/` |
| Whitelist.DigitRun | app/utils/security.py:259 | the longest prefix of digits |
| Whitelist.SchemeOf | app/utils/security.py:259 | an origin built on either scheme yields what follows it |
| Whitelist.AuthorityOfParts | app/utils/security.py:259-266 | a host, an optional port and any path parse back into that host and port |
| Whitelist.ParseOriginOfParts | app/utils/security.py:259-266 | an origin assembled from a scheme, host, optional port and path parses back into host and port |
| Whitelist.ParseOrigin | app/utils/security.py:259-266 | a parsed origin starts with `http://` or `https://`; its host is non-empty without `:` or `/`; its port, when present, is digits |
| Whitelist.CheckOriginWhitelist | app/utils/security.py:231-305 | denies an empty origin, an empty scope and an unparseable origin; otherwise allows exactly when some applicable entry matches |
| Whitelist.OriginHostPortEntry | app/utils/security.py:287-296 | a `host:port` entry matches exactly the origins with that host and that port, never a port-less one |
| Whitelist.OriginBareEntry | app/utils/security.py:297-300 | a bare entry matches its host on every port |
| Whitelist.OriginUrlEntry | app/utils/security.py:278-284 | a full-URL entry matches only the identical origin text |
| Whitelist.OriginEntryMatches | app/utils/security.py:278-299 | a stripped entry matches only when it is the origin itself or its host part is the origin's host |
| Whitelist.HostPortEntryExample | app/utils/security.py:272-273 | `localhost:3000` admits an origin on port 3000 and refuses one on 4000 |
| Whitelist.BareEntryExample | app/utils/security.py:274 | `localhost` admits an origin on any port |
| Whitelist.ValidateEntry | app/routes/projects.py:289-339 | rejects a port outside 1..65535; fails with an escaping `UnicodeError` exactly when the host is no address and the name codec refuses it; accepts exactly the entries whose host parses, or is encodable and resolves; `is_fqdn` holds exactly when the DNS fallback was used |
| Whitelist.ValidatedEntryMatches | app/routes/projects.py:341-346 | an accepted literal then matches only its address, a network its members, a name what it resolves to |
| Auth.Level | app/utils/security.py:139-141 | owner 3, maintainer 2, reader 1, anything else 0 |
| Auth.RequireProjectPermission | app/utils/security.py:114-147 | 400 without a project id, 401 when anonymous, 403 for non-members; passes exactly admins and members whose level reaches the requirement, with the role the handler sees |
| Auth.PermissionMonotone | app/utils/security.py:139-144 | passing a requirement passes every lower one, with the same role |
| Auth.PermissionLevels | app/utils/security.py:139-144 | every known role passes reader; an unknown requirement passes any member; only owners pass owner |
| Auth.RequireLoginAndPermission | app/routes/api.py:104-105 | an anonymous caller is redirected to log in before the role guard runs |
| Auth.RequireProjectPermissionWithIp | app/utils/security.py:157-192 | the project IP check comes first; success requires both it and the role guard |
| Auth.ProjectIpAllowed | app/utils/security.py:163 | the `_with_ip` check passes only for a parseable client address that some entry of the project matches |
| Auth.IpCheckedFirst | app/utils/security.py:162-168 | from an unlisted address every caller, administrator or anonymous, gets 403 |
| Auth.BearerToken | app/utils/security.py:204-207 | a token exists exactly when the header starts with `Bearer `, and it holds no space |
| Auth.BearerTokenRoundTrip | app/utils/security.py:204-207 | a space-free token is read back from its header, and extra fields after it are ignored |
| Auth.ActiveToken | app/utils/security.py:209-212 | the lookup finds an active row with the text, or there is none |
| Auth.ActiveTokenUnique | app/utils/security.py:209-212 | token text is unique, so the lookup finds the one active row with it |
| Auth.RequireApiToken | app/utils/security.py:202-226 | 401 without a bearer header, 401 with no active row, 401 when expired strictly before now, 403 exactly when an unexpired active row fails the IP check; succeeds exactly when it passes, naming that row |
| Auth.TokenValidAtExpiry | app/utils/security.py:218-219 | a token is accepted at its expiry instant and refused one second later |
| Auth.InactiveTokenRefused | app/utils/security.py:209-215 | an inactive token is refused as invalid |
| Api.EnvironmentNamed | app/routes/api.py:20-23 | finds an environment of the project with the name, or there is none |
| Api.ReadTarget | app/routes/api.py:17-26 | guard errors pass through; 403 exactly when the token's project differs from the path's; 404 exactly when the project has no environment of that name or it is not the token's; nothing else fails; success serves the token's own environment under the path's name |
| Api.TokenServesOneEnvironment | app/routes/api.py:25-26 | an accepted token is refused, 404, for every other environment of its project |
| Api.ConfigMapExact | app/routes/api.py:28-32 | the returned configs are exactly the environment's config rows |
| Api.SecretMapExact | app/routes/api.py:55-59 | the returned secrets are exactly the environment's rows with their stored ciphertext |
| Api.GetConfig | app/routes/api.py:13-38 | fails exactly when the scoping fails; otherwise returns the environment's configs under the path's project and name |
| Api.GetSecrets | app/routes/api.py:40-66 | fails exactly when the scoping fails; otherwise returns the ciphertext and the environment key |
| Api.GetAll | app/routes/api.py:68-100 | fails as the config endpoint does; otherwise returns what the two other endpoints return |
| Api.TokenName | app/routes/api.py:108-109 | `API Token` without a body; otherwise the body's `name`, which may be missing |
| Api.CreateApiToken | app/routes/api.py:103-138 | owners only; 404 unless the environment belongs to the project; then fails exactly when the name is missing, or exactly when the token text is taken, and succeeds otherwise; the new token is active, bound to the path's project and environment, expires a year later, and nothing else changes |
| Api.CreateApiTokenValid | app/routes/api.py:122-131 | creating a token keeps the store invariant |
| Api.CreatedTokenWorks | app/routes/api.py:119-127 | a new token opens its own environment until its expiry from any whitelisted client |
| Api.TokenAccepted | app/utils/security.py:202-226 | an active, unexpired token presented as a bearer header from a whitelisted client is accepted as its own row |
| Api.TokenOpens | app/routes/api.py:17-26 | an accepted token is scoped to its own environment under its project and name |
| Api.RevokeApiToken | app/routes/api.py:140-165 | guard errors pass through; 404 when the environment is not the project's, then 404 when no token matches id, project and environment; succeeds exactly for the matching token and deletes only that row |
| Api.RevokedTokenRefused | app/routes/api.py:162-163 | a revoked token is refused as invalid afterwards |
| Api.ToggleApiToken | app/routes/api.py:167-192 | guard errors pass through; 404 when the environment is not the project's, then 404 when no token matches; succeeds exactly for the matching token, negates only its active flag |
| Api.ToggleTwice | app/routes/api.py:189 | toggling twice restores the store |
| Api.TokenManagementValid | app/routes/api.py:140-190 | revoking and toggling keep the store invariant |
| Rows.OwnersMembership | app/routes/main.py:81 | a user is an owner exactly when their membership role is `owner` |
| Rows.OwnersAfterRemove | app/routes/projects.py:222-223 | dropping a membership drops that user from the owners |
| Rows.OwnersAfterSet | app/routes/projects.py:253-255 | writing a role adds the user to the owners or drops them, according to the role |
| Rows.InsertProjectValid | app/routes/projects.py:36-44 | inserting a project under a free name keeps the invariant |
| Rows.InsertEnvironmentValid | app/models.py:45 | an environment under a name free in its project keeps the invariant |
| Rows.InsertConfigValid | app/models.py:69 | a config under a key free in its environment keeps the invariant |
| Rows.InsertSecretValid | app/models.py:81 | a secret under a key free in its environment keeps the invariant |
| Rows.InsertAllowedIpValid | app/models.py:83-90 | an entry scoped to an environment of its project, or project-wide, keeps the invariant |
| Rows.InsertTokenValid | app/models.py:97-99 | a token with unused text, bound to an environment of its project, keeps the invariant |
| Rows.UpdateConfigValid | app/routes/projects.py:611-613 | changing a config's value in place keeps the invariant |
| Rows.UpdateSecretValid | app/routes/projects.py:660-662 | changing a secret's ciphertext in place keeps the invariant |
| Rows.RemoveConfigValid | app/routes/projects.py:702-703 | deleting a config keeps the invariant |
| Rows.RemoveSecretValid | app/routes/projects.py:729-730 | deleting a secret keeps the invariant |
| Rows.RemoveAllowedIpValid | app/routes/projects.py:362-363 | deleting an entry keeps the invariant |
| Rows.RemoveTokenValid | app/routes/api.py:162-163 | deleting a token keeps the invariant |
| Rows.ToggleTokenValid | app/routes/api.py:189-190 | flipping a token's flag keeps the invariant |
| Rows.MembersFree | app/models.py:47-57 | memberships do not take part in the invariant |
| Rows.UserFlagValid | app/routes/main.py:59-60 | flipping a user's administrator flag keeps the invariant |
| Rows.RemoveUserValid | app/routes/main.py:96-97 | deleting a user keeps the invariant |
| Projects.VisibleProjects | app/routes/projects.py:13-22 | an administrator lists every project; anyone else exactly the projects of their memberships |
| Projects.VisibleAgreesWithGuard | app/routes/projects.py:16-20 | a listed project opens exactly when the member's role is known; an unlisted one is refused as not a member |
| Projects.CreateProject | app/routes/projects.py:24-57 | rejects an empty or used name, and fails with an integrity error when a stale membership already names the creator and the new id; succeeds exactly when none of these fails, adding the project and makes the creator its owner, changing nothing else |
| Projects.CreatedProjectOwned | app/routes/projects.py:36-52 | the creator sees the project, passes owner on it, is its only owner when no stale membership names it, and the invariant holds |
| Projects.CreateProjectValid | app/routes/projects.py:36-52 | creating a project keeps the store invariant |
| Projects.CreateEnvironment | app/routes/projects.py:68-105 | owners only; 404 for a missing project; rejects exactly an empty name, then exactly one used in the project; succeeds exactly otherwise, adding the environment with the new key |
| Projects.CreatedEnvironmentFound | app/routes/projects.py:94-100 | a new environment keeps the invariant and is the one the client API finds by its name |
| Projects.AddUser | app/routes/projects.py:170-200 | owners only; succeeds exactly with a user id that is not yet a member; stores the role unchecked, `reader` by default |
| Projects.AddedUserReads | app/routes/projects.py:191-197 | a user added without a role or with a known one opens the project's reader pages and sees it listed |
| Projects.RemoveUser | app/routes/projects.py:202-226 | succeeds exactly for an existing membership, unless the caller removes themself while at most one owner remains; deletes only that membership |
| Projects.RemoveUserKeepsOwner | app/routes/projects.py:212-222 | a removal by a non-administrator owner leaves the project an owner |
| Projects.AdminRemovesLastOwner | app/routes/projects.py:212-222 | an administrator outside the project may remove its only owner, leaving none |
| Projects.ChangeUserRole | app/routes/projects.py:228-260 | rejects unknown roles and an only owner's self-demotion; otherwise changes only that membership's role |
| Projects.ChangeUserRoleKeepsOwner | app/routes/projects.py:238-255 | a change by a non-administrator owner leaves the project an owner, and the member still reads |
| Projects.AddAllowedIp | app/routes/projects.py:273-351 | owners only; rejects a missing address and each invalid form; succeeds exactly when the address is present and validates, storing a project-wide entry with the validated FQDN flag, changing nothing else |
| Projects.AddEnvironmentIp | app/routes/projects.py:463-542 | as above, including the missing-address error and the exact success condition, but checks the environment first and records it on the entry |
| Projects.AddIpValid | app/routes/projects.py:341-348 | adding an entry keeps the invariant |
| Projects.AddedAddressAdmitted | app/routes/projects.py:341-346 | an address added to a project admits a client naming it in every scope |
| Projects.EnvironmentAddressAdmitted | app/routes/projects.py:532-539 | an address added to an environment admits the client there and through the project's `_with_ip` guard |
| Projects.RemoveAllowedIp | app/routes/projects.py:353-366 | succeeds exactly for an entry of the project, whatever its environment, and deletes only it |
| Projects.RemoveEnvironmentIp | app/routes/projects.py:570-584 | succeeds exactly for an entry of the project and environment |
| Projects.RemovedEntryGone | app/routes/projects.py:357-363 | a removed entry leaves every scope, and the invariant holds |
| Projects.ConfigRow | app/routes/projects.py:606-609 | finds the environment's row with the key, or the key is free |
| Projects.SecretRow | app/routes/projects.py:655-658 | finds the environment's secret with the key, or the key is free |
| Projects.SaveConfig | app/routes/projects.py:587-627 | maintainers; 400 without key and value; 404 outside the project; afterwards the key holds the value, and rows of other keys and environments are untouched |
| Projects.SaveConfigValid | app/routes/projects.py:605-622 | the upsert keeps one row per key and environment |
| Projects.ConfigMapOutside | app/routes/api.py:28-32 | stores agreeing outside one key serve the same configs outside it |
| Projects.SaveConfigThenRead | app/routes/projects.py:605-622 | after a save the client API returns the new value and every other key as before |
| Projects.SaveSecret | app/routes/projects.py:629-679 | as the config save, storing the value encrypted with the environment key; an encryption failure changes nothing |
| Projects.SaveSecretValid | app/routes/projects.py:647-671 | the upsert keeps one secret per key and environment |
| Projects.SaveSecretThenDecrypt | app/routes/projects.py:649-669 | a client holding the environment key decrypts the returned secret back to the value saved |
| Projects.DeleteConfig | app/routes/projects.py:681-706 | 404 outside the project, and exactly when the key is absent; succeeds exactly when the key is present, deleting that one row |
| Projects.DeleteConfigThenRead | app/routes/projects.py:681-706 | after a delete the key is gone from the API and every other key is as before |
| Projects.DeleteSecret | app/routes/projects.py:708-732 | 404 outside the project, and exactly when the key is absent; succeeds exactly when the key is present, deleting that one row |
| Projects.DeleteSecretThenRead | app/routes/projects.py:708-732 | after a delete the secret is gone from the API |
| Admin.AdminTarget | app/routes/main.py:50-58 | non-administrators, the caller's own id and missing users are refused |
| Admin.ToggleAdmin | app/routes/main.py:47-64 | negates only the target's administrator flag |
| Admin.ToggleAdminTwice | app/routes/main.py:54-60 | toggling twice restores the store, keeps the invariant, and never touches the caller's own flag |
| Admin.SoleOwned | app/routes/main.py:79-89 | exactly the projects whose only owner is the user |
| Admin.WithoutUser | app/models.py:14 | deleting the user deletes exactly their memberships with them |
| Admin.DeleteUser | app/routes/main.py:66-99 | refused exactly when the admin checks fail or the user solely owns a project, naming those projects |
| Admin.DeleteUserKeepsOwners | app/routes/main.py:79-97 | after a deletion every project that had an owner has one, the invariant holds, and the user is a member nowhere |
| Cors.WordRun | app/__init__.py:54 | the longest prefix of `\w` characters |
| Cors.WordRunOf | app/__init__.py:54 | a word followed by a non-word character is read whole |
| Cors.SearchApiPath | app/__init__.py:54 | `re.search` returns the match at the leftmost position where the pattern matches, or none matches anywhere |
| Cors.MatchApiPath | app/__init__.py:54 | a match at a position starts with `/api/` and has a non-empty name group |
| Cors.MatchAfterPrefix | app/__init__.py:54 | a match after `/api/` has a non-empty name group |
| Cors.Granted | app/__init__.py:69-72 | header names are distinct, and the one `Access-Control-Allow-Origin` header echoes the origin |
| Cors.AfterPrefixOf | app/__init__.py:54-56 | `<kind>/<digits>/<name>` yields the digits' value |
| Cors.ClientPathMatches | app/__init__.py:54-56 | a client API path yields its project id |
| Cors.CorsEnvironment | app/__init__.py:60-65 | the environment of the first active row with the bearer text, without an expiry check |
| Cors.CorsHeaders | app/__init__.py:39-74 | adds the four headers, echoing the origin, exactly for an `api.` endpoint with a non-empty origin, a matched non-zero project id and a whitelisted origin; otherwise nothing |
| Cors.OnlyApiEndpoints | app/__init__.py:43 | other endpoints never get the headers |
| Cors.ListedOriginGranted | app/__init__.py:68-72 | an origin listed as a full URL in the applicable entries is granted |
| Crypto.DeriveKey | app/utils/encryption.py:14-26 | a given salt is kept, otherwise a 32-byte one is drawn; the key is derived from the password and the returned salt |
| Crypto.DeriveAgain | app/utils/encryption.py:14-26 | deriving again with the returned salt gives the same key |
| BackupDocs.MemberIds | app/utils/backup.py:66 | the users holding a membership of the project, ascending |
| BackupDocs.ExportEnvironment | app/utils/backup.py:33-62 | name and key of the environment; each config and secret document comes from one of its rows, ciphertext unchanged |
| BackupDocs.Export | app/utils/backup.py:12-85 | fails for a missing project, or a member without a user row; stamps version `1.0`; members are listed exactly when asked for |
| BackupDocs.ExportedRows | app/utils/backup.py:42-60 | an exported environment carries exactly its config and secret rows, each key once |
| BackupDocs.ListedRows | app/utils/backup.py:43-50 | listing each row of an environment once lists its pairs |
| BackupDocs.ExportedConfigRows | app/utils/backup.py:42-50 | the exported configs are exactly the environment's config rows |
| BackupDocs.ExportedSecretRows | app/utils/backup.py:52-60 | the exported secrets are exactly the environment's secret rows |
| BackupDocs.ExportedEnvironments | app/utils/backup.py:32-62 | one document per environment of the project, in id order, with distinct names |
| BackupDocs.ExportedEntries | app/utils/backup.py:77-83 | one document per entry of the project, keeping text and description only |
| BackupDocs.ExportedMembers | app/utils/backup.py:65-74 | one document per member, with the user's username and email and the member's role |
| BackupDocs.MemberDocs | app/utils/backup.py:65-74 | one member document per member id of the project |
| ProjectRestore.RestoreConfigs | app/utils/backup.py:147-153 | a failure is a unique-constraint violation; otherwise only the configs change, and the counter by one per document |
| ProjectRestore.RestoreSecrets | app/utils/backup.py:156-162 | a failure is a unique-constraint violation; otherwise only the secrets change, and the counter by one per document |
| ProjectRestore.RestoreConfigsOk | app/utils/backup.py:147-153 | succeeds exactly when the documents' keys are distinct and new to the environment |
| ProjectRestore.RestoredConfigs | app/utils/backup.py:147-153 | on success the environment holds its old pairs followed by the documents', and no other environment gains a row |
| ProjectRestore.RestoreConfigsValid | app/models.py:69 | restored configs keep the invariant |
| ProjectRestore.RestoreSecretsOk | app/utils/backup.py:156-162 | succeeds exactly when the documents' keys are distinct and new to the environment |
| ProjectRestore.RestoredSecrets | app/utils/backup.py:156-162 | on success the environment holds its old pairs followed by the documents', and no other environment gains a row |
| ProjectRestore.RestoreSecretsValid | app/models.py:81 | restored secrets keep the invariant |
| ProjectRestore.RestoreEnvironment | app/utils/backup.py:138-162 | a name used in the project is a constraint violation; otherwise the environment row with its exported key, then its configs and secrets |
| ProjectRestore.EnvironmentOk | app/utils/backup.py:138-162 | one environment restores exactly when its name is free in the project and its config and secret keys are distinct |
| ProjectRestore.RestoredEnvironmentValid | app/utils/backup.py:138-162 | a restored environment keeps the invariant |
| ProjectRestore.RestoredEnvironment | app/utils/backup.py:138-162 | the environment takes the next id, holds exactly the documented rows, and is the only place rows are added |
| ProjectRestore.RestoreEnvironments | app/utils/backup.py:137-162 | a failure is a constraint violation; only environments, configs, secrets and the counter change |
| ProjectRestore.RestoreEnvironmentsOk | app/utils/backup.py:137-162 | succeeds exactly when every document fits and names are distinct |
| ProjectRestore.RestoreEnvironmentsGrow | app/utils/backup.py:137-162 | keeps the invariant and old environments, and adds rows only to new environments of the project |
| ProjectRestore.EnvironmentsFromDocs | app/utils/backup.py:137-162 | each document becomes a new environment holding exactly its rows |
| ProjectRestore.DocsOfEnvironments | app/utils/backup.py:137-162 | each new environment comes from a document |
| ProjectRestore.UserMatch | app/utils/backup.py:168-171 | a user with the document's username or email, or none when no user has either |
| ProjectRestore.UserMatchOwn | app/utils/backup.py:168-171 | a document with a user's own username and email names that user |
| ProjectRestore.RestoreMembers | app/utils/backup.py:166-180 | unmatched documents are skipped; a failure is a constraint violation; only memberships change |
| ProjectRestore.AddMembersOk | app/utils/backup.py:166-180 | succeeds exactly when no matched user is already a member and no two documents match one user |
| ProjectRestore.AddedMembers | app/utils/backup.py:173-180 | matched users get the document's role in the project; other memberships stay; every new one is in the project and comes from a document |
| ProjectRestore.RestoreIps | app/utils/backup.py:183-189 | only the entries change, and the counter by one per document |
| ProjectRestore.RestoredIpAt | app/utils/backup.py:183-189 | document k becomes the entry with the k-th new id: project-wide, unflagged, with its text and description |
| ProjectRestore.RestoredIps | app/utils/backup.py:183-189 | old entries stay, and every new entry has one of the ids handed to the documents |
| ProjectRestore.EntriesOfDocs | app/utils/backup.py:183-189 | old entries stay; each document has its entry, and each new entry comes from a document |
| ProjectRestore.RestoreIpsValid | app/utils/backup.py:183-189 | restored entries keep the invariant |
| ProjectRestore.RestoredName | app/utils/backup.py:121 | a non-empty new name wins, otherwise the exported name |
| ProjectRestore.RestoreUsers | app/utils/backup.py:165 | members are restored only when asked for and present in the document |
| ProjectRestore.Restore | app/utils/backup.py:114-196 | rejects a document without version or project and a taken name; on success adds the project under the next id and leaves users and tokens alone |
| ProjectRestore.EnvDocsFitNew | app/utils/backup.py:137-162 | in a project without environments, documents fit exactly when names and keys are distinct |
| ProjectRestore.RestoreOkStages | app/utils/backup.py:129-189 | past the format and name checks, a restore succeeds exactly when its environments and then its members do |
| ProjectRestore.RestoreOk | app/utils/backup.py:114-196 | a restore succeeds exactly when the document is well-formed, the name free, the environments sound and the members fit |
| ProjectRestore.RestoreValid | app/utils/backup.py:191 | a restore keeps the invariant |
| ProjectRestore.NewProjectEnvironments | app/utils/backup.py:137-144 | the new project's environments are exactly those created |
| ProjectRestore.EnvironmentsOfNewProject | app/utils/backup.py:137-162 | the new project's environments correspond one to one with the documents, with exactly their rows |
| ProjectRestore.RestoredProjectEnvironments | app/utils/backup.py:129-162 | after a restore the project's environments match the documents |
| ProjectRestore.RestoreKeepsEnvironments | app/utils/backup.py:137-162 | old environments, configs and secrets stay; new rows belong to the new project |
| ProjectRestore.RestoredProjectMembers | app/utils/backup.py:165-180 | matched users join the new project with the documented role; nothing else changes, and nothing at all without restore_users |
| ProjectRestore.RestoredProjectEntries | app/utils/backup.py:183-189 | every document has a project-wide, unflagged entry in the new project; every new entry comes from a document; old entries stay |
| ProjectRestore.RestoreIgnoresVersion | app/utils/backup.py:118-119 | the version must be present but its value does not matter |
| RoundTrip.SameMap | app/routes/api.py:30-32 | dictionaries holding the same pairs are equal |
| RoundTrip.ConfigMapPairs | app/routes/api.py:28-32 | the served configs are exactly the environment's (key, value) pairs |
| RoundTrip.SecretMapPairs | app/routes/api.py:55-59 | the served secrets are exactly the environment's (key, ciphertext) pairs |
| RoundTrip.RestoredIsSame | app/utils/backup.py:138-162 | an environment restored from an export has the same name and key and serves the same configs and secrets |
| RoundTrip.ExportedMembersMatch | app/utils/backup.py:65-74 | each exported member document matches its own user again |
| RoundTrip.ExportedEnvDocsSound | app/utils/backup.py:32-62 | exported environments have distinct names and keys |
| RoundTrip.ExportedMembersFit | app/utils/backup.py:65-74 | exported members fit a fresh project |
| RoundTrip.ExportRestores | app/utils/backup.py:114-196 | an export restores under a free non-empty name |
| RoundTrip.RoundTripEnvironments | app/utils/backup.py:12-162 | the restored project's environments correspond both ways to the original's: same name, key, configs and secrets |
| RoundTrip.RoundTripMembers | app/utils/backup.py:65-180 | with members, the restored project has exactly the original's members with the same roles |
| RoundTrip.RoundTripEntries | app/utils/backup.py:77-189 | every original entry reappears project-wide and unflagged, and nothing else is added |
| RoundTrip.EnvironmentsCorrespond | app/utils/backup.py:32-162 | environments matching exported documents correspond both ways to the originals, with the same name, key, configs and secrets |
| RoundTrip.MembersCorrespond | app/utils/backup.py:65-180 | memberships built from exported member documents are exactly the original members with the same roles |
| RoundTrip.EntriesCorrespond | app/utils/backup.py:77-189 | entries built from exported entry documents are the originals, project-wide and unflagged, and nothing else |
| RoundTrip.RestoreUnderOwnName | app/utils/backup.py:121-126 | restoring into the same store under the original name fails: the name is taken |
| EncryptedBackup.Seal | app/utils/backup.py:88-111 | an export failure passes through; the archive holds the payload, the hex salt and `info.json` |
| EncryptedBackup.Open | app/utils/backup.py:204-217 | missing payload, missing salt and non-hex salt are reported in that order; success is the decrypted, parsed document |
| EncryptedBackup.RestoreEncrypted | app/utils/backup.py:199-227 | every failure is wrapped as a failed restore; success is restoring the opened document |
| EncryptedBackup.SealOk | app/utils/backup.py:88-97 | with usable derived keys, sealing fails exactly when the export does |
| EncryptedBackup.OpenSealed | app/utils/backup.py:93-217 | opening a sealed archive with its password gives back the exported document |
| EncryptedBackup.RestoreSealed | app/utils/backup.py:88-227 | restoring a sealed archive is restoring the export itself, with errors wrapped |

## Left out

- Flask plumbing is not modelled: templates, flashes, redirects and the form and JSON decoding.
  A form field the route tests with `not x` (`name`, `ip_address`, `user_id`) is `None` when missing or empty; `Blank` covers both.
  The `role` of `add_user` defaults only when missing: an empty `role` is stored as the empty text, a role of level 0.
  A non-numeric id in a URL (`<int:...>`) is rejected by the router.
- The GET pages are not modelled: `view_project`, `view_environment`, `manage_users`, `manage_security`, `backup_project`, `get_environment_ips`, `admin_users` and its statistics, and `index`.
- `download_backup` and the `restore_project` route are not modelled.
  Their logic is `EncryptedBackup.Seal` and `EncryptedBackup.RestoreEncrypted`.
  The owner membership that `restore_project` adds after a restore is not modelled.
- Cryptography is abstract: Fernet, PBKDF2 and the random salt, key and token generators.
  The `Crypto.Cipher` functions and the explicit `drawn`, `key`, `token` and `nonce` parameters stand for them.
  Their laws (`Crypto.Sound`, `Crypto.DerivedKeysWork`) are hypotheses of the lemmas that use them.
- JSON, ZIP and UTF-8 decoding are abstract.
  `EncryptedBackup.Json` stands for them, with the law `EncryptedBackup.Faithful`.
  An archive is a map from member name to text.
  A payload that parses but is not a readable backup object is reported as `NotABackup`.
- Python's `ipaddress` text parsing and DNS are abstract.
  A `Net.Resolver` supplies address and network parsing, whether the name codec accepts a host, and lookups.
  Which names the codec refuses is therefore a parameter, not the codec's own rules.
  Address arithmetic is modelled; the textual forms of addresses are not.
- Regular expressions are modelled only for the inputs they see.
  `\d` and `\w` are taken to be ASCII, and `.` excludes only `\n`.
  Unicode digits and letters, which Python's `re` also accepts, are not modelled.
- Every table read without `ORDER BY` is assumed to return rows in ascending id order.
  This fixes the order of the exported environments, configs, secrets and entries, and the row `.first()` returns.
- BackupDocs.MemberIds: lists a project's members in ascending user id, where the export lists them in membership row order. Memberships are keyed by (user, project) and carry no row id here, so a user who joined before one with a lower id is exported later in the source than in the model. The restored memberships do not depend on this order.
- Timestamps are natural numbers.
  The export's ISO text and the `created_at` and `updated_at` defaults appear only as the `now` parameter.
  `utcnow()` is that parameter too.
- The unreachable "Invalid port number" branch of the entry validation is not modelled. The port is always digits there.
- Backup documents are typed. A missing `environments`, `configs`, `secrets` or `allowed_ips` list is read as empty.
  A record missing one of its keys, or holding `null`, is not modelled; in the source it raises a `KeyError` that aborts the restore.
- A failed restore returns an error and no store.
  The rollback of `restore_project_backup` is therefore implicit, and no partial project can remain.
- A unique-constraint failure during restore is one error, `Integrity`, whichever constraint failed.
- Foreign keys are not enforced: memberships and project-wide entries may name rows that do not exist.
  `add_user` neither checks the user nor validates the role.
- `change_user_role` fails after its commit when the membership's user row does not exist: it cannot read the username for its message.
  The model keeps only the committed change.
- Concurrency and the database's isolation are not modelled. Each route is one atomic step.
- RoundTrip.RoundTripMembers: assumes no stale membership already names the id the new project will get, which `RoundTrip.RoundTripReady` states.
- RoundTrip.RoundTripEntries: states that every original entry reappears and that every new entry comes from one, but not how many times each appears.
- ProjectRestore.RestoredProjectEntries: states that each document has an entry and each new entry comes from a document, but not that there is one entry per document; `ProjectRestore.RestoredIpAt` gives the exact id of each.
- RoundTrip.EntriesCorrespond: like `RoundTrip.RoundTripEntries`, does not count how many times each entry appears.
- RoundTrip.RoundTripEnvironments: relates environments through what the client API serves, not through their timestamps, which the restore resets to the time of the restore.
- Cors.SearchApiPath: the pattern `/api/\w+/(\d+)/(\w+)` is matched by taking the longest run for each group, a reading argued in a comment and not proved against a semantics of regular expressions; `Cors.ClientPathMatches` proves the paths of the client API routes match.
- Cors.CorsEnvironment: the hook's token lookup has no expiry check, and the model follows it. An expired but active token still scopes the CORS check to its environment.
- Projects.AddUser: the form's `user_id` is modelled as a number. In the source it is any non-empty text, used unchecked in the membership query and insert; under SQLite, which enforces no foreign keys, a text such as `abc` or `-1` is stored as the membership's user, and PostgreSQL fails at the insert. Neither case is modelled.
- Projects.CreateProject: the new project's id is the store's single counter, where the database gives each table its own `INTEGER PRIMARY KEY` sequence (one past the table's largest id under SQLite). The ids therefore differ whenever other tables have grown, and so does which stale membership clashes: with only user 1, an admin who first adds membership (1, 1) and then creates a project gets `MembershipClash` from the database (the project is `projects.id` 1) but `Ok` from the model (the project gets the counter's id). The same holds for the `Integrity` of `ProjectRestore.RestoreMembers` and the stale-membership hypothesis of `RoundTrip.RoundTripReady`.
- Projects.RemoveUserKeepsOwner: covers callers who are not administrators only. An administrator may leave a project without owners, as `Projects.AdminRemovesLastOwner` shows.

=== FILE: admin.dfy ===
/** The administrator routes of app/routes/main.py: granting and revoking the
    administrator flag, and deleting a user together with their memberships. */
module Admin {
  import opened Wrappers
  import opened Schema
  import opened Rows
  import opened Auth

  datatype AdminError =
    | LoginRequired    // 302 to the login page
    | AdminRequired    // "Access denied. Admin privileges required."
    | NotYourself      // an administrator may not act on their own account
    | UserNotFound     // 404 from `get_or_404`
    | SoleOwner(projects: set<nat>) // "Cannot delete user. They are the sole owner of: ..."
    | ProjectMissing   // a sole-owned project row is gone: reading its name fails (500)

  /** The checks both routes make first: signed in, administrator, not the
      caller's own account, and an existing user. */
  function AdminTarget(s: Store, session: Session, userId: nat): (res: Result<(), AdminError>)
    ensures res.Ok? <==> session.SignedIn? && session.isAdmin && userId != session.userId && userId in s.users
    ensures session.SignedIn? && !session.isAdmin ==> res == Err(AdminRequired)
    ensures session.SignedIn? && session.isAdmin && userId == session.userId ==> res == Err(NotYourself)
  {
    if session.Anonymous? then Err(LoginRequired)
    else if !session.isAdmin then Err(AdminRequired)
    else if userId == session.userId then Err(NotYourself)
    else if userId !in s.users then Err(UserNotFound)
    else Ok(())
  }

  /** `toggle_admin`: on success, the new store and the user's new flag. */
  function ToggleAdmin(s: Store, session: Session, userId: nat): (res: Result<(Store, bool), AdminError>)
    ensures res.Ok? <==> AdminTarget(s, session, userId).Ok?
    ensures AdminTarget(s, session, userId).Err? ==> res == Err(AdminTarget(s, session, userId).error)
    ensures res.Ok? ==>
      var (s', flag) := res.value;
      && AdminTarget(s, session, userId).Ok?
      && flag == !s.users[userId].isAdmin
      && s'.users.Keys == s.users.Keys
      && s'.users[userId] == s.users[userId].(isAdmin := flag)
      && (forall u :: u in s.users && u != userId ==> s'.users[u] == s.users[u])
      && s'.(users := s.users) == s
  {
    match AdminTarget(s, session, userId)
    case Err(e) => Err(e)
    case Ok(_) =>
      var user := s.users[userId];
      Ok((s.(users := s.users[userId := user.(isAdmin := !user.isAdmin)]), !user.isAdmin))
  }

  /** Toggling twice restores the store; the invariant is kept; and the caller
      never loses their own flag, so an administrator always remains. */
  lemma ToggleAdminTwice(s: Store, session: Session, userId: nat)
    requires ToggleAdmin(s, session, userId).Ok?
    ensures var s1 := ToggleAdmin(s, session, userId).value.0;
      && ToggleAdmin(s1, session, userId).Ok?
      && ToggleAdmin(s1, session, userId).value.0 == s
      && (Valid(s) ==> Valid(s1))
      && (session.userId in s.users ==>
            (session.userId in s1.users && s1.users[session.userId].isAdmin == s.users[session.userId].isAdmin))
  {
    var s1 := ToggleAdmin(s, session, userId).value.0;
    var s2 := ToggleAdmin(s1, session, userId).value.0;
    assert s2.users == s.users;
    if Valid(s) {
      UserFlagValid(s, userId);
    }
  }

  /** The projects the user alone owns. */
  function SoleOwned(s: Store, userId: nat): (ps: set<nat>)
    ensures forall p :: p in ps <==> Owners(s, p) == {userId}
  {
    var ps := set k | k in s.members && k.0 == userId && s.members[k].role == Owner && |Owners(s, k.1)| == 1 :: k.1;
    assert forall p :: p in ps <==> Owners(s, p) == {userId} by {
      forall p ensures p in ps <==> Owners(s, p) == {userId} {
        OwnersMembership(s, p, userId);
        if Owners(s, p) == {userId} {
          var k := (userId, p);
          assert k in s.members && k.0 == userId && s.members[k].role == Owner && |Owners(s, k.1)| == 1;
        }
        if p in ps {
          var k :| k in s.members && k.0 == userId && s.members[k].role == Owner && |Owners(s, k.1)| == 1 && k.1 == p;
          assert |Owners(s, p) - {userId}| == |Owners(s, p)| - 1;
          assert Owners(s, p) - {userId} == {};
        }
      }
    }
    ps
  }

  /** The user's memberships are deleted with them. */
  function WithoutUser(s: Store, userId: nat): (s': Store)
    ensures s'.users.Keys == s.users.Keys - {userId}
    ensures forall u :: u in s'.users ==> s'.users[u] == s.users[u]
    ensures forall k :: k in s'.members <==> k in s.members && k.0 != userId
    ensures forall k :: k in s'.members ==> s'.members[k] == s.members[k]
    ensures s'.(users := s.users, members := s.members) == s
  {
    s.(users := s.users - {userId}, members := map k | k in s.members && k.0 != userId :: s.members[k])
  }

  /** `delete_user`: refused while the user is the only owner of a project. */
  function DeleteUser(s: Store, session: Session, userId: nat): (res: Result<Store, AdminError>)
    ensures res.Ok? <==> AdminTarget(s, session, userId).Ok? && SoleOwned(s, userId) == {}
    ensures AdminTarget(s, session, userId).Err? ==> res == Err(AdminTarget(s, session, userId).error)
    ensures res.Err? && res.error.SoleOwner? ==>
      res.error.projects == SoleOwned(s, userId) && res.error.projects != {} && res.error.projects <= s.projects.Keys
    ensures res.Ok? ==> res.value == WithoutUser(s, userId)
  {
    match AdminTarget(s, session, userId)
    case Err(e) => Err(e)
    case Ok(_) =>
      var sole := SoleOwned(s, userId);
      if exists p :: p in sole && p !in s.projects then Err(ProjectMissing)
      else if sole != {} then Err(SoleOwner(sole))
      else Ok(WithoutUser(s, userId))
  }

  /** Deleting a user keeps the invariant, leaves every project that had an
      owner with one, and leaves the user no access as a member anywhere. */
  lemma DeleteUserKeepsOwners(s: Store, session: Session, userId: nat)
    requires Valid(s)
    requires DeleteUser(s, session, userId).Ok?
    ensures var s' := DeleteUser(s, session, userId).value;
      && Valid(s')
      && (forall p :: Owners(s, p) != {} ==> Owners(s', p) != {})
      && (forall p :: p != 0 ==> RequireProjectPermission(s', SignedIn(userId, false), p, Reader) == Err(NotMember))
  {
    var s' := DeleteUser(s, session, userId).value;
    RemoveUserValid(s, userId);
    MembersFree(s.(users := s.users - {userId}), s'.members);
    assert s' == s.(users := s.users - {userId}).(members := s'.members);
    forall p | Owners(s, p) != {} ensures Owners(s', p) != {} {
      var v :| v in Owners(s, p);
      OwnersMembership(s, p, v);
      if v == userId {
        assert Owners(s, p) != {userId};
        var w :| w in Owners(s, p) && w != userId;
        OwnersMembership(s, p, w);
        OwnersMembership(s', p, w);
      } else {
        OwnersMembership(s', p, v);
      }
    }
  }
}

=== FILE: api.dfy ===
/** The routes of app/routes/api.py: the three read endpoints a client reaches
    with a bearer token, and the token management endpoints an owner reaches
    from the web interface. */
module Api {
  import opened Wrappers
  import opened Text
  import opened Net
  import opened Schema
  import opened Tables
  import opened Rows
  import opened Whitelist
  import opened Auth

  datatype ApiError =
    | Refused(denial: Denial)  // the guard's own response
    | WrongProject             // 403 "Token not valid for this project"
    | EnvironmentInaccessible  // 404 "Environment not found or not accessible"
    | EnvironmentNotFound      // 404 "Environment not found"
    | TokenNotFound            // 404 "API token not found"
    | TokenNameMissing         // the insert fails: a token name may not be null
    | TokenTaken               // the insert fails: token text is unique

  /** A year of seconds: the lifetime of a new token. */
  const Year: nat := 365 * 24 * 60 * 60

  // ---------------------------------------------------------------------------
  // Read endpoints

  /** The project's environment with this name, as `.first()` finds it. */
  function EnvironmentNamed(s: Store, projectId: nat, name: string): (e: Option<nat>)
    ensures e.Some? ==> EnvironmentOf(s, e.value, projectId) && s.environments[e.value].name == name
    ensures e.None? ==> forall i :: i in s.environments && i < s.nextId ==>
      !(s.environments[i].projectId == projectId && s.environments[i].name == name)
  {
    First(s.environments, s.nextId, (v: Environment) => v.projectId == projectId && v.name == name)
  }

  /** The token guard, then the checks every read endpoint repeats: the token's
      project must be the path's, and the path's environment must exist and be
      the token's. On success, the token row and the environment served. */
  function ReadTarget(r: Resolver, s: Store, req: Request, now: nat, projectId: nat, envName: string)
    : (res: Result<(nat, nat), ApiError>)
    ensures RequireApiToken(r, s, req, now).Err? ==> res == Err(Refused(RequireApiToken(r, s, req, now).error))
    ensures res.Ok? ==>
      && RequireApiToken(r, s, req, now) == Ok(res.value.0)
      && s.tokens[res.value.0].projectId == projectId
      && s.tokens[res.value.0].envId == res.value.1
      && EnvironmentOf(s, res.value.1, projectId)
      && s.environments[res.value.1].name == envName
    ensures res == Err(WrongProject) <==>
      RequireApiToken(r, s, req, now).Ok? && s.tokens[RequireApiToken(r, s, req, now).value].projectId != projectId
    ensures res == Err(EnvironmentInaccessible) <==>
      && RequireApiToken(r, s, req, now).Ok?
      && s.tokens[RequireApiToken(r, s, req, now).value].projectId == projectId
      && (|| EnvironmentNamed(s, projectId, envName).None?
          || EnvironmentNamed(s, projectId, envName).value != s.tokens[RequireApiToken(r, s, req, now).value].envId)
    ensures RequireApiToken(r, s, req, now).Ok? ==> res.Ok? || res == Err(WrongProject) || res == Err(EnvironmentInaccessible)
  {
    match RequireApiToken(r, s, req, now)
    case Err(d) => Err(Refused(d))
    case Ok(t) =>
      if s.tokens[t].projectId != projectId then Err(WrongProject)
      else match EnvironmentNamed(s, projectId, envName)
        case None => Err(EnvironmentInaccessible)
        case Some(e) => if s.tokens[t].envId != e then Err(EnvironmentInaccessible) else Ok((t, e))
  }

  /** A token reaches one environment only: with an accepted token, any other
      environment name of the project is refused with 404. */
  lemma TokenServesOneEnvironment(r: Resolver, s: Store, req: Request, now: nat, projectId: nat, other: nat)
    requires Valid(s)
    requires RequireApiToken(r, s, req, now).Ok?
    requires s.tokens[RequireApiToken(r, s, req, now).value].projectId == projectId
    requires EnvironmentOf(s, other, projectId) && other != s.tokens[RequireApiToken(r, s, req, now).value].envId
    ensures ReadTarget(r, s, req, now, projectId, s.environments[other].name) == Err(EnvironmentInaccessible)
  {
    var name := s.environments[other].name;
    FirstUnique(s.environments, s.nextId, (v: Environment) => v.projectId == projectId && v.name == name, other);
  }

  /** The configuration of an environment as the endpoints return it. */
  function ConfigMap(s: Store, envId: nat): map<string, string> {
    Collect(s.configs, Select(s.configs, s.nextId, (c: Config) => c.envId == envId),
            (c: Config) => c.key, (c: Config) => c.value)
  }

  /** The secrets of an environment as the endpoints return them: ciphertext. */
  function SecretMap(s: Store, envId: nat): map<string, string> {
    Collect(s.secrets, Select(s.secrets, s.nextId, (c: Secret) => c.envId == envId),
            (c: Secret) => c.key, (c: Secret) => c.encryptedValue)
  }

  /** The returned configuration is exactly the environment's config rows. */
  lemma ConfigMapExact(s: Store, envId: nat)
    requires Valid(s)
    ensures forall i :: i in s.configs && s.configs[i].envId == envId ==>
      s.configs[i].key in ConfigMap(s, envId) && ConfigMap(s, envId)[s.configs[i].key] == s.configs[i].value
    ensures forall k :: k in ConfigMap(s, envId) ==>
      exists i :: i in s.configs && s.configs[i].envId == envId && s.configs[i].key == k
  {
    SelectCollect(s.configs, s.nextId, (c: Config) => c.envId == envId, (c: Config) => c.key, (c: Config) => c.value);
  }

  /** The returned secrets are exactly the environment's secret rows, with the
      stored ciphertext: nothing is decrypted on the server. */
  lemma SecretMapExact(s: Store, envId: nat)
    requires Valid(s)
    ensures forall i :: i in s.secrets && s.secrets[i].envId == envId ==>
      s.secrets[i].key in SecretMap(s, envId) && SecretMap(s, envId)[s.secrets[i].key] == s.secrets[i].encryptedValue
    ensures forall k :: k in SecretMap(s, envId) ==>
      exists i :: i in s.secrets && s.secrets[i].envId == envId && s.secrets[i].key == k
  {
    SelectCollect(s.secrets, s.nextId, (c: Secret) => c.envId == envId, (c: Secret) => c.key,
                  (c: Secret) => c.encryptedValue);
  }

  datatype ConfigsBody = ConfigsBody(projectId: nat, environment: string, configs: map<string, string>)

  datatype SecretsBody = SecretsBody(projectId: nat, environment: string, environmentKey: string,
                                     secrets: map<string, string>)

  datatype AllBody = AllBody(projectId: nat, environment: string, environmentKey: string,
                             configs: map<string, string>, secrets: map<string, string>)

  /** `GET /api/config/<project_id>/<environment_name>`. */
  function GetConfig(r: Resolver, s: Store, req: Request, now: nat, projectId: nat, envName: string)
    : (res: Result<ConfigsBody, ApiError>)
    ensures res.Err? <==> ReadTarget(r, s, req, now, projectId, envName).Err?
    ensures res.Err? ==> res.error == ReadTarget(r, s, req, now, projectId, envName).error
    ensures res.Ok? ==>
      res.value.projectId == projectId && res.value.environment == envName
      && res.value.configs == ConfigMap(s, ReadTarget(r, s, req, now, projectId, envName).value.1)
  {
    match ReadTarget(r, s, req, now, projectId, envName)
    case Err(e) => Err(e)
    case Ok((_, env)) => Ok(ConfigsBody(projectId, envName, ConfigMap(s, env)))
  }

  /** `GET /api/secrets/<project_id>/<environment_name>`: the ciphertext and the
      environment's key, for the client to decrypt. */
  function GetSecrets(r: Resolver, s: Store, req: Request, now: nat, projectId: nat, envName: string)
    : (res: Result<SecretsBody, ApiError>)
    ensures res.Err? <==> ReadTarget(r, s, req, now, projectId, envName).Err?
    ensures res.Err? ==> res.error == ReadTarget(r, s, req, now, projectId, envName).error
    ensures res.Ok? ==>
      var env := ReadTarget(r, s, req, now, projectId, envName).value.1;
      res.value.projectId == projectId && res.value.environment == envName
      && res.value.environmentKey == s.environments[env].secretKey
      && res.value.secrets == SecretMap(s, env)
  {
    match ReadTarget(r, s, req, now, projectId, envName)
    case Err(e) => Err(e)
    case Ok((_, env)) => Ok(SecretsBody(projectId, envName, s.environments[env].secretKey, SecretMap(s, env)))
  }

  /** `GET /api/all/<project_id>/<environment_name>`: both of the above. */
  function GetAll(r: Resolver, s: Store, req: Request, now: nat, projectId: nat, envName: string)
    : (res: Result<AllBody, ApiError>)
    ensures res.Err? <==> GetConfig(r, s, req, now, projectId, envName).Err?
    ensures res.Err? ==> res.error == GetConfig(r, s, req, now, projectId, envName).error
    ensures res.Ok? ==>
      && res.value.configs == GetConfig(r, s, req, now, projectId, envName).value.configs
      && res.value.secrets == GetSecrets(r, s, req, now, projectId, envName).value.secrets
      && res.value.environmentKey == GetSecrets(r, s, req, now, projectId, envName).value.environmentKey
  {
    match ReadTarget(r, s, req, now, projectId, envName)
    case Err(e) => Err(e)
    case Ok((_, env)) =>
      Ok(AllBody(projectId, envName, s.environments[env].secretKey, ConfigMap(s, env), SecretMap(s, env)))
  }

  // ---------------------------------------------------------------------------
  // Token management

  /** The token name from the JSON body: `API Token` when there is no body or
      it is empty, otherwise its `name` member, which may be missing. */
  function TokenName(body: Option<map<string, string>>): (name: Option<string>)
    ensures body.None? || body.value == map[] ==> name == Some("API Token")
    ensures body.Some? && body.value != map[] ==>
      (name.Some? <==> "name" in body.value) && (name.Some? ==> name.value == body.value["name"])
  {
    if body.None? || body.value == map[] then Some("API Token")
    else if "name" in body.value then Some(body.value["name"])
    else None
  }

  /** `POST /api/manage/token/<project_id>/<environment_id>` (owners only):
      `token` is the freshly generated token text, `now` the clock. On success,
      the new store and the new token's id. */
  function CreateApiToken(s: Store, session: Session, projectId: nat, envId: nat,
                          body: Option<map<string, string>>, token: string, now: nat)
    : (res: Result<(Store, nat), ApiError>)
    ensures RequireLoginAndPermission(s, session, projectId, Owner).Err? ==>
      res == Err(Refused(RequireLoginAndPermission(s, session, projectId, Owner).error))
    ensures RequireLoginAndPermission(s, session, projectId, Owner).Ok? && !EnvironmentOf(s, envId, projectId) ==>
      res == Err(EnvironmentNotFound)
    ensures res == Err(TokenNameMissing) <==>
      RequireLoginAndPermission(s, session, projectId, Owner).Ok? && EnvironmentOf(s, envId, projectId)
      && TokenName(body).None?
    ensures res == Err(TokenTaken) <==>
      RequireLoginAndPermission(s, session, projectId, Owner).Ok? && EnvironmentOf(s, envId, projectId)
      && TokenName(body).Some? && !TokenFree(s, token)
    ensures res.Ok? <==>
      RequireLoginAndPermission(s, session, projectId, Owner).Ok? && EnvironmentOf(s, envId, projectId)
      && TokenName(body).Some? && TokenFree(s, token)
    ensures res.Ok? ==>
      var (s', id) := res.value;
      && RequireLoginAndPermission(s, session, projectId, Owner).Ok?
      && EnvironmentOf(s, envId, projectId)
      && id == s.nextId && (Valid(s) ==> id !in s.tokens)
      && s'.tokens.Keys == s.tokens.Keys + {id}
      && (forall i :: i in s.tokens && i != id ==> s'.tokens[i] == s.tokens[i])
      && s'.tokens[id].token == token && s'.tokens[id].isActive
      && s'.tokens[id].projectId == projectId && s'.tokens[id].envId == envId
      && s'.tokens[id].expiresAt == now + Year
      && TokenName(body) == Some(s'.tokens[id].name)
      && s'.(tokens := s.tokens, nextId := s.nextId) == s
  {
    match RequireLoginAndPermission(s, session, projectId, Owner)
    case Err(d) => Err(Refused(d))
    case Ok(_) =>
      if !EnvironmentOf(s, envId, projectId) then Err(EnvironmentNotFound)
      else match TokenName(body)
        case None => Err(TokenNameMissing)
        case Some(name) =>
          if !TokenFree(s, token) then Err(TokenTaken)
          else
            Ok((InsertToken(s, ApiToken(token, projectId, envId, name, now, now + Year, true)), s.nextId))
  }

  lemma CreateApiTokenValid(s: Store, session: Session, projectId: nat, envId: nat,
                            body: Option<map<string, string>>, token: string, now: nat)
    requires Valid(s)
    requires CreateApiToken(s, session, projectId, envId, body, token, now).Ok?
    ensures Valid(CreateApiToken(s, session, projectId, envId, body, token, now).value.0)
  {
    InsertTokenValid(s, ApiToken(token, projectId, envId, TokenName(body).value, now, now + Year, true));
  }

  /** The token guard accepts an active, unexpired token row presented from
      an address its environment's whitelist admits. */
  lemma TokenAccepted(r: Resolver, s: Store, id: nat, req: Request, later: nat)
    requires Valid(s) && id in s.tokens && s.tokens[id].isActive && later <= s.tokens[id].expiresAt
    requires ' ' !in s.tokens[id].token && req.authorization == Some("Bearer " + s.tokens[id].token)
    requires CheckIpWhitelist(r, s.allowedIps, s.tokens[id].projectId, Some(s.tokens[id].envId),
                              ClientIp(req.forwardedFor, req.remoteAddr))
    ensures RequireApiToken(r, s, req, later) == Ok(id)
  {
    BearerTokenRoundTrip(s.tokens[id].token, "");
    ActiveTokenUnique(s, id);
  }

  /** An accepted token reads its own environment, named as it is named. */
  lemma TokenOpens(r: Resolver, s: Store, id: nat, req: Request, later: nat)
    requires Valid(s) && RequireApiToken(r, s, req, later) == Ok(id)
    ensures var t := s.tokens[id];
      ReadTarget(r, s, req, later, t.projectId, s.environments[t.envId].name) == Ok((id, t.envId))
  {
    var t := s.tokens[id];
    var name := s.environments[t.envId].name;
    FirstUnique(s.environments, s.nextId, (v: Environment) => v.projectId == t.projectId && v.name == name, t.envId);
  }

  /** A new token opens its own environment, for a year to the second, from any
      client address its environment's whitelist admits. */
  lemma CreatedTokenWorks(r: Resolver, s: Store, session: Session, projectId: nat, envId: nat,
                          body: Option<map<string, string>>, token: string, now: nat, req: Request, later: nat)
    requires Valid(s)
    requires CreateApiToken(s, session, projectId, envId, body, token, now).Ok?
    requires ' ' !in token && req.authorization == Some("Bearer " + token)
    requires later <= now + Year
    requires CheckIpWhitelist(r, s.allowedIps, projectId, Some(envId), ClientIp(req.forwardedFor, req.remoteAddr))
    ensures var (s', id) := CreateApiToken(s, session, projectId, envId, body, token, now).value;
      RequireApiToken(r, s', req, later) == Ok(id)
      && ReadTarget(r, s', req, later, projectId, s.environments[envId].name) == Ok((id, envId))
  {
    var (s', id) := CreateApiToken(s, session, projectId, envId, body, token, now).value;
    CreateApiTokenValid(s, session, projectId, envId, body, token, now);
    assert s'.allowedIps == s.allowedIps && s'.environments == s.environments;
    TokenAccepted(r, s', id, req, later);
    TokenOpens(r, s', id, req, later);
  }

  /** The token row matching (id, project, environment). */
  predicate TokenAt(s: Store, tokenId: nat, projectId: nat, envId: nat) {
    tokenId in s.tokens && s.tokens[tokenId].projectId == projectId && s.tokens[tokenId].envId == envId
  }

  /** `DELETE /api/manage/token/<project_id>/<environment_id>/<token_id>`. */
  function RevokeApiToken(s: Store, session: Session, projectId: nat, envId: nat, tokenId: nat)
    : (res: Result<Store, ApiError>)
    ensures RequireLoginAndPermission(s, session, projectId, Owner).Err? ==>
      res == Err(Refused(RequireLoginAndPermission(s, session, projectId, Owner).error))
    ensures RequireLoginAndPermission(s, session, projectId, Owner).Ok? && !EnvironmentOf(s, envId, projectId) ==>
      res == Err(EnvironmentNotFound)
    ensures res.Ok? <==>
      RequireLoginAndPermission(s, session, projectId, Owner).Ok? && EnvironmentOf(s, envId, projectId)
      && TokenAt(s, tokenId, projectId, envId)
    ensures (RequireLoginAndPermission(s, session, projectId, Owner).Ok? && EnvironmentOf(s, envId, projectId)
             && !TokenAt(s, tokenId, projectId, envId)) ==> res == Err(TokenNotFound)
    ensures res.Ok? ==>
      res.value.tokens.Keys == s.tokens.Keys - {tokenId}
      && (forall i :: i in res.value.tokens ==> res.value.tokens[i] == s.tokens[i])
      && res.value.(tokens := s.tokens) == s
  {
    match RequireLoginAndPermission(s, session, projectId, Owner)
    case Err(d) => Err(Refused(d))
    case Ok(_) =>
      if !EnvironmentOf(s, envId, projectId) then Err(EnvironmentNotFound)
      else if !TokenAt(s, tokenId, projectId, envId) then Err(TokenNotFound)
      else Ok(s.(tokens := s.tokens - {tokenId}))
  }

  /** A revoked token no longer opens anything. */
  lemma RevokedTokenRefused(r: Resolver, s: Store, session: Session, projectId: nat, envId: nat, tokenId: nat,
                            req: Request, now: nat)
    requires Valid(s)
    requires RevokeApiToken(s, session, projectId, envId, tokenId).Ok?
    requires BearerToken(req.authorization) == Some(s.tokens[tokenId].token)
    ensures RequireApiToken(r, RevokeApiToken(s, session, projectId, envId, tokenId).value, req, now) == Err(InvalidToken)
  {
  }

  /** `POST /api/manage/token/<project_id>/<environment_id>/<token_id>/toggle`:
      on success, the new store and the new value of the flag. */
  function ToggleApiToken(s: Store, session: Session, projectId: nat, envId: nat, tokenId: nat)
    : (res: Result<(Store, bool), ApiError>)
    ensures RequireLoginAndPermission(s, session, projectId, Owner).Err? ==>
      res == Err(Refused(RequireLoginAndPermission(s, session, projectId, Owner).error))
    ensures RequireLoginAndPermission(s, session, projectId, Owner).Ok? && !EnvironmentOf(s, envId, projectId) ==>
      res == Err(EnvironmentNotFound)
    ensures (RequireLoginAndPermission(s, session, projectId, Owner).Ok? && EnvironmentOf(s, envId, projectId)
             && !TokenAt(s, tokenId, projectId, envId)) ==> res == Err(TokenNotFound)
    ensures res.Ok? <==>
      RequireLoginAndPermission(s, session, projectId, Owner).Ok? && EnvironmentOf(s, envId, projectId)
      && TokenAt(s, tokenId, projectId, envId)
    ensures res.Ok? ==>
      var (s', active) := res.value;
      && active == !s.tokens[tokenId].isActive
      && s'.tokens.Keys == s.tokens.Keys
      && s'.tokens[tokenId] == s.tokens[tokenId].(isActive := active)
      && (forall i :: i in s.tokens && i != tokenId ==> s'.tokens[i] == s.tokens[i])
      && s'.(tokens := s.tokens) == s
  {
    match RequireLoginAndPermission(s, session, projectId, Owner)
    case Err(d) => Err(Refused(d))
    case Ok(_) =>
      if !EnvironmentOf(s, envId, projectId) then Err(EnvironmentNotFound)
      else if !TokenAt(s, tokenId, projectId, envId) then Err(TokenNotFound)
      else
        var t := s.tokens[tokenId];
        Ok((s.(tokens := s.tokens[tokenId := t.(isActive := !t.isActive)]), !t.isActive))
  }

  /** Toggling twice restores the store. */
  lemma ToggleTwice(s: Store, session: Session, projectId: nat, envId: nat, tokenId: nat)
    requires ToggleApiToken(s, session, projectId, envId, tokenId).Ok?
    ensures var s1 := ToggleApiToken(s, session, projectId, envId, tokenId).value.0;
      ToggleApiToken(s1, session, projectId, envId, tokenId).Ok?
      && ToggleApiToken(s1, session, projectId, envId, tokenId).value.0 == s
  {
    var s1 := ToggleApiToken(s, session, projectId, envId, tokenId).value.0;
    assert s1.members == s.members && s1.environments == s.environments;
    var s2 := ToggleApiToken(s1, session, projectId, envId, tokenId).value.0;
    assert s2.tokens == s.tokens;
  }

  lemma TokenManagementValid(s: Store, session: Session, projectId: nat, envId: nat, tokenId: nat)
    requires Valid(s)
    ensures RevokeApiToken(s, session, projectId, envId, tokenId).Ok? ==>
      Valid(RevokeApiToken(s, session, projectId, envId, tokenId).value)
    ensures ToggleApiToken(s, session, projectId, envId, tokenId).Ok? ==>
      Valid(ToggleApiToken(s, session, projectId, envId, tokenId).value.0)
  {
    RemoveTokenValid(s, tokenId);
    if tokenId in s.tokens {
      ToggleTokenValid(s, tokenId);
    }
  }
}

=== FILE: auth.dfy ===
/** The request guards of app/utils/security.py: the role guard used by the
    management pages, its variant that first checks the caller's IP, and the
    bearer-token guard of the client API. Each is an ordered chain of checks;
    the first that fails decides the error. */
module Auth {
  import opened Wrappers
  import opened Text
  import opened Net
  import opened Schema
  import opened Tables
  import opened Whitelist

  /** Why a guard refused, one per error response of the guards. */
  datatype Denial =
    | LoginRedirect          // 302 to the login page
    | ProjectIdRequired      // 400
    | AuthenticationRequired // 401
    | NotMember              // 403
    | RoleRequired(role: string) // 403
    | IpNotWhitelisted       // 403
    | TokenRequired          // 401
    | InvalidToken           // 401
    | TokenExpired           // 401

  /** The HTTP status each refusal is sent with. */
  function Status(d: Denial): nat {
    match d
    case LoginRedirect => 302
    case ProjectIdRequired => 400
    case AuthenticationRequired | TokenRequired | InvalidToken | TokenExpired => 401
    case NotMember | RoleRequired(_) | IpNotWhitelisted => 403
  }

  /** The signed-in user as the login session presents them. */
  datatype Session = Anonymous | SignedIn(userId: nat, isAdmin: bool)

  /** The parts of an HTTP request the guards read. */
  datatype Request = Request(
    forwardedFor: Option<string>,   // X-Forwarded-For
    remoteAddr: Option<string>,     // the peer address
    authorization: Option<string>,  // Authorization
    origin: Option<string>)         // Origin

  // ---------------------------------------------------------------------------
  // Role hierarchy

  /** owner 3 > maintainer 2 > reader 1; any other text 0. */
  function Level(role: string): (n: nat)
    ensures n <= 3
    ensures n == 3 <==> role == Owner
    ensures n == 2 <==> role == Maintainer
    ensures n == 1 <==> role == Reader
  {
    if role == Owner then 3 else if role == Maintainer then 2 else if role == Reader then 1 else 0
  }

  /** `require_project_permission(required)`: on success, the role the handler
      sees (`owner` for an administrator). */
  function RequireProjectPermission(s: Store, session: Session, projectId: nat, required: string): (res: Result<string, Denial>)
    ensures projectId == 0 ==> res == Err(ProjectIdRequired)
    ensures projectId != 0 && session.Anonymous? ==> res == Err(AuthenticationRequired)
    ensures res.Ok? <==>
      projectId != 0 && session.SignedIn? &&
      (session.isAdmin ||
       ((session.userId, projectId) in s.members && Level(s.members[(session.userId, projectId)].role) >= Level(required)))
    ensures res.Ok? && session.isAdmin ==> res.value == Owner
    ensures res.Ok? && !session.isAdmin ==> res.value == s.members[(session.userId, projectId)].role
    ensures res == Err(NotMember) <==>
      projectId != 0 && session.SignedIn? && !session.isAdmin && (session.userId, projectId) !in s.members
  {
    if projectId == 0 then Err(ProjectIdRequired)
    else if session.Anonymous? then Err(AuthenticationRequired)
    else if session.isAdmin then Ok(Owner)
    else if (session.userId, projectId) !in s.members then Err(NotMember)
    else
      var role := s.members[(session.userId, projectId)].role;
      if Level(role) < Level(required) then Err(RoleRequired(required)) else Ok(role)
  }

  /** Passing a requirement passes every lower one. */
  lemma PermissionMonotone(s: Store, session: Session, projectId: nat, higher: string, lower: string)
    requires Level(lower) <= Level(higher)
    requires RequireProjectPermission(s, session, projectId, higher).Ok?
    ensures RequireProjectPermission(s, session, projectId, lower) == RequireProjectPermission(s, session, projectId, higher)
  {
  }

  /** Any member passes a reader requirement, and an unknown requirement (level
      0) too; only members with role `owner` pass an owner requirement. */
  lemma PermissionLevels(s: Store, u: nat, projectId: nat, m: Membership)
    requires projectId != 0 && (u, projectId) in s.members && s.members[(u, projectId)] == m
    ensures RequireProjectPermission(s, SignedIn(u, false), projectId, Reader).Ok? <==> Level(m.role) >= 1
    ensures RequireProjectPermission(s, SignedIn(u, false), projectId, "auditor") == Ok(m.role)
    ensures RequireProjectPermission(s, SignedIn(u, false), projectId, Owner).Ok? <==> m.role == Owner
  {
    assert "auditor" != Owner && "auditor" != Maintainer && "auditor" != Reader;
  }

  /** `@login_required` in front of the role guard, as on every management
      route: an anonymous caller is sent to the login page instead. */
  function RequireLoginAndPermission(s: Store, session: Session, projectId: nat, required: string): (res: Result<string, Denial>)
    ensures session.Anonymous? ==> res == Err(LoginRedirect)
    ensures session.SignedIn? ==> res == RequireProjectPermission(s, session, projectId, required)
  {
    if session.Anonymous? then Err(LoginRedirect) else RequireProjectPermission(s, session, projectId, required)
  }

  /** The IP check of the `_with_ip` guard: project entries only, no environment. */
  function ProjectIpAllowed(r: Resolver, s: Store, req: Request, projectId: nat): (b: bool)
    ensures b ==> ClientIp(req.forwardedFor, req.remoteAddr).Some?
                  && r.address(ClientIp(req.forwardedFor, req.remoteAddr).value).Some?
    ensures b ==> exists i :: i in s.allowedIps && s.allowedIps[i].projectId == projectId
                             && EntryMatches(r, s.allowedIps[i], r.address(ClientIp(req.forwardedFor, req.remoteAddr).value).value)
  {
    CheckIpWhitelist(r, s.allowedIps, projectId, None, ClientIp(req.forwardedFor, req.remoteAddr))
  }

  /** `require_project_permission_with_ip(required)`: the IP check comes before
      authentication, so it gates administrators too. */
  function RequireProjectPermissionWithIp(r: Resolver, s: Store, req: Request, session: Session, projectId: nat,
                                          required: string): (res: Result<string, Denial>)
    ensures projectId == 0 ==> res == Err(ProjectIdRequired)
    ensures projectId != 0 && !ProjectIpAllowed(r, s, req, projectId) ==> res == Err(IpNotWhitelisted)
    ensures res.Ok? <==> ProjectIpAllowed(r, s, req, projectId) && RequireProjectPermission(s, session, projectId, required).Ok?
    ensures res.Ok? ==> res == RequireProjectPermission(s, session, projectId, required)
  {
    if projectId == 0 then Err(ProjectIdRequired)
    else if !ProjectIpAllowed(r, s, req, projectId) then Err(IpNotWhitelisted)
    else RequireProjectPermission(s, session, projectId, required)
  }

  /** From an unlisted address even an administrator, and even an anonymous
      caller, gets 403 rather than 401. */
  lemma IpCheckedFirst(r: Resolver, s: Store, req: Request, projectId: nat, required: string)
    requires projectId != 0 && !ProjectIpAllowed(r, s, req, projectId)
    ensures forall session :: Status(RequireProjectPermissionWithIp(r, s, req, session, projectId, required).error) == 403
  {
  }

  // ---------------------------------------------------------------------------
  // Bearer token

  /** The token of an `Authorization: Bearer <token>` header: the second field
      of the header split on single spaces. */
  function BearerToken(header: Option<string>): (t: Option<string>)
    ensures t.Some? <==> header.Some? && StartsWith(header.value, "Bearer ")
    ensures t.Some? ==> ' ' !in t.value
  {
    if header.Some? && header.value != "" && StartsWith(header.value, "Bearer ") then
      var h := header.value;
      assert h == "Bearer" + [' '] + h[7..];
      SplitHead("Bearer", ' ', h[7..]);
      Some(Split(h, ' ')[1])
    else None
  }

  /** A token without spaces is read back from the header that carries it, and
      extra space-separated fields after it are ignored. */
  lemma BearerTokenRoundTrip(token: string, extra: string)
    requires ' ' !in token
    ensures BearerToken(Some("Bearer " + token)) == Some(token)
    ensures BearerToken(Some("Bearer " + token + " " + extra)) == Some(token)
  {
    var h1 := "Bearer " + token;
    assert h1 == "Bearer" + [' '] + token;
    SplitHead("Bearer", ' ', token);
    assert Split(token, ' ') == [token];
    var h2 := "Bearer " + token + " " + extra;
    assert h2 == "Bearer" + [' '] + (token + [' '] + extra);
    SplitHead("Bearer", ' ', token + [' '] + extra);
    SplitHead(token, ' ', extra);
  }

  /** The first active token row with this text (`filter_by(...).first()`). */
  function ActiveToken(s: Store, token: string): (id: Option<nat>)
    ensures id.Some? ==> id.value in s.tokens && s.tokens[id.value].token == token && s.tokens[id.value].isActive
    ensures id.None? ==> forall t :: t in s.tokens && t < s.nextId ==> !(s.tokens[t].token == token && s.tokens[t].isActive)
  {
    First(s.tokens, s.nextId, (t: ApiToken) => t.token == token && t.isActive)
  }

  /** Token text is unique, so the lookup finds the one active row carrying it. */
  lemma ActiveTokenUnique(s: Store, id: nat)
    requires Valid(s) && id in s.tokens && s.tokens[id].isActive
    ensures ActiveToken(s, s.tokens[id].token) == Some(id)
  {
    var tok := s.tokens[id].token;
    FirstUnique(s.tokens, s.nextId, (t: ApiToken) => t.token == tok && t.isActive, id);
  }

  /** `require_api_token`: header, then an active row, then expiry (strictly
      before `now`), then the IP check for the token's project and environment.
      On success, the id of the token row. */
  function RequireApiToken(r: Resolver, s: Store, req: Request, now: nat): (res: Result<nat, Denial>)
    ensures BearerToken(req.authorization).None? ==> res == Err(TokenRequired)
    ensures res.Ok? ==>
      && BearerToken(req.authorization).Some?
      && ActiveToken(s, BearerToken(req.authorization).value) == Some(res.value)
      && res.value in s.tokens
      && s.tokens[res.value].isActive
      && now <= s.tokens[res.value].expiresAt
      && CheckIpWhitelist(r, s.allowedIps, s.tokens[res.value].projectId, Some(s.tokens[res.value].envId),
                          ClientIp(req.forwardedFor, req.remoteAddr))
    ensures res == Err(InvalidToken) <==>
      BearerToken(req.authorization).Some? && ActiveToken(s, BearerToken(req.authorization).value).None?
    ensures res == Err(TokenExpired) <==>
      && BearerToken(req.authorization).Some?
      && ActiveToken(s, BearerToken(req.authorization).value).Some?
      && s.tokens[ActiveToken(s, BearerToken(req.authorization).value).value].expiresAt < now
    ensures res == Err(IpNotWhitelisted) <==>
      && BearerToken(req.authorization).Some?
      && ActiveToken(s, BearerToken(req.authorization).value).Some?
      && var t := s.tokens[ActiveToken(s, BearerToken(req.authorization).value).value];
      && now <= t.expiresAt
      && !CheckIpWhitelist(r, s.allowedIps, t.projectId, Some(t.envId), ClientIp(req.forwardedFor, req.remoteAddr))
    ensures res.Ok? <==>
      && BearerToken(req.authorization).Some?
      && ActiveToken(s, BearerToken(req.authorization).value).Some?
      && var t := s.tokens[ActiveToken(s, BearerToken(req.authorization).value).value];
      && now <= t.expiresAt
      && CheckIpWhitelist(r, s.allowedIps, t.projectId, Some(t.envId), ClientIp(req.forwardedFor, req.remoteAddr))
  {
    match BearerToken(req.authorization)
    case None => Err(TokenRequired)
    case Some(token) =>
      match ActiveToken(s, token)
      case None => Err(InvalidToken)
      case Some(id) =>
        var t := s.tokens[id];
        if t.expiresAt < now then Err(TokenExpired)
        else if !CheckIpWhitelist(r, s.allowedIps, t.projectId, Some(t.envId), ClientIp(req.forwardedFor, req.remoteAddr))
        then Err(IpNotWhitelisted)
        else Ok(id)
  }

  /** A token is still good at the very instant it expires. */
  lemma TokenValidAtExpiry(r: Resolver, s: Store, req: Request, id: nat)
    requires Valid(s) && id in s.tokens && s.tokens[id].isActive
    requires BearerToken(req.authorization) == Some(s.tokens[id].token)
    requires CheckIpWhitelist(r, s.allowedIps, s.tokens[id].projectId, Some(s.tokens[id].envId),
                              ClientIp(req.forwardedFor, req.remoteAddr))
    ensures RequireApiToken(r, s, req, s.tokens[id].expiresAt) == Ok(id)
    ensures RequireApiToken(r, s, req, s.tokens[id].expiresAt + 1) == Err(TokenExpired)
  {
    ActiveTokenUnique(s, id);
  }

  /** A revoked (inactive) token is refused whatever else holds, as long as no
      active row carries the same text. */
  lemma InactiveTokenRefused(r: Resolver, s: Store, req: Request, now: nat, id: nat)
    requires Valid(s) && id in s.tokens && !s.tokens[id].isActive
    requires BearerToken(req.authorization) == Some(s.tokens[id].token)
    ensures RequireApiToken(r, s, req, now) == Err(InvalidToken)
  {
  }
}

=== FILE: backup.dfy ===
/** The encrypted backup file of app/utils/backup.py: the exported document as
    JSON, encrypted with a key derived from a password, in a ZIP archive beside
    the hex-encoded salt and a small unencrypted description. JSON and ZIP are
    left abstract: the archive is a map from member name to member text, and
    the JSON codec is a parameter with the one law the round trip needs. */
module EncryptedBackup {
  import opened Wrappers
  import opened Text
  import opened Schema
  import opened Crypto
  import opened BackupDocs
  import opened ProjectRestore

  /** - `dump(doc)`: `json.dumps(doc, indent=2)`.
      - `load(text)`: `json.loads(text)`; None when the text is not JSON, or
        not a JSON object the restore can read.
      - `info(now)`: the text of `info.json`, written at time `now`. */
  datatype Json = Json(
    dump: Backup -> string,
    load: string -> Option<Backup>,
    info: nat -> string)

  /** Loading what was dumped gives the document back. */
  ghost predicate Faithful(j: Json) {
    forall b :: j.load(j.dump(b)) == Some(b)
  }

  /** The member names of the archive. */
  const Payload := "backup.encrypted"
  const SaltMember := "salt"
  const Info := "info.json"

  /** The members of a ZIP archive, by name. */
  type Archive = map<string, string>

  /** `create_encrypted_backup`: a fresh salt (`drawn`) for the key, then the
      export, as JSON, encrypted with it (`nonce` stands for Fernet's random IV
      and clock). */
  function Seal(c: Cipher, j: Json, s: Store, projectId: nat, password: string, includeUsers: bool, now: nat,
                drawn: seq<byte>, nonce: nat): (r: Result<Archive, BackupError>)
    requires |drawn| == SaltLength
    ensures Export(s, projectId, includeUsers, now).Err? ==> r == Err(Export(s, projectId, includeUsers, now).error)
    ensures r.Ok? ==> r.value.Keys == {Payload, SaltMember, Info}
    ensures r.Ok? ==> r.value[SaltMember] == Hex(drawn) && r.value[Info] == j.info(now)
  {
    match Export(s, projectId, includeUsers, now)
    case Err(e) => Err(e)
    case Ok(doc) =>
      var (key, salt) := DeriveKey(c, password, None, drawn);
      match c.encrypt(j.dump(doc), key, nonce)
      case None => Err(EncryptionFailed)
      case Some(ciphertext) => Ok(map[Payload := ciphertext, SaltMember := Hex(salt), Info := j.info(now)])
  }

  /** The first half of `restore_encrypted_backup`: read the two members,
      derive the key again from the salt, decrypt, and parse. `info.json` is
      not read. */
  function Open(c: Cipher, j: Json, archive: Archive, password: string): (r: Result<Backup, BackupError>)
    ensures Payload !in archive ==> r == Err(MissingPayload)
    ensures Payload in archive && SaltMember !in archive ==> r == Err(MissingSalt)
    ensures Payload in archive && SaltMember in archive && FromHex(archive[SaltMember]).None? ==> r == Err(BadSalt)
    ensures r.Ok? ==>
      && Payload in archive && SaltMember in archive && FromHex(archive[SaltMember]).Some?
      && c.decrypt(archive[Payload], c.derive(password, FromHex(archive[SaltMember]).value)).Some?
      && j.load(c.decrypt(archive[Payload], c.derive(password, FromHex(archive[SaltMember]).value)).value) == Some(r.value)
  {
    if Payload !in archive then Err(MissingPayload)
    else if SaltMember !in archive then Err(MissingSalt)
    else match FromHex(archive[SaltMember])
      case None => Err(BadSalt)
      case Some(salt) =>
        match c.decrypt(archive[Payload], c.derive(password, salt))
        case None => Err(DecryptionFailed)
        case Some(text) =>
          match j.load(text)
          case None => Err(NotABackup)
          case Some(doc) => Ok(doc)
  }

  /** `restore_encrypted_backup`: open, then restore; every failure is
      reported as a failed restore carrying its cause. */
  function RestoreEncrypted(c: Cipher, j: Json, s: Store, archive: Archive, password: string,
                            newName: Option<string>, restoreUsers: bool, now: nat)
    : (r: Result<(Store, nat), BackupError>)
    ensures r.Err? ==> r.error.RestoreFailed?
    ensures r.Ok? <==> Open(c, j, archive, password).Ok?
                       && Restore(s, Open(c, j, archive, password).value, newName, restoreUsers, now).Ok?
    ensures r.Ok? ==> r == Restore(s, Open(c, j, archive, password).value, newName, restoreUsers, now)
    ensures Open(c, j, archive, password).Err? ==> r == Err(RestoreFailed(Open(c, j, archive, password).error))
  {
    match Open(c, j, archive, password)
    case Err(e) => Err(RestoreFailed(e))
    case Ok(doc) =>
      match Restore(s, doc, newName, restoreUsers, now)
      case Err(e) => Err(RestoreFailed(e))
      case Ok(x) => Ok(x)
  }

  /** With keys derived from passwords always usable, sealing fails exactly
      when the export does. */
  lemma SealOk(c: Cipher, j: Json, s: Store, projectId: nat, password: string, includeUsers: bool, now: nat,
               drawn: seq<byte>, nonce: nat)
    requires |drawn| == SaltLength && DerivedKeysWork(c)
    ensures Seal(c, j, s, projectId, password, includeUsers, now, drawn, nonce).Ok?
      <==> Export(s, projectId, includeUsers, now).Ok?
  {
    if Export(s, projectId, includeUsers, now).Ok? {
      var doc := Export(s, projectId, includeUsers, now).value;
      assert c.encrypt(j.dump(doc), c.derive(password, drawn), nonce).Some?;
    }
  }

  /** Opening a sealed archive with its password gives back the exported
      document. */
  lemma OpenSealed(c: Cipher, j: Json, s: Store, projectId: nat, password: string, includeUsers: bool, now: nat,
                   drawn: seq<byte>, nonce: nat)
    requires |drawn| == SaltLength && Sound(c) && Faithful(j)
    requires Seal(c, j, s, projectId, password, includeUsers, now, drawn, nonce).Ok?
    ensures Open(c, j, Seal(c, j, s, projectId, password, includeUsers, now, drawn, nonce).value, password)
      == Ok(Export(s, projectId, includeUsers, now).value)
  {
    var archive := Seal(c, j, s, projectId, password, includeUsers, now, drawn, nonce).value;
    var doc := Export(s, projectId, includeUsers, now).value;
    HexRoundTrip(drawn);
    var key := c.derive(password, drawn);
    assert c.encrypt(j.dump(doc), key, nonce).Some?;
    assert archive[Payload] == c.encrypt(j.dump(doc), key, nonce).value;
    assert c.decrypt(archive[Payload], key) == Some(j.dump(doc));
    assert j.load(j.dump(doc)) == Some(doc);
  }

  /** Restoring a sealed archive with its password is restoring the export
      itself. */
  lemma RestoreSealed(c: Cipher, j: Json, s: Store, projectId: nat, password: string, includeUsers: bool, now: nat,
                      drawn: seq<byte>, nonce: nat, s': Store, newName: Option<string>, restoreUsers: bool, now': nat)
    requires |drawn| == SaltLength && Sound(c) && Faithful(j)
    requires Seal(c, j, s, projectId, password, includeUsers, now, drawn, nonce).Ok?
    ensures var archive := Seal(c, j, s, projectId, password, includeUsers, now, drawn, nonce).value;
      var doc := Export(s, projectId, includeUsers, now).value;
      && (Restore(s', doc, newName, restoreUsers, now').Ok? ==>
            RestoreEncrypted(c, j, s', archive, password, newName, restoreUsers, now')
              == Restore(s', doc, newName, restoreUsers, now'))
      && (Restore(s', doc, newName, restoreUsers, now').Err? ==>
            RestoreEncrypted(c, j, s', archive, password, newName, restoreUsers, now')
              == Err(RestoreFailed(Restore(s', doc, newName, restoreUsers, now').error)))
  {
    OpenSealed(c, j, s, projectId, password, includeUsers, now, drawn, nonce);
  }
}

=== FILE: backup_doc.dfy ===
/** The backup document of app/utils/backup.py and its export,
    `create_project_backup`: one project with its environments (each carrying
    its own key), their configs and secrets (ciphertext, as stored), optionally
    its members, and its whitelist entries. Timestamps stand for their ISO
    text; a key absent from a loaded document is `None` (for `version` and
    `project`) or an empty list. */
module BackupDocs {
  import opened Wrappers
  import opened Schema
  import opened Tables
  import opened Rows

  /** The format version every export stamps. */
  const Version := "1.0"

  datatype ConfigDoc = ConfigDoc(key: string, value: string, createdAt: nat, updatedAt: nat)

  datatype SecretDoc = SecretDoc(key: string, encryptedValue: string, createdAt: nat, updatedAt: nat)

  datatype EnvDoc = EnvDoc(
    name: string,
    secretKey: string,
    createdAt: nat,
    configs: seq<ConfigDoc>,
    secrets: seq<SecretDoc>)

  datatype UserDoc = UserDoc(username: string, email: string, role: string, createdAt: nat)

  /** A whitelist entry keeps only its text and description: neither its
      environment nor its FQDN flag is exported. */
  datatype IpDoc = IpDoc(ipAddress: string, description: Option<string>, createdAt: nat)

  datatype ProjectDoc = ProjectDoc(name: string, description: Option<string>, createdAt: nat)

  /** `users` is `None` when the export leaves members out. */
  datatype Backup = Backup(
    version: Option<string>,
    createdAt: nat,
    project: Option<ProjectDoc>,
    environments: seq<EnvDoc>,
    users: Option<seq<UserDoc>>,
    allowedIps: seq<IpDoc>)

  /** Every way export, sealing, opening and restoring can fail. */
  datatype BackupError =
    | ProjectNotFound               // "Project not found"
    | MemberWithoutUser             // a membership whose user row is gone: reading its name fails
    | EncryptionFailed              // `encrypt_value` raised
    | InvalidFormat                 // "Invalid backup format": no `version` or no `project`
    | ProjectExists(name: string)   // "Project '...' already exists"
    | Integrity                     // a unique constraint fails at flush or commit; rolled back
    | MissingPayload                // "Invalid backup file: missing encrypted backup"
    | MissingSalt                   // "Invalid backup file: missing salt"
    | BadSalt                       // the salt member is not hexadecimal
    | DecryptionFailed              // wrong password or altered payload
    | NotABackup                    // the payload does not parse as a backup document
    | RestoreFailed(cause: BackupError) // "Failed to restore backup: ..."

  // ---------------------------------------------------------------------------
  // Rows and the (key, value) pairs they carry

  function ConfigEnv(c: Config): nat { c.envId }
  function ConfigPair(c: Config): (string, string) { (c.key, c.value) }
  function SecretEnv(c: Secret): nat { c.envId }
  function SecretPair(c: Secret): (string, string) { (c.key, c.encryptedValue) }

  /** The pairs carried by the rows of table `m` that belong to environment `envId`. */
  function RowPairs<T>(m: map<nat, T>, env: T -> nat, pair: T -> (string, string), envId: nat): set<(string, string)> {
    set i | i in m && env(m[i]) == envId :: pair(m[i])
  }

  /** The rows of table `m` that belong to environment `envId` carry exactly
      the pairs listed. */
  predicate RowsAre<T>(m: map<nat, T>, env: T -> nat, pair: T -> (string, string), envId: nat,
                       pairs: seq<(string, string)>) {
    RowPairs(m, env, pair, envId) == set p | p in pairs
  }

  /** No two pairs share a key, and none uses a key of `taken`. */
  predicate KeysNew(taken: seq<(string, string)>, pairs: seq<(string, string)>) {
    && (forall j, i :: 0 <= j < |pairs| && 0 <= i < |taken| ==> taken[i].0 != pairs[j].0)
    && (forall i, j :: 0 <= i < j < |pairs| ==> pairs[i].0 != pairs[j].0)
  }

  /** The (key, value) pair of each config document, in order. */
  function ConfigPairs(docs: seq<ConfigDoc>): seq<(string, string)> {
    seq(|docs|, k requires 0 <= k < |docs| => (docs[k].key, docs[k].value))
  }

  /** The (key, ciphertext) pair of each secret document, in order. */
  function SecretPairs(docs: seq<SecretDoc>): seq<(string, string)> {
    seq(|docs|, k requires 0 <= k < |docs| => (docs[k].key, docs[k].encryptedValue))
  }

  // ---------------------------------------------------------------------------
  // Export

  /** The rows of a table below the counter that belong to the environment,
      in the order the query returns them. */
  function ConfigIds(s: Store, envId: nat): (r: seq<nat>)
    ensures forall k :: 0 <= k < |r| ==> r[k] in s.configs && s.configs[r[k]].envId == envId
  {
    var r := Select(s.configs, s.nextId, (c: Config) => c.envId == envId);
    assert forall k :: 0 <= k < |r| ==> r[k] in r;
    r
  }

  function SecretIds(s: Store, envId: nat): (r: seq<nat>)
    ensures forall k :: 0 <= k < |r| ==> r[k] in s.secrets && s.secrets[r[k]].envId == envId
  {
    var r := Select(s.secrets, s.nextId, (c: Secret) => c.envId == envId);
    assert forall k :: 0 <= k < |r| ==> r[k] in r;
    r
  }

  function EnvironmentIds(s: Store, projectId: nat): seq<nat> {
    Select(s.environments, s.nextId, (e: Environment) => e.projectId == projectId)
  }

  function EntryIds(s: Store, projectId: nat): seq<nat> {
    Select(s.allowedIps, s.nextId, (a: AllowedIp) => a.projectId == projectId)
  }

  /** The users holding a membership of the project, by ascending user id. */
  function MemberIds(members: map<(nat, nat), Membership>, projectId: nat, bound: nat): (ids: seq<nat>)
    ensures forall u :: u in ids <==> u < bound && (u, projectId) in members
    ensures forall k :: 0 <= k < |ids| ==> ids[k] < bound
    ensures Increasing(ids)
  {
    if bound == 0 then []
    else
      var prefix := MemberIds(members, projectId, bound - 1);
      if (bound - 1, projectId) in members then prefix + [bound - 1] else prefix
  }

  function ConfigDocOf(c: Config): ConfigDoc {
    ConfigDoc(c.key, c.value, c.createdAt, c.updatedAt)
  }

  function SecretDocOf(c: Secret): SecretDoc {
    SecretDoc(c.key, c.encryptedValue, c.createdAt, c.updatedAt)
  }

  function IpDocOf(a: AllowedIp): IpDoc {
    IpDoc(a.ipAddress, a.description, a.createdAt)
  }

  /** The document is that of some config row of the environment. */
  ghost predicate ConfigDrawn(s: Store, envId: nat, doc: ConfigDoc) {
    exists i :: i in s.configs && s.configs[i].envId == envId && doc == ConfigDocOf(s.configs[i])
  }

  /** The document is that of some secret row of the environment. */
  ghost predicate SecretDrawn(s: Store, envId: nat, doc: SecretDoc) {
    exists i :: i in s.secrets && s.secrets[i].envId == envId && doc == SecretDocOf(s.secrets[i])
  }

  /** The environment's config documents, in id order; each is drawn from
      a config row of the environment. */
  function ConfigDocs(s: Store, envId: nat): (docs: seq<ConfigDoc>)
    ensures forall k :: 0 <= k < |docs| ==> ConfigDrawn(s, envId, docs[k])
  {
    var cs := ConfigIds(s, envId);
    var docs := seq(|cs|, k requires 0 <= k < |cs| => ConfigDocOf(s.configs[cs[k]]));
    forall k | 0 <= k < |docs| ensures ConfigDrawn(s, envId, docs[k]) {
      assert docs[k] == ConfigDocOf(s.configs[cs[k]]);
    }
    docs
  }

  /** The environment's secret documents, in id order; each is drawn from
      a secret row of the environment. */
  function SecretDocs(s: Store, envId: nat): (docs: seq<SecretDoc>)
    ensures forall k :: 0 <= k < |docs| ==> SecretDrawn(s, envId, docs[k])
  {
    var ss := SecretIds(s, envId);
    var docs := seq(|ss|, k requires 0 <= k < |ss| => SecretDocOf(s.secrets[ss[k]]));
    forall k | 0 <= k < |docs| ensures SecretDrawn(s, envId, docs[k]) {
      assert docs[k] == SecretDocOf(s.secrets[ss[k]]);
    }
    docs
  }

  /** One environment with its configs and secrets; the secrets keep the
      ciphertext as stored, under the environment key exported beside them. */
  function ExportEnvironment(s: Store, envId: nat): (d: EnvDoc)
    requires envId in s.environments
    ensures d.name == s.environments[envId].name && d.secretKey == s.environments[envId].secretKey
    ensures forall k :: 0 <= k < |d.configs| ==> ConfigDrawn(s, envId, d.configs[k])
    ensures forall k :: 0 <= k < |d.secrets| ==> SecretDrawn(s, envId, d.secrets[k])
  {
    var env := s.environments[envId];
    EnvDoc(env.name, env.secretKey, env.createdAt, ConfigDocs(s, envId), SecretDocs(s, envId))
  }

  /** The member documents of a project whose members all have a user row, in
      user-id order. */
  function MemberDocs(s: Store, projectId: nat): (docs: seq<UserDoc>)
    requires forall k :: k in s.members && k.1 == projectId ==> k.0 in s.users
    ensures |docs| == |MemberIds(s.members, projectId, s.nextId)|
  {
    var us := MemberIds(s.members, projectId, s.nextId);
    assert forall k :: 0 <= k < |us| ==> us[k] in s.users by {
      forall k | 0 <= k < |us| ensures us[k] in s.users {
        assert us[k] in us;
        var m := (us[k], projectId);
        assert m in s.members && m.1 == projectId;
      }
    }
    seq(|us|, k requires 0 <= k < |us| =>
      UserDoc(s.users[us[k]].username, s.users[us[k]].email,
              s.members[(us[k], projectId)].role, s.members[(us[k], projectId)].createdAt))
  }

  /** `create_project_backup(project_id, include_users)`. */
  function Export(s: Store, projectId: nat, includeUsers: bool, now: nat): (r: Result<Backup, BackupError>)
    ensures r.Ok? <==>
      projectId in s.projects && (includeUsers ==> forall k :: k in s.members && k.1 == projectId ==> k.0 in s.users)
    ensures projectId !in s.projects ==> r == Err(ProjectNotFound)
    ensures r.Ok? ==>
      && r.value.version == Some(Version)
      && r.value.createdAt == now
      && r.value.project == Some(ProjectDoc(s.projects[projectId].name, s.projects[projectId].description,
                                            s.projects[projectId].createdAt))
      && (r.value.users.Some? <==> includeUsers)
  {
    if projectId !in s.projects then Err(ProjectNotFound)
    else if includeUsers && exists k :: k in s.members && k.1 == projectId && k.0 !in s.users then Err(MemberWithoutUser)
    else
      var p := s.projects[projectId];
      var es := EnvironmentIds(s, projectId);
      var environments := seq(|es|, k requires 0 <= k < |es| => ExportEnvironment(s, es[k]));
      var users := if includeUsers then Some(MemberDocs(s, projectId)) else None;
      var entries := EntryIds(s, projectId);
      var ips := seq(|entries|, k requires 0 <= k < |entries| => IpDocOf(s.allowedIps[entries[k]]));
      Ok(Backup(Some(Version), now, Some(ProjectDoc(p.name, p.description, p.createdAt)), environments, users, ips))
  }

  // ---------------------------------------------------------------------------
  // What the export holds, on a store that keeps the invariant

  /** An exported environment lists exactly the environment's config and
      secret rows, each key once. */
  lemma ExportedRows(s: Store, envId: nat)
    requires Valid(s) && envId in s.environments
    ensures var d := ExportEnvironment(s, envId);
      && RowsAre(s.configs, ConfigEnv, ConfigPair, envId, ConfigPairs(d.configs))
      && RowsAre(s.secrets, SecretEnv, SecretPair, envId, SecretPairs(d.secrets))
      && KeysNew([], ConfigPairs(d.configs))
      && KeysNew([], SecretPairs(d.secrets))
  {
    ExportedConfigRows(s, envId);
    ExportedSecretRows(s, envId);
  }

  /** No two rows of the environment share a key. */
  predicate KeysUnique<T>(m: map<nat, T>, env: T -> nat, pair: T -> (string, string), envId: nat) {
    forall i, j :: i in m && j in m && i != j && env(m[i]) == envId && env(m[j]) == envId ==>
      pair(m[i]).0 != pair(m[j]).0
  }

  /** Listing each row of an environment once, in any order, lists its pairs. */
  lemma ListedRows<T>(m: map<nat, T>, env: T -> nat, pair: T -> (string, string), envId: nat,
                      ids: seq<nat>, ps: seq<(string, string)>)
    requires forall i :: i in ids <==> i in m && env(m[i]) == envId
    requires |ps| == |ids| && forall k :: 0 <= k < |ids| ==> ids[k] in m && ps[k] == pair(m[ids[k]])
    ensures RowsAre(m, env, pair, envId, ps)
    ensures KeysUnique(m, env, pair, envId) && Increasing(ids) ==> KeysNew([], ps)
  {
    forall x ensures x in RowPairs(m, env, pair, envId) <==> x in ps {
      if x in RowPairs(m, env, pair, envId) {
        var i :| i in m && env(m[i]) == envId && pair(m[i]) == x;
        assert i in ids;
        var k :| 0 <= k < |ids| && ids[k] == i;
        assert ps[k] == x;
      }
      if x in ps {
        var k :| 0 <= k < |ps| && ps[k] == x;
        assert ids[k] in ids;
      }
    }
    if KeysUnique(m, env, pair, envId) && Increasing(ids) {
      forall a, b | 0 <= a < b < |ps| ensures ps[a].0 != ps[b].0 {
        assert ids[a] in ids && ids[b] in ids;
        assert ids[a] < ids[b];
      }
    }
  }

  lemma ExportedConfigRows(s: Store, envId: nat)
    requires ConfigsWellFormed(s.environments, s.configs) && KeysBelow(s.configs, s.nextId) && envId in s.environments
    ensures var d := ExportEnvironment(s, envId);
      && RowsAre(s.configs, ConfigEnv, ConfigPair, envId, ConfigPairs(d.configs))
      && KeysNew([], ConfigPairs(d.configs))
  {
    var d := ExportEnvironment(s, envId);
    var cs := ConfigIds(s, envId);
    assert forall k :: 0 <= k < |cs| ==> cs[k] in cs;
    ListedRows(s.configs, ConfigEnv, ConfigPair, envId, cs, ConfigPairs(d.configs));
  }

  lemma ExportedSecretRows(s: Store, envId: nat)
    requires SecretsWellFormed(s.environments, s.secrets) && KeysBelow(s.secrets, s.nextId) && envId in s.environments
    ensures var d := ExportEnvironment(s, envId);
      && RowsAre(s.secrets, SecretEnv, SecretPair, envId, SecretPairs(d.secrets))
      && KeysNew([], SecretPairs(d.secrets))
  {
    var d := ExportEnvironment(s, envId);
    var ss := SecretIds(s, envId);
    assert forall k :: 0 <= k < |ss| ==> ss[k] in ss;
    ListedRows(s.secrets, SecretEnv, SecretPair, envId, ss, SecretPairs(d.secrets));
  }

  /** The exported environments are exactly the project's, one document each,
      in id order, and their names are distinct. */
  lemma ExportedEnvironments(s: Store, projectId: nat, includeUsers: bool, now: nat)
    requires Valid(s) && Export(s, projectId, includeUsers, now).Ok?
    ensures var envs := Export(s, projectId, includeUsers, now).value.environments;
      var es := EnvironmentIds(s, projectId);
      && |envs| == |es|
      && (forall e :: EnvironmentOf(s, e, projectId) <==> e in es)
      && (forall k :: 0 <= k < |es| ==> es[k] in s.environments && envs[k] == ExportEnvironment(s, es[k]))
      && (forall a, b :: 0 <= a < b < |envs| ==> envs[a].name != envs[b].name)
  {
    var es := EnvironmentIds(s, projectId);
    forall a, b | 0 <= a < b < |es| ensures s.environments[es[a]].name != s.environments[es[b]].name {
      assert es[a] in es && es[b] in es;
    }
  }

  /** `ips` lists the entries `entries`, which are exactly the whitelist
      entries of `projectId`, keeping their text and description. */
  ghost predicate EntriesListed(s: Store, projectId: nat, ips: seq<IpDoc>, entries: seq<nat>) {
    && |ips| == |entries|
    && (forall i :: i in s.allowedIps && s.allowedIps[i].projectId == projectId <==> i in entries)
    && (forall k :: 0 <= k < |entries| ==> (
          && entries[k] in s.allowedIps
          && ips[k].ipAddress == s.allowedIps[entries[k]].ipAddress
          && ips[k].description == s.allowedIps[entries[k]].description))
  }

  /** The exported entries are the project's whitelist entries, in id order,
      without their environment or FQDN flag. */
  lemma ExportedEntries(s: Store, projectId: nat, includeUsers: bool, now: nat)
    requires Valid(s) && Export(s, projectId, includeUsers, now).Ok?
    ensures EntriesListed(s, projectId, Export(s, projectId, includeUsers, now).value.allowedIps, EntryIds(s, projectId))
  {
  }

  /** With members included, the export lists each member once, with the
      username and email of their user row and their role. */
  lemma ExportedMembers(s: Store, projectId: nat, now: nat)
    requires Valid(s) && Export(s, projectId, true, now).Ok?
    ensures var users := Export(s, projectId, true, now).value.users.value;
      var us := MemberIds(s.members, projectId, s.nextId);
      && |users| == |us|
      && (forall u :: (u, projectId) in s.members <==> u in us)
      && (forall k :: 0 <= k < |us| ==> (
            && us[k] in s.users
            && users[k].username == s.users[us[k]].username
            && users[k].email == s.users[us[k]].email
            && users[k].role == s.members[(us[k], projectId)].role))
  {
    forall u | (u, projectId) in s.members ensures u in MemberIds(s.members, projectId, s.nextId) {
      var k := (u, projectId);
      assert k in s.members && k.1 == projectId;
      assert u in s.users;
    }
  }
}

=== FILE: cors.dfy ===
/** The CORS hook of app/__init__.py, run after every request: for a client API
    endpoint called from a browser, it reads the project id from the path and
    the environment from the bearer token, and grants cross-origin access when
    the origin is whitelisted for them. */
module Cors {
  import opened Wrappers
  import opened Text
  import opened Schema
  import opened Whitelist
  import opened Auth

  /** Length of the longest prefix of word characters (`\w+`). */
  function WordRun(s: string): (n: nat)
    ensures n <= |s|
    ensures forall k :: 0 <= k < n ==> IsWordChar(s[k])
    ensures n < |s| ==> !IsWordChar(s[n])
  {
    if |s| == 0 || !IsWordChar(s[0]) then 0 else 1 + WordRun(s[1..])
  }

  lemma {:induction false} WordRunOf(w: string, rest: string)
    requires forall k :: 0 <= k < |w| ==> IsWordChar(w[k])
    requires rest == "" || !IsWordChar(rest[0])
    ensures WordRun(w + rest) == |w|
  {
    if |w| > 0 {
      assert (w + rest)[1..] == w[1..] + rest;
      WordRunOf(w[1..], rest);
    } else {
      assert w + rest == rest;
    }
  }

  /** The pattern `/api/\w+/(\d+)/(\w+)` tried at the start of `t`: on a match,
      the project id (group 1 read as a number) and group 2. */
  function MatchApiPath(t: string): (m: Option<(nat, string)>)
    ensures m.Some? ==> StartsWith(t, "/api/") && |m.value.1| > 0
  {
    if StartsWith(t, "/api/") then MatchAfterPrefix(t[5..]) else None
  }

  /** The rest of the pattern after `/api/`. Each `\w+` and the `\d+` take
      their longest run, since a shorter one would leave a word character where
      the pattern needs `/`. */
  function MatchAfterPrefix(a: string): (m: Option<(nat, string)>)
    ensures m.Some? ==> |m.value.1| > 0
  {
    var w := WordRun(a);
    if w == 0 || w == |a| || a[w] != '/' then None
    else
      var b := a[w + 1..];
      var d := DigitRun(b);
      if d == 0 || d == |b| || b[d] != '/' then None
      else
        var c := b[d + 1..];
        var g := WordRun(c);
        if g == 0 then None else Some((DecimalValue(b[..d]), c[..g]))
  }

  /** `re.search`: the leftmost position where the pattern matches. */
  function SearchApiPath(path: string): (m: Option<(nat, string)>)
    ensures m.Some? ==> exists i :: 0 <= i <= |path| && MatchApiPath(path[i..]) == m
                                    && forall j :: 0 <= j < i ==> MatchApiPath(path[j..]).None?
    ensures m.None? ==> forall i :: 0 <= i <= |path| ==> MatchApiPath(path[i..]).None?
    decreases |path|
  {
    match MatchApiPath(path)
    case Some(x) => assert path[0..] == path; Some(x)
    case None =>
      if |path| == 0 then None
      else
        var m := SearchApiPath(path[1..]);
        SearchShift(path, m);
        m
  }

  /** A search of the text after the first character, when no match starts at
      that character, is a search of the whole text. */
  lemma SearchShift(path: string, m: Option<(nat, string)>)
    requires |path| > 0 && MatchApiPath(path).None?
    requires m.Some? ==> exists i :: 0 <= i <= |path[1..]| && MatchApiPath(path[1..][i..]) == m
                                    && forall j :: 0 <= j < i ==> MatchApiPath(path[1..][j..]).None?
    requires m.None? ==> forall i :: 0 <= i <= |path[1..]| ==> MatchApiPath(path[1..][i..]).None?
    ensures m.Some? ==> exists i :: 0 <= i <= |path| && MatchApiPath(path[i..]) == m
                                    && forall j :: 0 <= j < i ==> MatchApiPath(path[j..]).None?
    ensures m.None? ==> forall i :: 0 <= i <= |path| ==> MatchApiPath(path[i..]).None?
  {
    assert forall i :: 1 <= i <= |path| ==> path[1..][i - 1..] == path[i..];
    assert path[0..] == path;
    if m.Some? {
      var i :| 0 <= i <= |path[1..]| && MatchApiPath(path[1..][i..]) == m
               && forall j :: 0 <= j < i ==> MatchApiPath(path[1..][j..]).None?;
      assert MatchApiPath(path[i + 1..]) == m;
    }
  }

  /** A run of word characters before `/` is the first group of the pattern. */
  lemma KindThenSlash(kind: string, digits: string, name: string)
    requires |kind| > 0 && forall k :: 0 <= k < |kind| ==> IsWordChar(kind[k])
    ensures var a := kind + ['/'] + digits + ['/'] + name;
      WordRun(a) == |kind| && a[|kind|] == '/' && a[|kind| + 1..] == digits + ['/'] + name
  {
    var a := kind + ['/'] + digits + ['/'] + name;
    var rest := ['/'] + digits + ['/'] + name;
    assert a == kind + rest;
    WordRunOf(kind, rest);
  }

  /** After `/api/`, `<kind>/<digits>/<name>` yields the digits' value when the
      name starts with a word character. */
  lemma AfterPrefixOf(kind: string, digits: string, name: string)
    requires |kind| > 0 && forall k :: 0 <= k < |kind| ==> IsWordChar(kind[k])
    requires IsDigits(digits)
    requires |name| > 0 && IsWordChar(name[0])
    ensures MatchAfterPrefix(kind + ['/'] + digits + ['/'] + name).Some?
    ensures MatchAfterPrefix(kind + ['/'] + digits + ['/'] + name).value.0 == DecimalValue(digits)
  {
    KindThenSlash(kind, digits, name);
    var b := digits + ['/'] + name;
    var tail := ['/'] + name;
    assert b == digits + tail;
    DigitsThenOther(digits, tail);
    assert b[|digits|] == '/';
    assert b[|digits| + 1..] == name;
    assert b[..|digits|] == digits;
    assert WordRun(name) > 0;
  }

  /** The path of a client API route, `/api/<kind>/<project id>/<name>`, yields
      the project id when the environment name starts with a word character. */
  lemma ClientPathMatches(path: string, kind: string, digits: string, name: string)
    requires |kind| > 0 && forall k :: 0 <= k < |kind| ==> IsWordChar(kind[k])
    requires IsDigits(digits)
    requires |name| > 0 && IsWordChar(name[0])
    requires path == "/api/" + kind + "/" + digits + "/" + name
    ensures SearchApiPath(path).Some? && SearchApiPath(path).value.0 == DecimalValue(digits)
  {
    var a := kind + ['/'] + digits + ['/'] + name;
    assert path == "/api/" + a;
    assert path[..5] == "/api/" && path[5..] == a;
    AfterPrefixOf(kind, digits, name);
  }

  datatype Header = Header(name: string, value: string)

  const AllowOrigin := "Access-Control-Allow-Origin"

  /** The four headers of a granted request, echoing the origin. */
  function Granted(origin: string): (hs: seq<Header>)
    ensures forall i, j :: 0 <= i < j < |hs| ==> hs[i].name != hs[j].name
    ensures forall h :: h in hs && h.name == AllowOrigin ==> h.value == origin
    ensures exists h :: h in hs && h.name == AllowOrigin
  {
    var hs := [Header(AllowOrigin, origin),
               Header("Access-Control-Allow-Headers", "Authorization, Content-Type"),
               Header("Access-Control-Allow-Methods", "GET, POST, PUT, DELETE, OPTIONS"),
               Header("Access-Control-Allow-Credentials", "true")];
    assert hs[0].name[21] == 'O' && hs[1].name[21] == 'H' && hs[2].name[21] == 'M' && hs[3].name[21] == 'C';
    hs
  }

  /** The environment the hook checks: that of the first active token row with
      the bearer token's text, without the token guard's expiry, project or IP
      checks. */
  function CorsEnvironment(s: Store, req: Request): (env: Option<nat>)
    ensures env.Some? ==>
      && BearerToken(req.authorization).Some?
      && ActiveToken(s, BearerToken(req.authorization).value).Some?
      && env.value == s.tokens[ActiveToken(s, BearerToken(req.authorization).value).value].envId
  {
    match BearerToken(req.authorization)
    case None => None
    case Some(token) =>
      match ActiveToken(s, token)
      case None => None
      case Some(id) => Some(s.tokens[id].envId)
  }

  /** `after_request`: the headers added to the response of an endpoint. */
  function CorsHeaders(s: Store, req: Request, endpoint: Option<string>, path: string): (hs: seq<Header>)
    ensures hs == [] || (req.origin.Some? && hs == Granted(req.origin.value))
    ensures hs != [] <==>
      && req.origin.Some? && req.origin.value != ""
      && endpoint.Some? && StartsWith(endpoint.value, "api.")
      && SearchApiPath(path).Some? && SearchApiPath(path).value.0 != 0
      && CheckOriginWhitelist(s.allowedIps, req.origin.value, SearchApiPath(path).value.0, CorsEnvironment(s, req))
  {
    if req.origin.None? || req.origin.value == "" || endpoint.None? || !StartsWith(endpoint.value, "api.") then []
    else match SearchApiPath(path)
      case None => []
      case Some((projectId, _)) =>
        if projectId != 0 && CheckOriginWhitelist(s.allowedIps, req.origin.value, projectId, CorsEnvironment(s, req))
        then Granted(req.origin.value)
        else []
  }

  /** Only the client API endpoints ever carry the headers. */
  lemma OnlyApiEndpoints(s: Store, req: Request, endpoint: Option<string>, path: string)
    requires endpoint.None? || !StartsWith(endpoint.value, "api.")
    ensures CorsHeaders(s, req, endpoint, path) == []
  {
  }

  /** A browser calling a client API route of a project from an origin listed
      as a full URL among the entries that apply gets access, with its own
      origin echoed back. */
  lemma ListedOriginGranted(s: Store, req: Request, endpoint: string, path: string, entry: nat)
    requires StartsWith(endpoint, "api.")
    requires SearchApiPath(path).Some? && SearchApiPath(path).value.0 != 0
    requires req.origin.Some? && ParseOrigin(req.origin.value).Some?
    requires StartsWith(req.origin.value, "http://") || StartsWith(req.origin.value, "https://")
    requires entry in Scope(s.allowedIps, SearchApiPath(path).value.0, CorsEnvironment(s, req))
    requires Strip(s.allowedIps[entry].ipAddress) == req.origin.value
    ensures CorsHeaders(s, req, Some(endpoint), path) == Granted(req.origin.value)
  {
    var origin := req.origin.value;
    var o := ParseOrigin(origin).value;
    var projectId := SearchApiPath(path).value.0;
    var env := CorsEnvironment(s, req);
    OriginUrlEntry(s.allowedIps[entry].ipAddress, origin, o);
    assert OriginEntryMatches(s.allowedIps[entry].ipAddress, origin, o);
    assert origin != "" by {
      assert StartsWith(origin, "http://") || StartsWith(origin, "https://");
    }
    assert CheckOriginWhitelist(s.allowedIps, origin, projectId, env);
  }
}

=== FILE: crypto.dfy ===
/** The encryption helpers of app/utils/encryption.py, left abstract: Fernet
    encryption with an environment key, decryption, and PBKDF2 key derivation
    from a password and a salt. Only the laws the application relies on are
    stated, as hypotheses of the lemmas that need them. */
module Crypto {
  import opened Wrappers
  import opened Text

  /** - `encrypt(plaintext, key, nonce)`: `encrypt_value`; None when it raises
        (a key that is not a Fernet key). Fernet draws a random IV and reads the
        clock, so the nonce stands for both.
      - `decrypt(ciphertext, key)`: `decrypt_value`; None when it raises.
      - `derive(password, salt)`: `derive_key_from_password` with a salt given. */
  datatype Cipher = Cipher(
    encrypt: (string, string, nat) -> Option<string>,
    decrypt: (string, string) -> Option<string>,
    derive: (string, seq<byte>) -> string)

  /** Decryption with the same key undoes encryption. */
  ghost predicate Sound(c: Cipher) {
    forall p, k, n :: c.encrypt(p, k, n).Some? ==> c.decrypt(c.encrypt(p, k, n).value, k) == Some(p)
  }

  /** A key derived from a password is always a usable Fernet key. */
  ghost predicate DerivedKeysWork(c: Cipher) {
    forall pw, salt, p, n :: c.encrypt(p, c.derive(pw, salt), n).Some?
  }

  /** The salt length `derive_key_from_password` draws when none is given. */
  const SaltLength: nat := 32

  /** `derive_key_from_password(password, salt)`: without a salt, the freshly
      drawn random one (`drawn`, of 32 bytes) is used and returned. */
  function DeriveKey(c: Cipher, password: string, salt: Option<seq<byte>>, drawn: seq<byte>): (r: (string, seq<byte>))
    requires |drawn| == SaltLength
    ensures salt.Some? ==> r.1 == salt.value
    ensures salt.None? ==> |r.1| == SaltLength
    ensures r.0 == c.derive(password, r.1)
  {
    var used := if salt.Some? then salt.value else drawn;
    (c.derive(password, used), used)
  }

  /** Deriving again from the returned salt gives the same key: what lets a
      sealed backup be opened with its password. */
  lemma DeriveAgain(c: Cipher, password: string, drawn: seq<byte>, other: seq<byte>)
    requires |drawn| == SaltLength && |other| == SaltLength
    ensures var (key, salt) := DeriveKey(c, password, None, drawn);
      DeriveKey(c, password, Some(salt), other) == (key, salt)
  {
  }
}

=== FILE: net.dfy ===
/** IP addresses and networks as Python's `ipaddress` module compares them, and
    the text parsers and DNS resolver the whitelist consults.

    Parsing address text and resolving names are not modelled: a `Resolver`
    value supplies them, so every property below holds for any parser and any
    DNS answer. */
module Net {
  import opened Wrappers

  datatype Version = V4 | V6

  /** Bits in an address of this version. */
  function Width(v: Version): nat {
    match v
    case V4 => 32
    case V6 => 128
  }

  function Pow2(n: nat): (r: nat)
    ensures r >= 1
  {
    if n == 0 then 1 else 2 * Pow2(n - 1)
  }

  /** An address: its version and its value as an unsigned integer. Addresses of
      different versions are never equal, as in `ipaddress`. */
  datatype Addr = Addr(version: Version, value: nat)

  /** A network in the normal form `ip_network(..., strict=False)` produces:
      `base` has every host bit clear. */
  datatype Network = Network(version: Version, base: nat, prefix: nat)

  /** `value` with its low `Width(v) - prefix` bits cleared. */
  function Mask(v: Version, value: nat, prefix: nat): (m: nat)
    requires prefix <= Width(v)
    ensures m <= value < m + Pow2(Width(v) - prefix)
    ensures m % Pow2(Width(v) - prefix) == 0
  {
    RoundDown(value, Pow2(Width(v) - prefix))
  }

  /** `value` rounded down to a multiple of `d`. */
  function RoundDown(value: nat, d: nat): (m: nat)
    requires d >= 1
    ensures m <= value < m + d && m % d == 0
  {
    var q: nat := value / d;
    NatProduct(q, d);
    DivisionFacts(value, d);
    MultipleMod(q, d);
    q * d
  }

  lemma DivisionFacts(value: nat, d: nat)
    requires d >= 1
    ensures (value / d) * d <= value < (value / d) * d + d
  {
    assert value == d * (value / d) + value % d;
  }

  lemma MultipleMod(q: nat, d: nat)
    requires d >= 1
    ensures (q * d) % d == 0
  {
    var x := q * d;
    var k := x / d;
    var r := x % d;
    assert x == k * d + r by { assert x == d * k + r; }
    MulMonotone(k, q, d);
    MulMonotone(q, k + 1, d);
    assert (k + 1) * d == k * d + d;
    assert k == q;
  }

  /** Multiplying by a positive number keeps the order. */
  lemma MulMonotone(a: nat, b: nat, d: nat)
    requires d >= 1
    ensures a * d <= b * d <==> a <= b
    ensures a * d < b * d <==> a < b
  {
    if a <= b {
      NatProduct(b - a, d);
      assert b * d == a * d + (b - a) * d;
      if a < b {
        NatProduct(b - a - 1, d);
        assert (b - a) * d == (b - a - 1) * d + d;
      }
    } else {
      NatProduct(a - b - 1, d);
      assert a * d == b * d + (a - b - 1) * d + d;
    }
  }

  lemma NatProduct(x: nat, y: nat)
    ensures x * y >= 0
  {
  }

  /** The network `address/prefix` with host bits masked off (strict=False). */
  function NetworkOf(a: Addr, prefix: nat): (n: Network)
    requires prefix <= Width(a.version)
    ensures n.version == a.version && n.prefix == prefix
    ensures n.base <= a.value < n.base + Pow2(Width(a.version) - prefix)
  {
    Network(a.version, Mask(a.version, a.value, prefix), prefix)
  }

  /** `address in network`: same version and the same network bits. */
  predicate Contains(n: Network, a: Addr) {
    && a.version == n.version
    && n.prefix <= Width(n.version)
    && Mask(a.version, a.value, n.prefix) == n.base
  }

  lemma MulCancel(x: nat, y: nat, d: nat)
    requires d >= 1
    ensures x * d == y * d <==> x == y
  {
    if x < y {
      assert x * d < y * d;
    } else if y < x {
      assert y * d < x * d;
    }
  }

  /** A masked network holds exactly the addresses of its version that agree
      with the written address on the leading `prefix` bits. */
  lemma NetworkMembership(a: Addr, prefix: nat, b: Addr)
    requires prefix <= Width(a.version)
    ensures Contains(NetworkOf(a, prefix), b)
        <==> b.version == a.version
             && b.value / Pow2(Width(a.version) - prefix) == a.value / Pow2(Width(a.version) - prefix)
  {
    var d := Pow2(Width(a.version) - prefix);
    var n := NetworkOf(a, prefix);
    assert n.base == (a.value / d) * d;
    if b.version == a.version {
      assert Mask(b.version, b.value, prefix) == (b.value / d) * d;
      MulCancel(b.value / d, a.value / d, d);
    }
  }

  /** The written address always lies in its own network. */
  lemma NetworkHoldsItsAddress(a: Addr, prefix: nat)
    requires prefix <= Width(a.version)
    ensures Contains(NetworkOf(a, prefix), a)
  {
    NetworkMembership(a, prefix, a);
  }

  /** A full-length prefix (/32, /128) holds one address only. */
  lemma FullPrefixIsSingleAddress(a: Addr, b: Addr)
    ensures Contains(NetworkOf(a, Width(a.version)), b) <==> b == a
  {
    NetworkMembership(a, Width(a.version), b);
  }

  /** Whatever host bits were written, the same network results. */
  lemma HostBitsIgnored(a: Addr, b: Addr, prefix: nat)
    requires a.version == b.version && prefix <= Width(a.version)
    requires a.value / Pow2(Width(a.version) - prefix) == b.value / Pow2(Width(a.version) - prefix)
    ensures NetworkOf(a, prefix) == NetworkOf(b, prefix)
  {
  }

  /** The dotted-quad `w.x.y.z` as an IPv4 address. */
  function V4Addr(w: nat, x: nat, y: nat, z: nat): Addr
    requires w < 256 && x < 256 && y < 256 && z < 256
  {
    Addr(V4, ((w * 256 + x) * 256 + y) * 256 + z)
  }

  /** 10.0.0.0/24 holds 10.0.0.7 but not 10.0.1.7; 10.0.0.7/24 is the same network. */
  lemma CidrExample()
    ensures Contains(NetworkOf(V4Addr(10, 0, 0, 0), 24), V4Addr(10, 0, 0, 7))
    ensures !Contains(NetworkOf(V4Addr(10, 0, 0, 0), 24), V4Addr(10, 0, 1, 7))
    ensures NetworkOf(V4Addr(10, 0, 0, 7), 24) == NetworkOf(V4Addr(10, 0, 0, 0), 24)
  {
    assert Pow2(8) == 256;
    NetworkMembership(V4Addr(10, 0, 0, 0), 24, V4Addr(10, 0, 0, 7));
    NetworkMembership(V4Addr(10, 0, 0, 0), 24, V4Addr(10, 0, 1, 7));
  }

  /** The collaborators the whitelist needs, supplied from outside:
      - `address`: `ipaddress.ip_address(text)`, None when it raises ValueError;
      - `network`: `ipaddress.ip_network(text, strict=False)` before masking: the
        address as written and the prefix length, None when it raises;
      - `encodes`: whether the idna codec accepts the host name; for a name it
        refuses (an empty label, a label over 63 characters) `getaddrinfo`
        raises `UnicodeError`, a `ValueError`, before any lookup;
      - `lookup`: `socket.getaddrinfo(host, None)` for an encodable name, None
        when it raises `socket.gaierror`, otherwise the address text of each
        result in order. */
  datatype Resolver = Resolver(
    address: string -> Option<Addr>,
    network: string -> Option<(Addr, nat)>,
    encodes: string -> bool,
    lookup: string -> Option<seq<string>>)

  /** `ip_network(text, strict=False)`: a prefix longer than the address width is
      rejected, otherwise the host bits are masked. */
  function ParseNetwork(r: Resolver, text: string): (n: Option<Network>)
    ensures n.Some? <==> r.network(text).Some? && r.network(text).value.1 <= Width(r.network(text).value.0.version)
    ensures n.Some? ==> Contains(n.value, r.network(text).value.0) && n.value.prefix == r.network(text).value.1
  {
    match r.network(text)
    case None => None
    case Some((a, p)) =>
      if p <= Width(a.version) then
        NetworkHoldsItsAddress(a, p);
        Some(NetworkOf(a, p))
      else None
  }
}

=== FILE: projects.dfy ===
/** The management routes of app/routes/projects.py: listing and creating
    projects and environments, project membership, the IP whitelist, and saving
    and deleting configuration values and secrets. Each route is the login and
    role guard followed by its own checks in the order the handler makes them;
    the first check that fails decides the response. */
module Projects {
  import opened Wrappers
  import opened Text
  import opened Net
  import opened Schema
  import opened Tables
  import opened Rows
  import opened Whitelist
  import opened Auth
  import opened Crypto
  import Api

  /** Why a route refused, one per error response. */
  datatype ProjectError =
    | Denied(denial: Denial)      // the guard's own response
    | ProjectNotFound             // 404 from `get_or_404`
    | NameRequired                // "Project name is required"
    | NameTaken                   // "Project name already exists"
    | EnvironmentNameRequired     // "Environment name is required"
    | EnvironmentNameTaken        // "Environment already exists in this project"
    | MembershipClash             // the owner row of a new project violates unique (user, project)
    | UserRequired                // "User is required"
    | AlreadyMember               // "User is already in this project"
    | MembershipNotFound          // 404 from `first_or_404`
    | InvalidRole                 // "Invalid role specified"
    | LastOwner                   // the caller would leave the project without owners
    | IpRequired                  // "IP address is required"
    | InvalidEntry(reason: EntryError)
    | EntryNotFound               // 404 from `first_or_404`
    | EnvironmentNotFound         // 404 "Environment not found"
    | KeyAndValueRequired         // 400 "Key and value are required"
    | ConfigNotFound              // 404 "Configuration not found"
    | SecretNotFound              // 404 "Secret not found"
    | EncryptionFailed            // 500 "Failed to encrypt secret"

  /** A form field with Python's default for a missing one. */
  function OrElse(field: Option<string>, default: string): string {
    if field.Some? then field.value else default
  }

  /** A form field that is missing or empty is falsy. */
  predicate Blank(field: Option<string>) {
    field.None? || field.value == ""
  }

  // ---------------------------------------------------------------------------
  // Projects

  /** `list_projects` (and the dashboard): every project for an administrator,
      otherwise the projects named by the caller's memberships, existing or not. */
  function VisibleProjects(s: Store, session: Session): (r: Result<set<nat>, Denial>)
    ensures session.Anonymous? <==> r == Err(LoginRedirect)
    ensures r.Ok? && session.isAdmin ==> r.value == s.projects.Keys
    ensures r.Ok? && !session.isAdmin ==> forall p :: p in r.value <==> (session.userId, p) in s.members
  {
    match session
    case Anonymous => Err(LoginRedirect)
    case SignedIn(u, admin) =>
      if admin then Ok(s.projects.Keys)
      else
        var ps := set k | k in s.members && k.0 == u :: k.1;
        assert forall p :: (u, p) in s.members ==> p in ps by {
          forall p | (u, p) in s.members ensures p in ps {
            var k := (u, p);
            assert k in s.members && k.0 == u;
          }
        }
        Ok(ps)
  }

  /** The list shows every project the caller belongs to, but a reader-level
      page opens only where their role is one of the three known roles (a member
      added with another role text sees the project listed and is refused); a
      project outside the list is refused as "not a member". */
  lemma VisibleAgreesWithGuard(s: Store, u: nat, p: nat)
    requires p != 0
    ensures p in VisibleProjects(s, SignedIn(u, false)).value ==>
      (RequireProjectPermission(s, SignedIn(u, false), p, Reader).Ok? <==> Level(s.members[(u, p)].role) >= 1)
    ensures p !in VisibleProjects(s, SignedIn(u, false)).value ==>
      RequireProjectPermission(s, SignedIn(u, false), p, Reader) == Err(NotMember)
  {
  }

  /** `create_project`: on success, the new store and the new project's id. The
      caller becomes its owner in the same commit. */
  function CreateProject(s: Store, session: Session, name: Option<string>, description: Option<string>, now: nat)
    : (res: Result<(Store, nat), ProjectError>)
    ensures session.Anonymous? ==> res == Err(Denied(LoginRedirect))
    ensures session.SignedIn? && Blank(name) ==> res == Err(NameRequired)
    ensures session.SignedIn? && !Blank(name) && !ProjectNameFree(s, name.value) ==> res == Err(NameTaken)
    ensures session.SignedIn? && !Blank(name) && ProjectNameFree(s, name.value) && (session.userId, s.nextId) in s.members
            ==> res == Err(MembershipClash)
    ensures res.Ok? <==>
      session.SignedIn? && !Blank(name) && ProjectNameFree(s, name.value) && (session.userId, s.nextId) !in s.members
    ensures res.Ok? ==>
      var (s', id) := res.value;
      && session.SignedIn? && !Blank(name) && ProjectNameFree(s, name.value)
      && id == s.nextId && s'.nextId == id + 1
      && s'.projects.Keys == s.projects.Keys + {id}
      && (forall p :: p in s.projects && p != id ==> s'.projects[p] == s.projects[p])
      && s'.projects[id].name == name.value
      && s'.projects[id].description == Some(OrElse(description, ""))
      && (session.userId, id) !in s.members
      && s'.members.Keys == s.members.Keys + {(session.userId, id)}
      && s'.members[(session.userId, id)].role == Owner
      && (forall k :: k in s.members ==> s'.members[k] == s.members[k])
      && s'.(projects := s.projects, members := s.members, nextId := s.nextId) == s
  {
    match session
    case Anonymous => Err(Denied(LoginRedirect))
    case SignedIn(u, _) =>
      if Blank(name) then Err(NameRequired)
      else if !ProjectNameFree(s, name.value) then Err(NameTaken)
      else if (u, s.nextId) in s.members then Err(MembershipClash)
      else
        var s1 := InsertProject(s, Project(name.value, Some(OrElse(description, "")), now));
        Ok((s1.(members := s1.members[(u, s.nextId) := Membership(Owner, now)]), s.nextId))
  }

  /** Creating a project keeps the store invariant. */
  lemma CreateProjectValid(s: Store, session: Session, name: Option<string>, description: Option<string>, now: nat)
    requires Valid(s)
    requires CreateProject(s, session, name, description, now).Ok?
    ensures Valid(CreateProject(s, session, name, description, now).value.0)
  {
    var s' := CreateProject(s, session, name, description, now).value.0;
    var p := Project(name.value, Some(OrElse(description, "")), now);
    InsertProjectValid(s, p);
    MembersFree(InsertProject(s, p), s'.members);
  }

  /** The creator of a project is its owner: it is listed for them and opens
      every page of it; unless a stale membership already named the new id, they
      are its only owner. The store invariant is kept. */
  lemma CreatedProjectOwned(s: Store, session: Session, name: Option<string>, description: Option<string>, now: nat)
    requires Valid(s)
    requires CreateProject(s, session, name, description, now).Ok?
    ensures var (s', id) := CreateProject(s, session, name, description, now).value;
      && Valid(s')
      && id in VisibleProjects(s', session).value
      && RequireProjectPermission(s', session, id, Owner).Ok?
      && ((forall k :: k in s.members ==> k.1 != id) ==> Owners(s', id) == {session.userId})
  {
    var (s', id) := CreateProject(s, session, name, description, now).value;
    CreateProjectValid(s, session, name, description, now);
    OwnersMembership(s', id, session.userId);
    if forall k :: k in s.members ==> k.1 != id {
      forall v ensures v in Owners(s', id) <==> v == session.userId {
        OwnersMembership(s', id, v);
      }
    }
  }

  /** `create_environment` (owners): `key` is the freshly generated Fernet key.
      On success, the new store and the new environment's id. */
  function CreateEnvironment(s: Store, session: Session, projectId: nat, name: Option<string>, key: string, now: nat)
    : (res: Result<(Store, nat), ProjectError>)
    ensures RequireLoginAndPermission(s, session, projectId, Owner).Err? ==>
      res == Err(Denied(RequireLoginAndPermission(s, session, projectId, Owner).error))
    ensures RequireLoginAndPermission(s, session, projectId, Owner).Ok? && projectId !in s.projects ==>
      res == Err(ProjectNotFound)
    ensures res.Ok? ==>
      var (s', id) := res.value;
      && RequireLoginAndPermission(s, session, projectId, Owner).Ok?
      && projectId in s.projects && !Blank(name) && EnvironmentNameFree(s, projectId, name.value)
      && id == s.nextId
      && s'.environments.Keys == s.environments.Keys + {id}
      && (forall e :: e in s.environments && e != id ==> s'.environments[e] == s.environments[e])
      && s'.environments[id] == Environment(name.value, projectId, key, now)
      && s'.(environments := s.environments, nextId := s.nextId) == s
    ensures res == Err(EnvironmentNameRequired) <==>
      RequireLoginAndPermission(s, session, projectId, Owner).Ok? && projectId in s.projects && Blank(name)
    ensures res == Err(EnvironmentNameTaken) <==>
      RequireLoginAndPermission(s, session, projectId, Owner).Ok? && projectId in s.projects && !Blank(name)
      && !EnvironmentNameFree(s, projectId, name.value)
    ensures res.Ok? <==>
      RequireLoginAndPermission(s, session, projectId, Owner).Ok? && projectId in s.projects && !Blank(name)
      && EnvironmentNameFree(s, projectId, name.value)
  {
    match RequireLoginAndPermission(s, session, projectId, Owner)
    case Err(d) => Err(Denied(d))
    case Ok(_) =>
      if projectId !in s.projects then Err(ProjectNotFound)
      else if Blank(name) then Err(EnvironmentNameRequired)
      else if !EnvironmentNameFree(s, projectId, name.value) then Err(EnvironmentNameTaken)
      else Ok((InsertEnvironment(s, Environment(name.value, projectId, key, now)), s.nextId))
  }

  /** A new environment keeps the invariant and is the one the client API finds
      under its name. */
  lemma CreatedEnvironmentFound(s: Store, session: Session, projectId: nat, name: Option<string>, key: string, now: nat)
    requires Valid(s)
    requires CreateEnvironment(s, session, projectId, name, key, now).Ok?
    ensures var (s', id) := CreateEnvironment(s, session, projectId, name, key, now).value;
      Valid(s') && Api.EnvironmentNamed(s', projectId, name.value) == Some(id)
  {
    var (s', id) := CreateEnvironment(s, session, projectId, name, key, now).value;
    InsertEnvironmentValid(s, Environment(name.value, projectId, key, now));
    var n := name.value;
    FirstUnique(s'.environments, s'.nextId, (v: Environment) => v.projectId == projectId && v.name == n, id);
  }

  // ---------------------------------------------------------------------------
  // Membership

  /** `add_user` (owners): `userId` is the form's user id, None when missing or
      empty; the role defaults to `reader` and is not checked. The user's
      existence is not checked either. */
  function AddUser(s: Store, session: Session, projectId: nat, userId: Option<nat>, role: Option<string>, now: nat)
    : (res: Result<Store, ProjectError>)
    ensures res.Ok? <==>
      RequireLoginAndPermission(s, session, projectId, Owner).Ok? && userId.Some?
      && (userId.value, projectId) !in s.members
    ensures (RequireLoginAndPermission(s, session, projectId, Owner).Ok? && userId.Some?
             && (userId.value, projectId) in s.members) ==> res == Err(AlreadyMember)
    ensures res.Ok? ==>
      && res.value.members.Keys == s.members.Keys + {(userId.value, projectId)}
      && res.value.members[(userId.value, projectId)].role == OrElse(role, Reader)
      && (forall k :: k in s.members ==> res.value.members[k] == s.members[k])
      && res.value.(members := s.members) == s
  {
    match RequireLoginAndPermission(s, session, projectId, Owner)
    case Err(d) => Err(Denied(d))
    case Ok(_) =>
      if userId.None? then Err(UserRequired)
      else if (userId.value, projectId) in s.members then Err(AlreadyMember)
      else Ok(s.(members := s.members[(userId.value, projectId) := Membership(OrElse(role, Reader), now)]))
  }

  /** A user added without a role, or with a known one, opens the project's
      reader pages and sees it listed. */
  lemma AddedUserReads(s: Store, session: Session, projectId: nat, u: nat, role: Option<string>, now: nat)
    requires AddUser(s, session, projectId, Some(u), role, now).Ok?
    requires role.None? || Level(role.value) >= 1
    ensures var s' := AddUser(s, session, projectId, Some(u), role, now).value;
      RequireProjectPermission(s', SignedIn(u, false), projectId, Reader) == Ok(OrElse(role, Reader))
      && projectId in VisibleProjects(s', SignedIn(u, false)).value
  {
  }

  /** `remove_user` (owners): the membership must exist; callers may not remove
      themselves while the project has at most one owner. */
  function RemoveUser(s: Store, session: Session, projectId: nat, userId: nat): (res: Result<Store, ProjectError>)
    ensures res.Ok? <==>
      RequireLoginAndPermission(s, session, projectId, Owner).Ok? && (userId, projectId) in s.members
      && !(userId == session.userId && |Owners(s, projectId)| <= 1)
    ensures RequireLoginAndPermission(s, session, projectId, Owner).Ok? && (userId, projectId) !in s.members ==>
      res == Err(MembershipNotFound)
    ensures res.Ok? ==>
      && res.value.members.Keys == s.members.Keys - {(userId, projectId)}
      && (forall k :: k in res.value.members ==> res.value.members[k] == s.members[k])
      && res.value.(members := s.members) == s
  {
    match RequireLoginAndPermission(s, session, projectId, Owner)
    case Err(d) => Err(Denied(d))
    case Ok(_) =>
      if (userId, projectId) !in s.members then Err(MembershipNotFound)
      else if userId == session.userId && |Owners(s, projectId)| <= 1 then Err(LastOwner)
      else Ok(s.(members := s.members - {(userId, projectId)}))
  }

  /** When an owner who is not an administrator removes anyone, the project
      keeps at least one owner. */
  lemma RemoveUserKeepsOwner(s: Store, u: nat, projectId: nat, userId: nat)
    requires RemoveUser(s, SignedIn(u, false), projectId, userId).Ok?
    ensures Owners(RemoveUser(s, SignedIn(u, false), projectId, userId).value, projectId) != {}
  {
    var s' := RemoveUser(s, SignedIn(u, false), projectId, userId).value;
    OwnersAfterRemove(s, projectId, userId);
    OwnersMembership(s, projectId, u);
    if userId == u {
      var a :| a in Owners(s, projectId);
      if a == u {
        assert |Owners(s, projectId) - {u}| == |Owners(s, projectId)| - 1;
      }
    } else {
      assert u in Owners(s', projectId);
    }
  }

  /** The last-owner rule covers only self-removal: an administrator outside the
      project may remove its only owner and leave it with none. */
  lemma AdminRemovesLastOwner(s: Store, admin: nat, projectId: nat, owner: nat)
    requires projectId != 0 && admin != owner
    requires (owner, projectId) in s.members && Owners(s, projectId) == {owner}
    ensures RemoveUser(s, SignedIn(admin, true), projectId, owner).Ok?
    ensures Owners(RemoveUser(s, SignedIn(admin, true), projectId, owner).value, projectId) == {}
  {
    OwnersAfterRemove(s, projectId, owner);
  }

  /** The three roles a role change accepts. */
  predicate KnownRole(role: Option<string>) {
    role == Some(Owner) || role == Some(Maintainer) || role == Some(Reader)
  }

  /** `change_user_role` (owners): the membership must exist and the new role
      must be known; an owner may not step down while the only owner. */
  function ChangeUserRole(s: Store, session: Session, projectId: nat, userId: nat, newRole: Option<string>)
    : (res: Result<Store, ProjectError>)
    ensures res.Ok? <==>
      RequireLoginAndPermission(s, session, projectId, Owner).Ok? && (userId, projectId) in s.members
      && KnownRole(newRole)
      && !(userId == session.userId && s.members[(userId, projectId)].role == Owner
           && |Owners(s, projectId)| <= 1 && newRole != Some(Owner))
    ensures (RequireLoginAndPermission(s, session, projectId, Owner).Ok? && (userId, projectId) in s.members
             && !KnownRole(newRole)) ==> res == Err(InvalidRole)
    ensures res.Ok? ==>
      && res.value.members.Keys == s.members.Keys
      && res.value.members[(userId, projectId)] == s.members[(userId, projectId)].(role := newRole.value)
      && (forall k :: k in s.members && k != (userId, projectId) ==> res.value.members[k] == s.members[k])
      && res.value.(members := s.members) == s
  {
    match RequireLoginAndPermission(s, session, projectId, Owner)
    case Err(d) => Err(Denied(d))
    case Ok(_) =>
      if (userId, projectId) !in s.members then Err(MembershipNotFound)
      else if !KnownRole(newRole) then Err(InvalidRole)
      else
        var m := s.members[(userId, projectId)];
        if userId == session.userId && m.role == Owner && |Owners(s, projectId)| <= 1 && newRole.value != Owner
        then Err(LastOwner)
        else Ok(s.(members := s.members[(userId, projectId) := m.(role := newRole.value)]))
  }

  /** A role change by an owner who is not an administrator leaves the project
      with an owner, and the changed member still opens its reader pages. */
  lemma ChangeUserRoleKeepsOwner(s: Store, u: nat, projectId: nat, userId: nat, newRole: Option<string>)
    requires ChangeUserRole(s, SignedIn(u, false), projectId, userId, newRole).Ok?
    ensures var s' := ChangeUserRole(s, SignedIn(u, false), projectId, userId, newRole).value;
      Owners(s', projectId) != {}
      && RequireProjectPermission(s', SignedIn(userId, false), projectId, Reader).Ok?
  {
    var m := s.members[(userId, projectId)];
    var s' := ChangeUserRole(s, SignedIn(u, false), projectId, userId, newRole).value;
    OwnersAfterSet(s, projectId, userId, m.(role := newRole.value));
    OwnersMembership(s, projectId, u);
    if newRole.value != Owner {
      if userId == u {
        var a :| a in Owners(s, projectId);
        if a == u {
          assert |Owners(s, projectId) - {u}| == |Owners(s, projectId)| - 1;
        }
      } else {
        assert u in Owners(s', projectId);
      }
    }
  }

  // ---------------------------------------------------------------------------
  // IP whitelist

  /** `add_allowed_ip` (owners): a project-wide entry; the description defaults
      to the empty text. On success, the new store and the entry's id. */
  function AddAllowedIp(r: Resolver, s: Store, session: Session, projectId: nat, ip: Option<string>,
                        description: Option<string>, now: nat)
    : (res: Result<(Store, nat), ProjectError>)
    ensures RequireLoginAndPermission(s, session, projectId, Owner).Err? ==>
      res == Err(Denied(RequireLoginAndPermission(s, session, projectId, Owner).error))
    ensures RequireLoginAndPermission(s, session, projectId, Owner).Ok? && Blank(ip) ==> res == Err(IpRequired)
    ensures (RequireLoginAndPermission(s, session, projectId, Owner).Ok? && !Blank(ip)
             && ValidateEntry(r, ip.value).Err?) ==> res == Err(InvalidEntry(ValidateEntry(r, ip.value).error))
    ensures res.Ok? <==>
      RequireLoginAndPermission(s, session, projectId, Owner).Ok? && !Blank(ip) && ValidateEntry(r, ip.value).Ok?
    ensures res.Ok? ==>
      var (s', id) := res.value;
      && RequireLoginAndPermission(s, session, projectId, Owner).Ok? && !Blank(ip)
      && id == s.nextId
      && s'.allowedIps.Keys == s.allowedIps.Keys + {id}
      && (forall i :: i in s.allowedIps && i != id ==> s'.allowedIps[i] == s.allowedIps[i])
      && s'.allowedIps[id].ipAddress == ip.value && s'.allowedIps[id].projectId == projectId
      && s'.allowedIps[id].envId.None? && s'.allowedIps[id].description == Some(OrElse(description, ""))
      && ValidateEntry(r, ip.value) == Ok(s'.allowedIps[id].isFqdn)
      && s'.(allowedIps := s.allowedIps, nextId := s.nextId) == s
  {
    match RequireLoginAndPermission(s, session, projectId, Owner)
    case Err(d) => Err(Denied(d))
    case Ok(_) =>
      if Blank(ip) then Err(IpRequired)
      else match ValidateEntry(r, ip.value)
        case Err(e) => Err(InvalidEntry(e))
        case Ok(fqdn) =>
          var entry := AllowedIp(ip.value, projectId, None, Some(OrElse(description, "")), fqdn, now);
          Ok((InsertAllowedIp(s, entry), s.nextId))
  }

  /** `add_environment_ip` (owners): the environment must belong to the
      project, and is checked before the address. */
  function AddEnvironmentIp(r: Resolver, s: Store, session: Session, projectId: nat, envId: nat, ip: Option<string>,
                            description: Option<string>, now: nat)
    : (res: Result<(Store, nat), ProjectError>)
    ensures RequireLoginAndPermission(s, session, projectId, Owner).Err? ==>
      res == Err(Denied(RequireLoginAndPermission(s, session, projectId, Owner).error))
    ensures RequireLoginAndPermission(s, session, projectId, Owner).Ok? && !EnvironmentOf(s, envId, projectId) ==>
      res == Err(EnvironmentNotFound)
    ensures RequireLoginAndPermission(s, session, projectId, Owner).Ok? && EnvironmentOf(s, envId, projectId) && Blank(ip) ==>
      res == Err(IpRequired)
    ensures (RequireLoginAndPermission(s, session, projectId, Owner).Ok? && EnvironmentOf(s, envId, projectId)
             && !Blank(ip) && ValidateEntry(r, ip.value).Err?) ==>
      res == Err(InvalidEntry(ValidateEntry(r, ip.value).error))
    ensures res.Ok? <==>
      RequireLoginAndPermission(s, session, projectId, Owner).Ok? && EnvironmentOf(s, envId, projectId)
      && !Blank(ip) && ValidateEntry(r, ip.value).Ok?
    ensures res.Ok? ==>
      var (s', id) := res.value;
      && RequireLoginAndPermission(s, session, projectId, Owner).Ok? && EnvironmentOf(s, envId, projectId)
      && !Blank(ip)
      && id == s.nextId
      && s'.allowedIps.Keys == s.allowedIps.Keys + {id}
      && (forall i :: i in s.allowedIps && i != id ==> s'.allowedIps[i] == s.allowedIps[i])
      && s'.allowedIps[id].ipAddress == ip.value && s'.allowedIps[id].projectId == projectId
      && s'.allowedIps[id].envId == Some(envId) && s'.allowedIps[id].description == Some(OrElse(description, ""))
      && ValidateEntry(r, ip.value) == Ok(s'.allowedIps[id].isFqdn)
      && s'.(allowedIps := s.allowedIps, nextId := s.nextId) == s
  {
    match RequireLoginAndPermission(s, session, projectId, Owner)
    case Err(d) => Err(Denied(d))
    case Ok(_) =>
      if !EnvironmentOf(s, envId, projectId) then Err(EnvironmentNotFound)
      else if Blank(ip) then Err(IpRequired)
      else match ValidateEntry(r, ip.value)
        case Err(e) => Err(InvalidEntry(e))
        case Ok(fqdn) =>
          var entry := AllowedIp(ip.value, projectId, Some(envId), Some(OrElse(description, "")), fqdn, now);
          Ok((InsertAllowedIp(s, entry), s.nextId))
  }

  lemma AddIpValid(r: Resolver, s: Store, session: Session, projectId: nat, envId: nat, ip: Option<string>,
                   description: Option<string>, now: nat)
    requires Valid(s)
    ensures AddAllowedIp(r, s, session, projectId, ip, description, now).Ok? ==>
      Valid(AddAllowedIp(r, s, session, projectId, ip, description, now).value.0)
    ensures AddEnvironmentIp(r, s, session, projectId, envId, ip, description, now).Ok? ==>
      Valid(AddEnvironmentIp(r, s, session, projectId, envId, ip, description, now).value.0)
  {
    var res := AddAllowedIp(r, s, session, projectId, ip, description, now);
    if res.Ok? {
      InsertAllowedIpValid(s, res.value.0.allowedIps[s.nextId]);
    }
    var res' := AddEnvironmentIp(r, s, session, projectId, envId, ip, description, now);
    if res'.Ok? {
      InsertAllowedIpValid(s, res'.value.0.allowedIps[s.nextId]);
    }
  }

  /** An address added to a project's whitelist, alone or with a port, admits
      any client text naming the same address: to every environment's token
      checks and to the project's `_with_ip` guard. */
  lemma AddedAddressAdmitted(r: Resolver, s: Store, session: Session, projectId: nat, ip: string,
                             description: Option<string>, now: nat, client: string, envId: Option<nat>)
    requires AddAllowedIp(r, s, session, projectId, Some(ip), description, now).Ok?
    requires '/' !in HostOf(ip) && r.address(HostOf(ip)).Some? && r.address(client) == r.address(HostOf(ip))
    ensures CheckIpWhitelist(r, AddAllowedIp(r, s, session, projectId, Some(ip), description, now).value.0.allowedIps,
                             projectId, envId, Some(client))
  {
    var (s', id) := AddAllowedIp(r, s, session, projectId, Some(ip), description, now).value;
    ValidatedEntryMatches(r, s'.allowedIps[id], r.address(client).value);
    assert id in Scope(s'.allowedIps, projectId, envId);
  }

  /** An address added to one environment's whitelist is admitted to that
      environment, and also by the project's `_with_ip` guard, which loads the
      entries of every environment. */
  lemma EnvironmentAddressAdmitted(r: Resolver, s: Store, session: Session, projectId: nat, envId: nat, ip: string,
                                   description: Option<string>, now: nat, req: Request)
    requires AddEnvironmentIp(r, s, session, projectId, envId, Some(ip), description, now).Ok?
    requires '/' !in HostOf(ip) && r.address(HostOf(ip)).Some?
    requires ClientIp(req.forwardedFor, req.remoteAddr).Some?
    requires r.address(ClientIp(req.forwardedFor, req.remoteAddr).value) == r.address(HostOf(ip))
    ensures var s' := AddEnvironmentIp(r, s, session, projectId, envId, Some(ip), description, now).value.0;
      CheckIpWhitelist(r, s'.allowedIps, projectId, Some(envId), ClientIp(req.forwardedFor, req.remoteAddr))
      && ProjectIpAllowed(r, s', req, projectId)
  {
    var (s', id) := AddEnvironmentIp(r, s, session, projectId, envId, Some(ip), description, now).value;
    var c := ClientIp(req.forwardedFor, req.remoteAddr).value;
    ValidatedEntryMatches(r, s'.allowedIps[id], r.address(c).value);
    assert id in Scope(s'.allowedIps, projectId, Some(envId));
    assert id in Scope(s'.allowedIps, projectId, None);
  }

  /** `remove_allowed_ip` (owners): the entry with this id in this project,
      whatever its environment. */
  function RemoveAllowedIp(s: Store, session: Session, projectId: nat, ipId: nat): (res: Result<Store, ProjectError>)
    ensures res.Ok? <==>
      RequireLoginAndPermission(s, session, projectId, Owner).Ok?
      && ipId in s.allowedIps && s.allowedIps[ipId].projectId == projectId
    ensures RequireLoginAndPermission(s, session, projectId, Owner).Ok? && !res.Ok? ==> res == Err(EntryNotFound)
    ensures res.Ok? ==>
      res.value.allowedIps.Keys == s.allowedIps.Keys - {ipId}
      && (forall i :: i in res.value.allowedIps ==> res.value.allowedIps[i] == s.allowedIps[i])
      && res.value.(allowedIps := s.allowedIps) == s
  {
    match RequireLoginAndPermission(s, session, projectId, Owner)
    case Err(d) => Err(Denied(d))
    case Ok(_) =>
      if ipId in s.allowedIps && s.allowedIps[ipId].projectId == projectId then
        Ok(s.(allowedIps := s.allowedIps - {ipId}))
      else Err(EntryNotFound)
  }

  /** `remove_environment_ip` (owners): the entry with this id in this project
      and this environment. */
  function RemoveEnvironmentIp(s: Store, session: Session, projectId: nat, envId: nat, ipId: nat)
    : (res: Result<Store, ProjectError>)
    ensures res.Ok? <==>
      RequireLoginAndPermission(s, session, projectId, Owner).Ok?
      && ipId in s.allowedIps && s.allowedIps[ipId].projectId == projectId && s.allowedIps[ipId].envId == Some(envId)
    ensures RequireLoginAndPermission(s, session, projectId, Owner).Ok? && !res.Ok? ==> res == Err(EntryNotFound)
    ensures res.Ok? ==> res == RemoveAllowedIp(s, session, projectId, ipId)
  {
    match RequireLoginAndPermission(s, session, projectId, Owner)
    case Err(d) => Err(Denied(d))
    case Ok(_) =>
      if ipId in s.allowedIps && s.allowedIps[ipId].projectId == projectId && s.allowedIps[ipId].envId == Some(envId)
      then Ok(s.(allowedIps := s.allowedIps - {ipId}))
      else Err(EntryNotFound)
  }

  /** A removed entry no longer applies to any check, and the invariant is kept. */
  lemma RemovedEntryGone(s: Store, session: Session, projectId: nat, ipId: nat, envId: Option<nat>)
    requires Valid(s)
    requires RemoveAllowedIp(s, session, projectId, ipId).Ok?
    ensures var s' := RemoveAllowedIp(s, session, projectId, ipId).value;
      Valid(s')
      && Scope(s'.allowedIps, projectId, envId) == Scope(s.allowedIps, projectId, envId) - {ipId}
  {
    RemoveAllowedIpValid(s, ipId);
  }

  // ---------------------------------------------------------------------------
  // Configuration values and secrets

  /** The row `filter_by(key=..., environment_id=...).first()` finds. */
  function ConfigRow(s: Store, envId: nat, key: string): (i: Option<nat>)
    ensures i.Some? ==> i.value in s.configs && s.configs[i.value].envId == envId && s.configs[i.value].key == key
    ensures i.None? && KeysBelow(s.configs, s.nextId) ==> ConfigKeyFree(s, envId, key)
  {
    First(s.configs, s.nextId, (c: Config) => c.envId == envId && c.key == key)
  }

  function SecretRow(s: Store, envId: nat, key: string): (i: Option<nat>)
    ensures i.Some? ==> i.value in s.secrets && s.secrets[i.value].envId == envId && s.secrets[i.value].key == key
    ensures i.None? && KeysBelow(s.secrets, s.nextId) ==> SecretKeyFree(s, envId, key)
  {
    First(s.secrets, s.nextId, (c: Secret) => c.envId == envId && c.key == key)
  }

  /** The JSON body carries both `key` and `value`. */
  predicate HasKeyAndValue(body: Option<map<string, string>>) {
    body.Some? && "key" in body.value && "value" in body.value
  }

  /** `create_config` (maintainers): insert the key in the environment, or
      overwrite its value and stamp `updated_at` when the row exists. Every row
      afterwards is an old one or the one written, and every old row of another
      key or environment is kept. */
  function SaveConfig(s: Store, session: Session, projectId: nat, envId: nat, body: Option<map<string, string>>,
                      now: nat)
    : (res: Result<Store, ProjectError>)
    ensures RequireLoginAndPermission(s, session, projectId, Maintainer).Err? ==>
      res == Err(Denied(RequireLoginAndPermission(s, session, projectId, Maintainer).error))
    ensures res.Ok? <==>
      RequireLoginAndPermission(s, session, projectId, Maintainer).Ok? && HasKeyAndValue(body)
      && EnvironmentOf(s, envId, projectId)
    ensures RequireLoginAndPermission(s, session, projectId, Maintainer).Ok? && !HasKeyAndValue(body) ==>
      res == Err(KeyAndValueRequired)
    ensures res.Ok? ==>
      var (k, v) := (body.value["key"], body.value["value"]);
      && (exists i :: i in res.value.configs && res.value.configs[i].envId == envId
            && res.value.configs[i].key == k && res.value.configs[i].value == v)
      && (forall i :: i in s.configs && i < s.nextId && !(s.configs[i].envId == envId && s.configs[i].key == k) ==>
            i in res.value.configs && res.value.configs[i] == s.configs[i])
      && (forall i :: i in res.value.configs ==>
            (i in s.configs && res.value.configs[i] == s.configs[i])
            || (res.value.configs[i].envId == envId && res.value.configs[i].key == k
                && res.value.configs[i].value == v && res.value.configs[i].updatedAt == now))
      && res.value.(configs := s.configs, nextId := s.nextId) == s
  {
    match RequireLoginAndPermission(s, session, projectId, Maintainer)
    case Err(d) => Err(Denied(d))
    case Ok(_) =>
      if !HasKeyAndValue(body) then Err(KeyAndValueRequired)
      else if !EnvironmentOf(s, envId, projectId) then Err(EnvironmentNotFound)
      else
        var (k, v) := (body.value["key"], body.value["value"]);
        match ConfigRow(s, envId, k)
        case Some(i) =>
          var c := s.configs[i];
          var s' := s.(configs := s.configs[i := c.(value := v, updatedAt := now)]);
          assert s'.configs[i].key == k && s'.configs[i].value == v;
          Ok(s')
        case None =>
          var s' := InsertConfig(s, Config(envId, k, v, now, now));
          assert s'.configs[s.nextId].key == k && s'.configs[s.nextId].value == v;
          Ok(s')
  }

  lemma SaveConfigValid(s: Store, session: Session, projectId: nat, envId: nat, body: Option<map<string, string>>,
                        now: nat)
    requires Valid(s)
    requires SaveConfig(s, session, projectId, envId, body, now).Ok?
    ensures Valid(SaveConfig(s, session, projectId, envId, body, now).value)
  {
    var (k, v) := (body.value["key"], body.value["value"]);
    match ConfigRow(s, envId, k)
    case Some(i) =>
      UpdateConfigValid(s, i, s.configs[i].(value := v, updatedAt := now));
    case None =>
      InsertConfigValid(s, Config(envId, k, v, now, now));
  }

  /** Two stores whose config rows of the environment agree outside one key
      return the same configuration outside that key. */
  lemma ConfigMapOutside(s: Store, s': Store, envId: nat, k: string)
    requires Valid(s) && Valid(s')
    requires forall i :: i in s.configs && s.configs[i].envId == envId && s.configs[i].key != k ==>
      i in s'.configs && s'.configs[i] == s.configs[i]
    requires forall i :: i in s'.configs && s'.configs[i].envId == envId && s'.configs[i].key != k ==>
      i in s.configs && s.configs[i] == s'.configs[i]
    ensures forall k2 :: k2 != k ==>
      (k2 in Api.ConfigMap(s', envId) <==> k2 in Api.ConfigMap(s, envId))
      && (k2 in Api.ConfigMap(s, envId) ==> Api.ConfigMap(s', envId)[k2] == Api.ConfigMap(s, envId)[k2])
  {
    Api.ConfigMapExact(s, envId);
    Api.ConfigMapExact(s', envId);
    forall k2 | k2 != k
      ensures k2 in Api.ConfigMap(s', envId) <==> k2 in Api.ConfigMap(s, envId)
      ensures k2 in Api.ConfigMap(s, envId) ==> Api.ConfigMap(s', envId)[k2] == Api.ConfigMap(s, envId)[k2]
    {
      if k2 in Api.ConfigMap(s, envId) {
        var j :| j in s.configs && s.configs[j].envId == envId && s.configs[j].key == k2;
        assert j in s'.configs && s'.configs[j] == s.configs[j];
      }
      if k2 in Api.ConfigMap(s', envId) {
        var j :| j in s'.configs && s'.configs[j].envId == envId && s'.configs[j].key == k2;
        assert j in s.configs && s.configs[j] == s'.configs[j];
      }
    }
  }

  /** After a save, the client API returns the new value under the key and
      every other key of the environment as before. */
  lemma SaveConfigThenRead(s: Store, session: Session, projectId: nat, envId: nat, body: Option<map<string, string>>,
                           now: nat)
    requires Valid(s)
    requires SaveConfig(s, session, projectId, envId, body, now).Ok?
    ensures var s' := SaveConfig(s, session, projectId, envId, body, now).value;
      var (k, v) := (body.value["key"], body.value["value"]);
      && k in Api.ConfigMap(s', envId) && Api.ConfigMap(s', envId)[k] == v
      && (forall k2 :: k2 != k ==>
            (k2 in Api.ConfigMap(s', envId) <==> k2 in Api.ConfigMap(s, envId))
            && (k2 in Api.ConfigMap(s, envId) ==> Api.ConfigMap(s', envId)[k2] == Api.ConfigMap(s, envId)[k2]))
  {
    var s' := SaveConfig(s, session, projectId, envId, body, now).value;
    var (k, v) := (body.value["key"], body.value["value"]);
    SaveConfigValid(s, session, projectId, envId, body, now);
    var i :| i in s'.configs && s'.configs[i].envId == envId && s'.configs[i].key == k && s'.configs[i].value == v;
    Api.ConfigMapExact(s', envId);
    ConfigMapOutside(s, s', envId, k);
  }

  /** `create_secret` (maintainers): the value is encrypted with the
      environment's key (`nonce` stands for Fernet's IV and clock) before the
      upsert; a failure to encrypt answers 500 and changes nothing. */
  function SaveSecret(c: Cipher, s: Store, session: Session, projectId: nat, envId: nat,
                      body: Option<map<string, string>>, nonce: nat, now: nat)
    : (res: Result<Store, ProjectError>)
    ensures RequireLoginAndPermission(s, session, projectId, Maintainer).Err? ==>
      res == Err(Denied(RequireLoginAndPermission(s, session, projectId, Maintainer).error))
    ensures res.Ok? <==>
      RequireLoginAndPermission(s, session, projectId, Maintainer).Ok? && HasKeyAndValue(body)
      && EnvironmentOf(s, envId, projectId)
      && c.encrypt(body.value["value"], s.environments[envId].secretKey, nonce).Some?
    ensures res == Err(EncryptionFailed) <==>
      RequireLoginAndPermission(s, session, projectId, Maintainer).Ok? && HasKeyAndValue(body)
      && EnvironmentOf(s, envId, projectId)
      && c.encrypt(body.value["value"], s.environments[envId].secretKey, nonce).None?
    ensures res.Ok? ==>
      var k := body.value["key"];
      var sealed := c.encrypt(body.value["value"], s.environments[envId].secretKey, nonce).value;
      && (exists i :: i in res.value.secrets && res.value.secrets[i].envId == envId
            && res.value.secrets[i].key == k && res.value.secrets[i].encryptedValue == sealed)
      && (forall i :: i in s.secrets && i < s.nextId && !(s.secrets[i].envId == envId && s.secrets[i].key == k) ==>
            i in res.value.secrets && res.value.secrets[i] == s.secrets[i])
      && (forall i :: i in res.value.secrets ==>
            (i in s.secrets && res.value.secrets[i] == s.secrets[i])
            || (res.value.secrets[i].envId == envId && res.value.secrets[i].key == k
                && res.value.secrets[i].encryptedValue == sealed && res.value.secrets[i].updatedAt == now))
      && res.value.(secrets := s.secrets, nextId := s.nextId) == s
  {
    match RequireLoginAndPermission(s, session, projectId, Maintainer)
    case Err(d) => Err(Denied(d))
    case Ok(_) =>
      if !HasKeyAndValue(body) then Err(KeyAndValueRequired)
      else if !EnvironmentOf(s, envId, projectId) then Err(EnvironmentNotFound)
      else match c.encrypt(body.value["value"], s.environments[envId].secretKey, nonce)
        case None => Err(EncryptionFailed)
        case Some(sealed) =>
          var k := body.value["key"];
          match SecretRow(s, envId, k)
          case Some(i) =>
            var row := s.secrets[i];
            var s' := s.(secrets := s.secrets[i := row.(encryptedValue := sealed, updatedAt := now)]);
            assert s'.secrets[i].key == k && s'.secrets[i].encryptedValue == sealed;
            Ok(s')
          case None =>
            var s' := InsertSecret(s, Secret(envId, k, sealed, now, now));
            assert s'.secrets[s.nextId].key == k && s'.secrets[s.nextId].encryptedValue == sealed;
            Ok(s')
  }

  lemma SaveSecretValid(c: Cipher, s: Store, session: Session, projectId: nat, envId: nat,
                        body: Option<map<string, string>>, nonce: nat, now: nat)
    requires Valid(s)
    requires SaveSecret(c, s, session, projectId, envId, body, nonce, now).Ok?
    ensures Valid(SaveSecret(c, s, session, projectId, envId, body, nonce, now).value)
  {
    var k := body.value["key"];
    var sealed := c.encrypt(body.value["value"], s.environments[envId].secretKey, nonce).value;
    match SecretRow(s, envId, k)
    case Some(i) =>
      UpdateSecretValid(s, i, s.secrets[i].(encryptedValue := sealed, updatedAt := now));
    case None =>
      InsertSecretValid(s, Secret(envId, k, sealed, now, now));
  }

  /** After a save, a client holding the environment's key decrypts the value
      the secrets endpoint returns under the key back to the value saved. */
  lemma SaveSecretThenDecrypt(c: Cipher, s: Store, session: Session, projectId: nat, envId: nat,
                              body: Option<map<string, string>>, nonce: nat, now: nat)
    requires Valid(s) && Sound(c)
    requires SaveSecret(c, s, session, projectId, envId, body, nonce, now).Ok?
    ensures var s' := SaveSecret(c, s, session, projectId, envId, body, nonce, now).value;
      var (k, v) := (body.value["key"], body.value["value"]);
      && k in Api.SecretMap(s', envId)
      && c.decrypt(Api.SecretMap(s', envId)[k], s'.environments[envId].secretKey) == Some(v)
  {
    var s' := SaveSecret(c, s, session, projectId, envId, body, nonce, now).value;
    var k := body.value["key"];
    var sealed := c.encrypt(body.value["value"], s.environments[envId].secretKey, nonce).value;
    SaveSecretValid(c, s, session, projectId, envId, body, nonce, now);
    var i :| i in s'.secrets && s'.secrets[i].envId == envId && s'.secrets[i].key == k
      && s'.secrets[i].encryptedValue == sealed;
    Api.SecretMapExact(s', envId);
  }

  /** `delete_config` (maintainers): the environment, then the key, must exist. */
  function DeleteConfig(s: Store, session: Session, projectId: nat, envId: nat, key: string)
    : (res: Result<Store, ProjectError>)
    ensures RequireLoginAndPermission(s, session, projectId, Maintainer).Err? ==>
      res == Err(Denied(RequireLoginAndPermission(s, session, projectId, Maintainer).error))
    ensures RequireLoginAndPermission(s, session, projectId, Maintainer).Ok? && !EnvironmentOf(s, envId, projectId) ==>
      res == Err(EnvironmentNotFound)
    ensures (Valid(s) && RequireLoginAndPermission(s, session, projectId, Maintainer).Ok?
             && EnvironmentOf(s, envId, projectId)) ==> (res == Err(ConfigNotFound) <==> ConfigKeyFree(s, envId, key))
    ensures Valid(s) ==>
      (res.Ok? <==> RequireLoginAndPermission(s, session, projectId, Maintainer).Ok? && EnvironmentOf(s, envId, projectId)
                    && !ConfigKeyFree(s, envId, key))
    ensures res.Ok? ==>
      && RequireLoginAndPermission(s, session, projectId, Maintainer).Ok? && EnvironmentOf(s, envId, projectId)
      && (exists i :: i in s.configs && s.configs[i].envId == envId && s.configs[i].key == key
            && res.value.configs == s.configs - {i})
      && res.value.(configs := s.configs) == s
  {
    match RequireLoginAndPermission(s, session, projectId, Maintainer)
    case Err(d) => Err(Denied(d))
    case Ok(_) =>
      if !EnvironmentOf(s, envId, projectId) then Err(EnvironmentNotFound)
      else match ConfigRow(s, envId, key)
        case None => Err(ConfigNotFound)
        case Some(i) => Ok(s.(configs := s.configs - {i}))
  }

  /** After a delete, the client API no longer returns the key, and returns
      every other key of the environment as before. */
  lemma DeleteConfigThenRead(s: Store, session: Session, projectId: nat, envId: nat, key: string)
    requires Valid(s)
    requires DeleteConfig(s, session, projectId, envId, key).Ok?
    ensures var s' := DeleteConfig(s, session, projectId, envId, key).value;
      && Valid(s')
      && key !in Api.ConfigMap(s', envId)
      && (forall k2 :: k2 != key ==>
            (k2 in Api.ConfigMap(s', envId) <==> k2 in Api.ConfigMap(s, envId))
            && (k2 in Api.ConfigMap(s, envId) ==> Api.ConfigMap(s', envId)[k2] == Api.ConfigMap(s, envId)[k2]))
  {
    var s' := DeleteConfig(s, session, projectId, envId, key).value;
    var i := ConfigRow(s, envId, key).value;
    RemoveConfigValid(s, i);
    assert s'.configs == s.configs - {i};
    Api.ConfigMapExact(s', envId);
    ConfigMapOutside(s, s', envId, key);
  }

  /** `delete_secret` (maintainers): the environment, then the key, must exist. */
  function DeleteSecret(s: Store, session: Session, projectId: nat, envId: nat, key: string)
    : (res: Result<Store, ProjectError>)
    ensures RequireLoginAndPermission(s, session, projectId, Maintainer).Err? ==>
      res == Err(Denied(RequireLoginAndPermission(s, session, projectId, Maintainer).error))
    ensures RequireLoginAndPermission(s, session, projectId, Maintainer).Ok? && !EnvironmentOf(s, envId, projectId) ==>
      res == Err(EnvironmentNotFound)
    ensures (Valid(s) && RequireLoginAndPermission(s, session, projectId, Maintainer).Ok?
             && EnvironmentOf(s, envId, projectId)) ==> (res == Err(SecretNotFound) <==> SecretKeyFree(s, envId, key))
    ensures Valid(s) ==>
      (res.Ok? <==> RequireLoginAndPermission(s, session, projectId, Maintainer).Ok? && EnvironmentOf(s, envId, projectId)
                    && !SecretKeyFree(s, envId, key))
    ensures res.Ok? ==>
      && RequireLoginAndPermission(s, session, projectId, Maintainer).Ok? && EnvironmentOf(s, envId, projectId)
      && (exists i :: i in s.secrets && s.secrets[i].envId == envId && s.secrets[i].key == key
            && res.value.secrets == s.secrets - {i})
      && res.value.(secrets := s.secrets) == s
  {
    match RequireLoginAndPermission(s, session, projectId, Maintainer)
    case Err(d) => Err(Denied(d))
    case Ok(_) =>
      if !EnvironmentOf(s, envId, projectId) then Err(EnvironmentNotFound)
      else match SecretRow(s, envId, key)
        case None => Err(SecretNotFound)
        case Some(i) => Ok(s.(secrets := s.secrets - {i}))
  }

  /** After a delete, the secrets endpoint no longer returns the key. */
  lemma DeleteSecretThenRead(s: Store, session: Session, projectId: nat, envId: nat, key: string)
    requires Valid(s)
    requires DeleteSecret(s, session, projectId, envId, key).Ok?
    ensures var s' := DeleteSecret(s, session, projectId, envId, key).value;
      Valid(s') && key !in Api.SecretMap(s', envId)
  {
    var s' := DeleteSecret(s, session, projectId, envId, key).value;
    var i := SecretRow(s, envId, key).value;
    RemoveSecretValid(s, i);
    assert s'.secrets == s.secrets - {i};
    Api.SecretMapExact(s', envId);
  }
}

=== FILE: restore.dfy ===
/** `restore_project_backup` of app/utils/backup.py: a backup document becomes
    a brand-new project. Each row is inserted with the next id, in document
    order; the whole restore is one transaction, so any failure (an invalid
    document, a taken project name, a unique constraint violated at flush or
    commit) yields an error and no store at all. */
module ProjectRestore {
  import opened Wrappers
  import opened Schema
  import opened Tables
  import opened Rows
  import opened BackupDocs

  // ---------------------------------------------------------------------------
  // Tables that grow

  /** `m'` keeps every row of `m`, and each row it adds belongs to one of the
      environments `added`. */
  predicate Grows<T(==)>(m: map<nat, T>, m': map<nat, T>, env: T -> nat, added: set<nat>) {
    && (forall i :: i in m ==> i in m' && m'[i] == m[i])
    && (forall i :: i in m' && i !in m ==> env(m'[i]) in added)
  }

  lemma GrowsTrans<T>(m1: map<nat, T>, m2: map<nat, T>, m3: map<nat, T>, env: T -> nat, a: set<nat>, b: set<nat>, c: set<nat>)
    requires Grows(m1, m2, env, a) && Grows(m2, m3, env, b) && a <= c && b <= c
    ensures Grows(m1, m3, env, c)
  {
  }

  /** Rows added for other environments leave an environment's rows as they were. */
  lemma RowsAreKept<T>(m: map<nat, T>, m': map<nat, T>, env: T -> nat, pair: T -> (string, string),
                       added: set<nat>, envId: nat, pairs: seq<(string, string)>)
    requires Grows(m, m', env, added) && envId !in added
    requires RowsAre(m, env, pair, envId, pairs)
    ensures RowsAre(m', env, pair, envId, pairs)
  {
    assert RowPairs(m', env, pair, envId) == RowPairs(m, env, pair, envId) by {
      forall x ensures x in RowPairs(m', env, pair, envId) <==> x in RowPairs(m, env, pair, envId) {
        if x in RowPairs(m', env, pair, envId) {
          var i :| i in m' && env(m'[i]) == envId && pair(m'[i]) == x;
          assert i in m;
        }
        if x in RowPairs(m, env, pair, envId) {
          var i :| i in m && env(m[i]) == envId && pair(m[i]) == x;
          assert i in m' && m'[i] == m[i];
        }
      }
    }
  }

  /** Inserting a row of the environment under an unused id appends its pair. */
  lemma InsertRowsAre<T>(m: map<nat, T>, env: T -> nat, pair: T -> (string, string), envId: nat,
                         pairs: seq<(string, string)>, id: nat, row: T)
    requires id !in m && env(row) == envId
    requires RowsAre(m, env, pair, envId, pairs)
    ensures RowsAre(m[id := row], env, pair, envId, pairs + [pair(row)])
  {
    var m' := m[id := row];
    assert RowPairs(m', env, pair, envId) == RowPairs(m, env, pair, envId) + {pair(row)} by {
      forall x ensures x in RowPairs(m', env, pair, envId) <==> x in RowPairs(m, env, pair, envId) + {pair(row)} {
        if x in RowPairs(m', env, pair, envId) {
          var i :| i in m' && env(m'[i]) == envId && pair(m'[i]) == x;
          if i != id { assert i in m; }
        }
        if x in RowPairs(m, env, pair, envId) {
          var i :| i in m && env(m[i]) == envId && pair(m[i]) == x;
          assert i in m' && m'[i] == m[i];
        }
        if x == pair(row) { assert id in m' && m'[id] == row; }
      }
    }
    assert (set p | p in pairs + [pair(row)]) == (set p | p in pairs) + {pair(row)};
  }

  /** No row of the environment has the key. */
  predicate KeyFree<T>(m: map<nat, T>, env: T -> nat, pair: T -> (string, string), envId: nat, key: string) {
    forall i :: i in m && env(m[i]) == envId ==> pair(m[i]).0 != key
  }

  lemma KeyFreeIff<T>(m: map<nat, T>, env: T -> nat, pair: T -> (string, string), envId: nat,
                      pairs: seq<(string, string)>, key: string)
    requires RowsAre(m, env, pair, envId, pairs)
    ensures KeyFree(m, env, pair, envId, key) <==> forall i :: 0 <= i < |pairs| ==> pairs[i].0 != key
  {
    if KeyFree(m, env, pair, envId, key) {
      forall i | 0 <= i < |pairs| ensures pairs[i].0 != key {
        var p := pairs[i];
        assert p in RowPairs(m, env, pair, envId);
        var r :| r in m && env(m[r]) == envId && pair(m[r]) == p;
      }
    } else {
      var r :| r in m && env(m[r]) == envId && pair(m[r]).0 == key;
      assert pair(m[r]) in RowPairs(m, env, pair, envId);
      var i :| 0 <= i < |pairs| && pairs[i] == pair(m[r]);
    }
  }

  /** Taking the pairs one at a time. */
  lemma KeysNewStep(taken: seq<(string, string)>, first: (string, string), rest: seq<(string, string)>)
    ensures KeysNew(taken, [first] + rest) <==>
      (forall i :: 0 <= i < |taken| ==> taken[i].0 != first.0) && KeysNew(taken + [first], rest)
  {
    var ps := [first] + rest;
    var t := taken + [first];
    assert forall j :: 0 <= j < |rest| ==> ps[j + 1] == rest[j];
    if KeysNew(taken, ps) {
      assert ps[0] == first;
      forall j, i | 0 <= j < |rest| && 0 <= i < |t| ensures t[i].0 != rest[j].0 {
        if i < |taken| { assert t[i] == taken[i]; } else { assert t[i] == ps[0]; }
      }
      forall i, j | 0 <= i < j < |rest| ensures rest[i].0 != rest[j].0 {
        assert ps[i + 1].0 != ps[j + 1].0;
      }
    }
    if (forall i :: 0 <= i < |taken| ==> taken[i].0 != first.0) && KeysNew(t, rest) {
      assert forall i :: 0 <= i < |taken| ==> t[i] == taken[i];
      forall j, i | 0 <= j < |ps| && 0 <= i < |taken| ensures taken[i].0 != ps[j].0 {
        if j > 0 {
          assert t[i] == taken[i] && ps[j] == rest[j - 1];
          assert t[i].0 != rest[j - 1].0;
        }
      }
      forall i, j | 0 <= i < j < |ps| ensures ps[i].0 != ps[j].0 {
        assert ps[j] == rest[j - 1];
        if i == 0 {
          assert t[|taken|] == first;
          assert t[|taken|].0 != rest[j - 1].0;
        } else {
          assert ps[i] == rest[i - 1];
        }
      }
    }
  }

  // ---------------------------------------------------------------------------
  // Configs and secrets of one environment

  /** The configs of a restored environment, key and value from the document;
      a repeated key violates the (key, environment) constraint. */
  function RestoreConfigs(s: Store, envId: nat, docs: seq<ConfigDoc>, now: nat): (r: Result<Store, BackupError>)
    ensures r.Err? ==> r.error == Integrity
    ensures r.Ok? ==> r.value == s.(configs := r.value.configs, nextId := s.nextId + |docs|)
    decreases |docs|
  {
    if |docs| == 0 then Ok(s)
    else if !ConfigKeyFree(s, envId, docs[0].key) then Err(Integrity)
    else RestoreConfigs(InsertConfig(s, Config(envId, docs[0].key, docs[0].value, now, now)), envId, docs[1..], now)
  }

  function RestoreSecrets(s: Store, envId: nat, docs: seq<SecretDoc>, now: nat): (r: Result<Store, BackupError>)
    ensures r.Err? ==> r.error == Integrity
    ensures r.Ok? ==> r.value == s.(secrets := r.value.secrets, nextId := s.nextId + |docs|)
    decreases |docs|
  {
    if |docs| == 0 then Ok(s)
    else if !SecretKeyFree(s, envId, docs[0].key) then Err(Integrity)
    else RestoreSecrets(InsertSecret(s, Secret(envId, docs[0].key, docs[0].encryptedValue, now, now)), envId, docs[1..], now)
  }

  /** One row inserted under the next id, above every id in use. */
  lemma InsertedAbove<T>(m: map<nat, T>, env: T -> nat, pair: T -> (string, string), next: nat, row: T,
                         before: seq<(string, string)>)
    requires next >= 1 && KeysBelow(m, next)
    requires RowsAre(m, env, pair, env(row), before)
    ensures KeysBelow(m[next := row], next + 1)
    ensures RowsAre(m[next := row], env, pair, env(row), before + [pair(row)])
    ensures Grows(m, m[next := row], env, {env(row)})
  {
    assert next !in m;
    InsertRowsAre(m, env, pair, env(row), before, next, row);
  }

  /** The first config of the document: its key must be free. */
  lemma ConfigKeyStep(s: Store, envId: nat, docs: seq<ConfigDoc>, now: nat, before: seq<(string, string)>)
    requires |docs| > 0
    requires RowsAre(s.configs, ConfigEnv, ConfigPair, envId, before)
    ensures var c := Config(envId, docs[0].key, docs[0].value, now, now);
      KeysNew(before, ConfigPairs(docs)) <==>
        ConfigKeyFree(s, envId, c.key) && KeysNew(before + [ConfigPair(c)], ConfigPairs(docs[1..]))
  {
    var c := Config(envId, docs[0].key, docs[0].value, now, now);
    var first := ConfigPair(c);
    KeyFreeIff(s.configs, ConfigEnv, ConfigPair, envId, before, c.key);
    KeysNewStep(before, first, ConfigPairs(docs[1..]));
    assert ConfigPairs(docs) == [first] + ConfigPairs(docs[1..]);
    assert ConfigKeyFree(s, envId, c.key) <==> KeyFree(s.configs, ConfigEnv, ConfigPair, envId, c.key);
  }

  /** Once inserted, the first config follows `before` among the environment's rows. */
  lemma ConfigRowStep(s: Store, envId: nat, docs: seq<ConfigDoc>, now: nat, before: seq<(string, string)>)
    requires |docs| > 0
    requires s.nextId >= 1 && KeysBelow(s.configs, s.nextId)
    requires RowsAre(s.configs, ConfigEnv, ConfigPair, envId, before)
    ensures var c := Config(envId, docs[0].key, docs[0].value, now, now);
      var s1 := InsertConfig(s, c);
      && before + ConfigPairs(docs) == (before + [ConfigPair(c)]) + ConfigPairs(docs[1..])
      && s1.nextId >= 1 && KeysBelow(s1.configs, s1.nextId)
      && RowsAre(s1.configs, ConfigEnv, ConfigPair, envId, before + [ConfigPair(c)])
      && Grows(s.configs, s1.configs, ConfigEnv, {envId})
  {
    var c := Config(envId, docs[0].key, docs[0].value, now, now);
    assert ConfigPairs(docs) == [ConfigPair(c)] + ConfigPairs(docs[1..]);
    InsertedAbove(s.configs, ConfigEnv, ConfigPair, s.nextId, c, before);
  }

  /** Restoring configs after rows carrying `before` succeeds exactly when the
      document's keys are distinct and new. */
  lemma {:induction false} RestoreConfigsOk(s: Store, envId: nat, docs: seq<ConfigDoc>, now: nat,
                                            before: seq<(string, string)>)
    requires s.nextId >= 1 && KeysBelow(s.configs, s.nextId)
    requires RowsAre(s.configs, ConfigEnv, ConfigPair, envId, before)
    ensures RestoreConfigs(s, envId, docs, now).Ok? <==> KeysNew(before, ConfigPairs(docs))
    decreases |docs|
  {
    if |docs| > 0 {
      var c := Config(envId, docs[0].key, docs[0].value, now, now);
      ConfigKeyStep(s, envId, docs, now, before);
      ConfigRowStep(s, envId, docs, now, before);
      RestoreConfigsOk(InsertConfig(s, c), envId, docs[1..], now, before + [ConfigPair(c)]);
    }
  }

  /** A successful restore leaves the environment's rows carrying `before`
      followed by the document's pairs, and touches no other environment. */
  lemma {:induction false} RestoredConfigs(s: Store, envId: nat, docs: seq<ConfigDoc>, now: nat,
                                           before: seq<(string, string)>)
    requires s.nextId >= 1 && KeysBelow(s.configs, s.nextId)
    requires RowsAre(s.configs, ConfigEnv, ConfigPair, envId, before)
    requires RestoreConfigs(s, envId, docs, now).Ok?
    ensures var r := RestoreConfigs(s, envId, docs, now).value;
      && KeysBelow(r.configs, r.nextId)
      && RowsAre(r.configs, ConfigEnv, ConfigPair, envId, before + ConfigPairs(docs))
      && Grows(s.configs, r.configs, ConfigEnv, {envId})
    decreases |docs|
  {
    if |docs| == 0 {
      assert before + ConfigPairs(docs) == before;
    } else {
      var c := Config(envId, docs[0].key, docs[0].value, now, now);
      var s1 := InsertConfig(s, c);
      ConfigRowStep(s, envId, docs, now, before);
      RestoredConfigs(s1, envId, docs[1..], now, before + [ConfigPair(c)]);
      var r := RestoreConfigs(s1, envId, docs[1..], now).value;
      GrowsTrans(s.configs, s1.configs, r.configs, ConfigEnv, {envId}, {envId}, {envId});
    }
  }

  /** Restored configs keep the store invariant. */
  lemma {:induction false} RestoreConfigsValid(s: Store, envId: nat, docs: seq<ConfigDoc>, now: nat)
    requires Valid(s) && envId in s.environments
    requires RestoreConfigs(s, envId, docs, now).Ok?
    ensures Valid(RestoreConfigs(s, envId, docs, now).value)
    decreases |docs|
  {
    if |docs| > 0 {
      var c := Config(envId, docs[0].key, docs[0].value, now, now);
      InsertConfigValid(s, c);
      RestoreConfigsValid(InsertConfig(s, c), envId, docs[1..], now);
    }
  }

  /** The first secret of the document: its key must be free. */
  lemma SecretKeyStep(s: Store, envId: nat, docs: seq<SecretDoc>, now: nat, before: seq<(string, string)>)
    requires |docs| > 0
    requires RowsAre(s.secrets, SecretEnv, SecretPair, envId, before)
    ensures var c := Secret(envId, docs[0].key, docs[0].encryptedValue, now, now);
      KeysNew(before, SecretPairs(docs)) <==>
        SecretKeyFree(s, envId, c.key) && KeysNew(before + [SecretPair(c)], SecretPairs(docs[1..]))
  {
    var c := Secret(envId, docs[0].key, docs[0].encryptedValue, now, now);
    var first := SecretPair(c);
    KeyFreeIff(s.secrets, SecretEnv, SecretPair, envId, before, c.key);
    KeysNewStep(before, first, SecretPairs(docs[1..]));
    assert SecretPairs(docs) == [first] + SecretPairs(docs[1..]);
    assert SecretKeyFree(s, envId, c.key) <==> KeyFree(s.secrets, SecretEnv, SecretPair, envId, c.key);
  }

  /** Once inserted, the first secret follows `before` among the environment's rows. */
  lemma SecretRowStep(s: Store, envId: nat, docs: seq<SecretDoc>, now: nat, before: seq<(string, string)>)
    requires |docs| > 0
    requires s.nextId >= 1 && KeysBelow(s.secrets, s.nextId)
    requires RowsAre(s.secrets, SecretEnv, SecretPair, envId, before)
    ensures var c := Secret(envId, docs[0].key, docs[0].encryptedValue, now, now);
      var s1 := InsertSecret(s, c);
      && before + SecretPairs(docs) == (before + [SecretPair(c)]) + SecretPairs(docs[1..])
      && s1.nextId >= 1 && KeysBelow(s1.secrets, s1.nextId)
      && RowsAre(s1.secrets, SecretEnv, SecretPair, envId, before + [SecretPair(c)])
      && Grows(s.secrets, s1.secrets, SecretEnv, {envId})
  {
    var c := Secret(envId, docs[0].key, docs[0].encryptedValue, now, now);
    assert SecretPairs(docs) == [SecretPair(c)] + SecretPairs(docs[1..]);
    InsertedAbove(s.secrets, SecretEnv, SecretPair, s.nextId, c, before);
  }

  /** Restoring secrets after rows carrying `before` succeeds exactly when the
      document's keys are distinct and new. */
  lemma {:induction false} RestoreSecretsOk(s: Store, envId: nat, docs: seq<SecretDoc>, now: nat,
                                            before: seq<(string, string)>)
    requires s.nextId >= 1 && KeysBelow(s.secrets, s.nextId)
    requires RowsAre(s.secrets, SecretEnv, SecretPair, envId, before)
    ensures RestoreSecrets(s, envId, docs, now).Ok? <==> KeysNew(before, SecretPairs(docs))
    decreases |docs|
  {
    if |docs| > 0 {
      var c := Secret(envId, docs[0].key, docs[0].encryptedValue, now, now);
      SecretKeyStep(s, envId, docs, now, before);
      SecretRowStep(s, envId, docs, now, before);
      RestoreSecretsOk(InsertSecret(s, c), envId, docs[1..], now, before + [SecretPair(c)]);
    }
  }

  /** A successful restore leaves the environment's rows carrying `before`
      followed by the document's pairs, and touches no other environment. */
  lemma {:induction false} RestoredSecrets(s: Store, envId: nat, docs: seq<SecretDoc>, now: nat,
                                           before: seq<(string, string)>)
    requires s.nextId >= 1 && KeysBelow(s.secrets, s.nextId)
    requires RowsAre(s.secrets, SecretEnv, SecretPair, envId, before)
    requires RestoreSecrets(s, envId, docs, now).Ok?
    ensures var r := RestoreSecrets(s, envId, docs, now).value;
      && KeysBelow(r.secrets, r.nextId)
      && RowsAre(r.secrets, SecretEnv, SecretPair, envId, before + SecretPairs(docs))
      && Grows(s.secrets, r.secrets, SecretEnv, {envId})
    decreases |docs|
  {
    if |docs| == 0 {
      assert before + SecretPairs(docs) == before;
    } else {
      var c := Secret(envId, docs[0].key, docs[0].encryptedValue, now, now);
      var s1 := InsertSecret(s, c);
      SecretRowStep(s, envId, docs, now, before);
      RestoredSecrets(s1, envId, docs[1..], now, before + [SecretPair(c)]);
      var r := RestoreSecrets(s1, envId, docs[1..], now).value;
      GrowsTrans(s.secrets, s1.secrets, r.secrets, SecretEnv, {envId}, {envId}, {envId});
    }
  }

  lemma {:induction false} RestoreSecretsValid(s: Store, envId: nat, docs: seq<SecretDoc>, now: nat)
    requires Valid(s) && envId in s.environments
    requires RestoreSecrets(s, envId, docs, now).Ok?
    ensures Valid(RestoreSecrets(s, envId, docs, now).value)
    decreases |docs|
  {
    if |docs| > 0 {
      var c := Secret(envId, docs[0].key, docs[0].encryptedValue, now, now);
      InsertSecretValid(s, c);
      RestoreSecretsValid(InsertSecret(s, c), envId, docs[1..], now);
    }
  }

  /** A table with no row of the environment lists no pairs for it. */
  lemma NoRows<T>(m: map<nat, T>, env: T -> nat, pair: T -> (string, string), envId: nat)
    requires forall i :: i in m ==> env(m[i]) != envId
    ensures RowsAre(m, env, pair, envId, [])
  {
    assert RowPairs(m, env, pair, envId) == {};
    assert (set p: (string, string) | p in []) == {};
  }

  // ---------------------------------------------------------------------------
  // Environments

  /** One environment of the document: its row, with the key it was exported
      with, then its configs and secrets. A name the project already uses
      violates the (name, project) constraint. */
  function RestoreEnvironment(s: Store, projectId: nat, d: EnvDoc, now: nat): (r: Result<Store, BackupError>)
    ensures r.Err? ==> r.error == Integrity
    ensures r.Ok? ==> r.value == s.(
      environments := s.environments[s.nextId := Environment(d.name, projectId, d.secretKey, now)],
      configs := r.value.configs,
      secrets := r.value.secrets,
      nextId := s.nextId + 1 + |d.configs| + |d.secrets|)
  {
    if !EnvironmentNameFree(s, projectId, d.name) then Err(Integrity)
    else
      var s1 := InsertEnvironment(s, Environment(d.name, projectId, d.secretKey, now));
      match RestoreConfigs(s1, s.nextId, d.configs, now)
      case Err(e) => Err(e)
      case Ok(s2) => RestoreSecrets(s2, s.nextId, d.secrets, now)
  }

  /** Environment `envId` of `s` is the restored form of document `d`: its
      name and key, and exactly the document's configs and secrets. */
  predicate Restored(s: Store, envId: nat, projectId: nat, d: EnvDoc, now: nat) {
    && envId in s.environments
    && s.environments[envId] == Environment(d.name, projectId, d.secretKey, now)
    && RowsAre(s.configs, ConfigEnv, ConfigPair, envId, ConfigPairs(d.configs))
    && RowsAre(s.secrets, SecretEnv, SecretPair, envId, SecretPairs(d.secrets))
  }

  /** What a document needs for its environment to restore: a name free in
      the project, and distinct config and secret keys. */
  predicate EnvDocFits(s: Store, projectId: nat, d: EnvDoc) {
    && EnvironmentNameFree(s, projectId, d.name)
    && KeysNew([], ConfigPairs(d.configs))
    && KeysNew([], SecretPairs(d.secrets))
  }

  /** `r` adds environments of project `projectId` to `s`: the environments
      already there stay, and the new config and secret rows belong to the new
      environments. */
  predicate EnvironmentsAdded(s: Store, r: Store, projectId: nat) {
    && (forall e :: e in s.environments ==> e in r.environments && r.environments[e] == s.environments[e])
    && (forall e :: e in r.environments && e !in s.environments ==> r.environments[e].projectId == projectId)
    && Grows(s.configs, r.configs, ConfigEnv, r.environments.Keys - s.environments.Keys)
    && Grows(s.secrets, r.secrets, SecretEnv, r.environments.Keys - s.environments.Keys)
  }

  lemma EnvironmentsAddedTrans(s: Store, s1: Store, r: Store, projectId: nat)
    requires EnvironmentsAdded(s, s1, projectId) && EnvironmentsAdded(s1, r, projectId)
    ensures EnvironmentsAdded(s, r, projectId)
  {
    var a := s1.environments.Keys - s.environments.Keys;
    var b := r.environments.Keys - s1.environments.Keys;
    var c := r.environments.Keys - s.environments.Keys;
    assert a <= c;
    GrowsTrans(s.configs, s1.configs, r.configs, ConfigEnv, a, b, c);
    GrowsTrans(s.secrets, s1.secrets, r.secrets, SecretEnv, a, b, c);
  }

  /** One environment restores exactly when its document fits. */
  lemma EnvironmentOk(s: Store, projectId: nat, d: EnvDoc, now: nat)
    requires Valid(s) && projectId in s.projects
    ensures RestoreEnvironment(s, projectId, d, now).Ok? <==> EnvDocFits(s, projectId, d)
  {
    var e := s.nextId;
    if EnvironmentNameFree(s, projectId, d.name) {
      var env := Environment(d.name, projectId, d.secretKey, now);
      var s1 := InsertEnvironment(s, env);
      assert KeysBelow(s1.configs, s1.nextId) && KeysBelow(s1.secrets, s1.nextId);
      NoRows(s1.configs, ConfigEnv, ConfigPair, e);
      NoRows(s1.secrets, SecretEnv, SecretPair, e);
      RestoreConfigsOk(s1, e, d.configs, now, []);
      assert [] + ConfigPairs(d.configs) == ConfigPairs(d.configs);
      if RestoreConfigs(s1, e, d.configs, now).Ok? {
        var s2 := RestoreConfigs(s1, e, d.configs, now).value;
        RestoreSecretsOk(s2, e, d.secrets, now, []);
        assert [] + SecretPairs(d.secrets) == SecretPairs(d.secrets);
      }
    }
  }

  /** A restored environment keeps the invariant. */
  lemma RestoredEnvironmentValid(s: Store, projectId: nat, d: EnvDoc, now: nat)
    requires Valid(s) && projectId in s.projects
    requires RestoreEnvironment(s, projectId, d, now).Ok?
    ensures Valid(RestoreEnvironment(s, projectId, d, now).value)
  {
    var env := Environment(d.name, projectId, d.secretKey, now);
    var s1 := InsertEnvironment(s, env);
    InsertEnvironmentValid(s, env);
    RestoreConfigsValid(s1, s.nextId, d.configs, now);
    RestoreSecretsValid(RestoreConfigs(s1, s.nextId, d.configs, now).value, s.nextId, d.secrets, now);
  }

  /** A restored environment is new and holds exactly its document's rows. */
  lemma RestoredEnvironment(s: Store, projectId: nat, d: EnvDoc, now: nat)
    requires s.nextId >= 1 && IdsFresh(s)
    requires ConfigsWellFormed(s.environments, s.configs) && SecretsWellFormed(s.environments, s.secrets)
    requires RestoreEnvironment(s, projectId, d, now).Ok?
    ensures var r := RestoreEnvironment(s, projectId, d, now).value;
      && s.nextId !in s.environments
      && Restored(r, s.nextId, projectId, d, now)
      && EnvironmentsAdded(s, r, projectId)
  {
    var e := s.nextId;
    var r := RestoreEnvironment(s, projectId, d, now).value;
    var s1 := InsertEnvironment(s, Environment(d.name, projectId, d.secretKey, now));
    assert e !in s.environments;
    assert KeysBelow(s1.configs, s1.nextId) && KeysBelow(s1.secrets, s1.nextId);
    NoRows(s1.configs, ConfigEnv, ConfigPair, e);
    NoRows(s1.secrets, SecretEnv, SecretPair, e);
    RestoredConfigs(s1, e, d.configs, now, []);
    RestoredSecrets(RestoreConfigs(s1, e, d.configs, now).value, e, d.secrets, now, []);
    assert [] + ConfigPairs(d.configs) == ConfigPairs(d.configs);
    assert [] + SecretPairs(d.secrets) == SecretPairs(d.secrets);
    assert r.environments.Keys - s.environments.Keys == {e};
  }

  /** The environments of the document, in order. */
  function RestoreEnvironments(s: Store, projectId: nat, docs: seq<EnvDoc>, now: nat): (r: Result<Store, BackupError>)
    ensures r.Err? ==> r.error == Integrity
    ensures r.Ok? ==> r.value == s.(environments := r.value.environments, configs := r.value.configs,
                                    secrets := r.value.secrets, nextId := r.value.nextId)
    decreases |docs|
  {
    if |docs| == 0 then Ok(s)
    else match RestoreEnvironment(s, projectId, docs[0], now)
      case Err(e) => Err(e)
      case Ok(s1) => RestoreEnvironments(s1, projectId, docs[1..], now)
  }

  /** Every document fits, and no two share a name. */
  predicate EnvDocsFit(s: Store, projectId: nat, docs: seq<EnvDoc>) {
    && (forall j :: 0 <= j < |docs| ==> EnvDocFits(s, projectId, docs[j]))
    && (forall i, j :: 0 <= i < j < |docs| ==> docs[i].name != docs[j].name)
  }

  /** After the first document is restored, the rest fit exactly when all did. */
  lemma EnvDocsFitStep(s: Store, s1: Store, projectId: nat, docs: seq<EnvDoc>, e: nat, env: Environment)
    requires |docs| > 0 && env.name == docs[0].name && env.projectId == projectId
    requires s1.environments == s.environments[e := env] && e !in s.environments
    ensures EnvDocsFit(s, projectId, docs) <==> EnvDocFits(s, projectId, docs[0]) && EnvDocsFit(s1, projectId, docs[1..])
  {
    var rest := docs[1..];
    assert forall j :: 0 <= j < |rest| ==> rest[j] == docs[j + 1];
    forall n ensures EnvironmentNameFree(s1, projectId, n) <==> EnvironmentNameFree(s, projectId, n) && n != env.name {
      if EnvironmentNameFree(s, projectId, n) && n != env.name {
        forall f | f in s1.environments && s1.environments[f].projectId == projectId
          ensures s1.environments[f].name != n
        {
          if f != e { assert f in s.environments; }
        }
      }
      if EnvironmentNameFree(s1, projectId, n) {
        assert s1.environments[e] == env;
        forall f | f in s.environments && s.environments[f].projectId == projectId
          ensures s.environments[f].name != n
        {
          assert f in s1.environments && s1.environments[f] == s.environments[f];
        }
      }
    }
    if EnvDocsFit(s, projectId, docs) {
      forall j | 0 <= j < |rest| ensures EnvDocFits(s1, projectId, rest[j]) {
        assert EnvDocFits(s, projectId, docs[j + 1]);
        assert docs[0].name != docs[j + 1].name;
      }
      forall i, j | 0 <= i < j < |rest| ensures rest[i].name != rest[j].name {
        assert docs[i + 1].name != docs[j + 1].name;
      }
    }
    if EnvDocFits(s, projectId, docs[0]) && EnvDocsFit(s1, projectId, rest) {
      forall j | 0 <= j < |docs| ensures EnvDocFits(s, projectId, docs[j]) {
        if j > 0 { assert EnvDocFits(s1, projectId, rest[j - 1]); }
      }
      forall i, j | 0 <= i < j < |docs| ensures docs[i].name != docs[j].name {
        if i == 0 {
          assert EnvDocFits(s1, projectId, rest[j - 1]);
          assert !EnvironmentNameFree(s1, projectId, env.name) by {
            assert s1.environments[e] == env;
          }
        } else {
          assert rest[i - 1].name != rest[j - 1].name;
        }
      }
    }
  }

  /** Restoring the environments succeeds exactly when the documents fit. */
  lemma {:induction false} RestoreEnvironmentsOk(s: Store, projectId: nat, docs: seq<EnvDoc>, now: nat)
    requires Valid(s) && projectId in s.projects
    ensures RestoreEnvironments(s, projectId, docs, now).Ok? <==> EnvDocsFit(s, projectId, docs)
    decreases |docs|
  {
    if |docs| > 0 {
      EnvironmentOk(s, projectId, docs[0], now);
      if RestoreEnvironment(s, projectId, docs[0], now).Ok? {
        RestoredEnvironmentValid(s, projectId, docs[0], now);
        var s1 := RestoreEnvironment(s, projectId, docs[0], now).value;
        var env := Environment(docs[0].name, projectId, docs[0].secretKey, now);
        EnvDocsFitStep(s, s1, projectId, docs, s.nextId, env);
        RestoreEnvironmentsOk(s1, projectId, docs[1..], now);
      }
    }
  }

  /** A later stage that leaves an environment's row alone and adds rows only
      to other environments keeps it restored. */
  lemma RestoredKept(s: Store, r: Store, e: nat, projectId: nat, d: EnvDoc, now: nat, added: set<nat>)
    requires Restored(s, e, projectId, d, now) && e !in added
    requires e in r.environments && r.environments[e] == s.environments[e]
    requires Grows(s.configs, r.configs, ConfigEnv, added) && Grows(s.secrets, r.secrets, SecretEnv, added)
    ensures Restored(r, e, projectId, d, now)
  {
    RowsAreKept(s.configs, r.configs, ConfigEnv, ConfigPair, added, e, ConfigPairs(d.configs));
    RowsAreKept(s.secrets, r.secrets, SecretEnv, SecretPair, added, e, SecretPairs(d.secrets));
  }

  /** Restoring environments keeps the invariant and the environments already
      there, and adds rows only to the new environments. */
  lemma {:induction false} RestoreEnvironmentsGrow(s: Store, projectId: nat, docs: seq<EnvDoc>, now: nat)
    requires Valid(s) && projectId in s.projects
    requires RestoreEnvironments(s, projectId, docs, now).Ok?
    ensures var r := RestoreEnvironments(s, projectId, docs, now).value;
      Valid(r) && EnvironmentsAdded(s, r, projectId)
    decreases |docs|
  {
    if |docs| > 0 {
      RestoredEnvironment(s, projectId, docs[0], now);
      RestoredEnvironmentValid(s, projectId, docs[0], now);
      var s1 := RestoreEnvironment(s, projectId, docs[0], now).value;
      var r := RestoreEnvironments(s1, projectId, docs[1..], now).value;
      RestoreEnvironmentsGrow(s1, projectId, docs[1..], now);
      EnvironmentsAddedTrans(s, s1, r, projectId);
    }
  }

  /** Each document becomes a new environment holding exactly its rows. */
  lemma {:induction false} EnvironmentsFromDocs(s: Store, projectId: nat, docs: seq<EnvDoc>, now: nat)
    requires Valid(s) && projectId in s.projects
    requires RestoreEnvironments(s, projectId, docs, now).Ok?
    ensures var r := RestoreEnvironments(s, projectId, docs, now).value;
      forall j :: 0 <= j < |docs| ==>
        exists e :: e in r.environments && e !in s.environments && Restored(r, e, projectId, docs[j], now)
    decreases |docs|
  {
    var r := RestoreEnvironments(s, projectId, docs, now).value;
    if |docs| > 0 {
      RestoredEnvironment(s, projectId, docs[0], now);
      RestoredEnvironmentValid(s, projectId, docs[0], now);
      var s1 := RestoreEnvironment(s, projectId, docs[0], now).value;
      var e0 := s.nextId;
      var rest := docs[1..];
      EnvironmentsFromDocs(s1, projectId, rest, now);
      RestoreEnvironmentsGrow(s1, projectId, rest, now);
      assert e0 in s1.environments;
      RestoredKept(s1, r, e0, projectId, docs[0], now, r.environments.Keys - s1.environments.Keys);
      forall j | 0 <= j < |docs|
        ensures exists e :: e in r.environments && e !in s.environments && Restored(r, e, projectId, docs[j], now)
      {
        if j == 0 {
          assert Restored(r, e0, projectId, docs[0], now);
        } else {
          var d := rest[j - 1];
          assert docs[j] == d;
          assert exists e :: e in r.environments && e !in s1.environments && Restored(r, e, projectId, d, now);
          var e :| e in r.environments && e !in s1.environments && Restored(r, e, projectId, d, now);
          assert e !in s.environments;
        }
      }
    }
  }

  /** Every new environment comes from a document. */
  lemma {:induction false} DocsOfEnvironments(s: Store, projectId: nat, docs: seq<EnvDoc>, now: nat)
    requires Valid(s) && projectId in s.projects
    requires RestoreEnvironments(s, projectId, docs, now).Ok?
    ensures var r := RestoreEnvironments(s, projectId, docs, now).value;
      forall e :: e in r.environments && e !in s.environments ==> FromSomeDoc(r, e, projectId, docs, now)
    decreases |docs|
  {
    var r := RestoreEnvironments(s, projectId, docs, now).value;
    if |docs| > 0 {
      RestoredEnvironment(s, projectId, docs[0], now);
      RestoredEnvironmentValid(s, projectId, docs[0], now);
      var s1 := RestoreEnvironment(s, projectId, docs[0], now).value;
      var e0 := s.nextId;
      var rest := docs[1..];
      assert r == RestoreEnvironments(s1, projectId, rest, now).value;
      DocsOfEnvironments(s1, projectId, rest, now);
      RestoreEnvironmentsGrow(s1, projectId, rest, now);
      RestoredKept(s1, r, e0, projectId, docs[0], now, r.environments.Keys - s1.environments.Keys);
      forall e | e in r.environments && e !in s.environments
        ensures FromSomeDoc(r, e, projectId, docs, now)
      {
        if e == e0 {
          assert Restored(r, e0, projectId, docs[0], now);
        } else {
          FromLaterDoc(r, e, projectId, docs, now);
        }
      }
    }
  }

  /** An environment restored from one of the later documents is restored
      from one of all of them. */
  lemma FromLaterDoc(r: Store, e: nat, projectId: nat, docs: seq<EnvDoc>, now: nat)
    requires |docs| > 0 && FromSomeDoc(r, e, projectId, docs[1..], now)
    ensures FromSomeDoc(r, e, projectId, docs, now)
  {
    var j :| 0 <= j < |docs| - 1 && Restored(r, e, projectId, docs[1..][j], now);
    assert docs[1..][j] == docs[j + 1];
  }

  // ---------------------------------------------------------------------------
  // Members

  /** The user a member document names: the first, by id, with its username
      or its email. */
  function UserMatch(s: Store, d: UserDoc): (u: Option<nat>)
    ensures u.Some? ==> u.value in s.users && (s.users[u.value].username == d.username || s.users[u.value].email == d.email)
    ensures u.None? ==> forall v :: v in s.users && v < s.nextId ==>
      s.users[v].username != d.username && s.users[v].email != d.email
  {
    First(s.users, s.nextId, (x: User) => x.username == d.username || x.email == d.email)
  }

  /** With unique usernames and emails, a document carrying a user's own
      username and email names that user. */
  lemma UserMatchOwn(s: Store, u: nat, d: UserDoc)
    requires Valid(s) && u in s.users
    requires d.username == s.users[u].username && d.email == s.users[u].email
    ensures UserMatch(s, d) == Some(u)
  {
    FirstUnique(s.users, s.nextId, (x: User) => x.username == d.username || x.email == d.email, u);
  }

  /** The member documents, in order, added to the memberships `members`: one
      naming no user is skipped; one naming a user already in the project
      violates the (user, project) constraint. The users table does not change
      on the way, so every document is matched against `s`. */
  function AddMembers(s: Store, members: map<(nat, nat), Membership>, projectId: nat, docs: seq<UserDoc>, now: nat)
    : (r: Result<map<(nat, nat), Membership>, BackupError>)
    ensures r.Err? ==> r.error == Integrity
    decreases |docs|
  {
    if |docs| == 0 then Ok(members)
    else match UserMatch(s, docs[0])
      case None => AddMembers(s, members, projectId, docs[1..], now)
      case Some(u) =>
        if (u, projectId) in members then Err(Integrity)
        else AddMembers(s, members[(u, projectId) := Membership(docs[0].role, now)], projectId, docs[1..], now)
  }

  /** The members stage of a restore: the documents' members join the project. */
  function RestoreMembers(s: Store, projectId: nat, docs: seq<UserDoc>, now: nat): (r: Result<Store, BackupError>)
    ensures r.Err? ==> r.error == Integrity
    ensures r.Ok? ==> r.value == s.(members := r.value.members)
  {
    match AddMembers(s, s.members, projectId, docs, now)
    case Err(e) => Err(e)
    case Ok(m) => Ok(s.(members := m))
  }

  /** No matched user is already among `members`, and no two documents match
      the same user. */
  predicate MembersFit(s: Store, members: map<(nat, nat), Membership>, projectId: nat, docs: seq<UserDoc>) {
    && (forall j :: 0 <= j < |docs| && UserMatch(s, docs[j]).Some? ==> (UserMatch(s, docs[j]).value, projectId) !in members)
    && (forall i, j :: 0 <= i < j < |docs| && UserMatch(s, docs[i]).Some? ==> UserMatch(s, docs[i]) != UserMatch(s, docs[j]))
  }

  /** A first document naming no user leaves the fit to the rest. */
  lemma FitSkip(s: Store, members: map<(nat, nat), Membership>, projectId: nat, docs: seq<UserDoc>)
    requires |docs| > 0 && UserMatch(s, docs[0]).None?
    ensures MembersFit(s, members, projectId, docs) <==> MembersFit(s, members, projectId, docs[1..])
  {
    var rest := docs[1..];
    assert forall j :: 0 <= j < |rest| ==> rest[j] == docs[j + 1];
    if MembersFit(s, members, projectId, rest) {
      forall i, j | 0 <= i < j < |docs| && UserMatch(s, docs[i]).Some?
        ensures UserMatch(s, docs[i]) != UserMatch(s, docs[j])
      {
        assert UserMatch(s, rest[i - 1]) != UserMatch(s, rest[j - 1]);
      }
    }
  }

  /** A first document naming a user not yet a member fits when the rest fit
      the memberships it extends. */
  lemma FitAdd(s: Store, members: map<(nat, nat), Membership>, projectId: nat, docs: seq<UserDoc>, now: nat)
    requires |docs| > 0 && UserMatch(s, docs[0]).Some?
    requires (UserMatch(s, docs[0]).value, projectId) !in members
    ensures var m1 := members[(UserMatch(s, docs[0]).value, projectId) := Membership(docs[0].role, now)];
      MembersFit(s, members, projectId, docs) <==> MembersFit(s, m1, projectId, docs[1..])
  {
    var u := UserMatch(s, docs[0]).value;
    var m1 := members[(u, projectId) := Membership(docs[0].role, now)];
    var rest := docs[1..];
    assert forall j :: 0 <= j < |rest| ==> rest[j] == docs[j + 1];
    if MembersFit(s, m1, projectId, rest) {
      forall i, j | 0 <= i < j < |docs| && UserMatch(s, docs[i]).Some?
        ensures UserMatch(s, docs[i]) != UserMatch(s, docs[j])
      {
        if i == 0 {
          assert UserMatch(s, rest[j - 1]).Some? ==> (UserMatch(s, rest[j - 1]).value, projectId) !in m1;
        } else {
          assert UserMatch(s, rest[i - 1]) != UserMatch(s, rest[j - 1]);
        }
      }
    }
    if MembersFit(s, members, projectId, docs) {
      forall j | 0 <= j < |rest| && UserMatch(s, rest[j]).Some?
        ensures (UserMatch(s, rest[j]).value, projectId) !in m1
      {
        assert UserMatch(s, docs[0]) != UserMatch(s, docs[j + 1]);
      }
      forall i, j | 0 <= i < j < |rest| && UserMatch(s, rest[i]).Some?
        ensures UserMatch(s, rest[i]) != UserMatch(s, rest[j])
      {
        assert UserMatch(s, docs[i + 1]) != UserMatch(s, docs[j + 1]);
      }
    }
  }

  /** Adding members succeeds exactly when they fit. */
  lemma {:induction false} AddMembersOk(s: Store, members: map<(nat, nat), Membership>, projectId: nat,
                                        docs: seq<UserDoc>, now: nat)
    ensures AddMembers(s, members, projectId, docs, now).Ok? <==> MembersFit(s, members, projectId, docs)
    decreases |docs|
  {
    if |docs| > 0 {
      match UserMatch(s, docs[0])
      case None =>
        FitSkip(s, members, projectId, docs);
        AddMembersOk(s, members, projectId, docs[1..], now);
      case Some(u) =>
        if (u, projectId) !in members {
          FitAdd(s, members, projectId, docs, now);
          AddMembersOk(s, members[(u, projectId) := Membership(docs[0].role, now)], projectId, docs[1..], now);
        }
    }
  }

  /** The memberships `after` are `before` plus, for each document matching a
      user, that user in project `projectId` with the document's role, and
      nothing else. */
  predicate MembersFromDocs(s: Store, before: map<(nat, nat), Membership>, after: map<(nat, nat), Membership>,
                            projectId: nat, docs: seq<UserDoc>, now: nat) {
    && (forall k :: k in before ==> k in after && after[k] == before[k])
    && (forall j :: 0 <= j < |docs| && UserMatch(s, docs[j]).Some? ==>
          (UserMatch(s, docs[j]).value, projectId) in after
          && after[(UserMatch(s, docs[j]).value, projectId)] == Membership(docs[j].role, now))
    && (forall k :: k in after && k !in before ==>
          k.1 == projectId && exists j :: 0 <= j < |docs| && UserMatch(s, docs[j]) == Some(k.0))
  }

  /** A first document naming no user adds nothing. */
  lemma FromDocsSkip(s: Store, before: map<(nat, nat), Membership>, after: map<(nat, nat), Membership>,
                     projectId: nat, docs: seq<UserDoc>, now: nat)
    requires |docs| > 0 && UserMatch(s, docs[0]).None?
    requires MembersFromDocs(s, before, after, projectId, docs[1..], now)
    ensures MembersFromDocs(s, before, after, projectId, docs, now)
  {
    var rest := docs[1..];
    forall j | 0 <= j < |docs| && UserMatch(s, docs[j]).Some?
      ensures (UserMatch(s, docs[j]).value, projectId) in after
      ensures after[(UserMatch(s, docs[j]).value, projectId)] == Membership(docs[j].role, now)
    {
      assert docs[j] == rest[j - 1];
    }
    forall k | k in after && k !in before
      ensures k.1 == projectId && exists j :: 0 <= j < |docs| && UserMatch(s, docs[j]) == Some(k.0)
    {
      var j :| 0 <= j < |rest| && UserMatch(s, rest[j]) == Some(k.0);
      assert docs[j + 1] == rest[j];
    }
  }

  /** A first document naming a new member adds that member, with its role. */
  lemma FromDocsAdd(s: Store, before: map<(nat, nat), Membership>, after: map<(nat, nat), Membership>,
                    projectId: nat, docs: seq<UserDoc>, now: nat)
    requires |docs| > 0 && UserMatch(s, docs[0]).Some?
    requires (UserMatch(s, docs[0]).value, projectId) !in before
    requires MembersFromDocs(s, before[(UserMatch(s, docs[0]).value, projectId) := Membership(docs[0].role, now)],
                             after, projectId, docs[1..], now)
    requires MembersFit(s, before, projectId, docs)
    ensures MembersFromDocs(s, before, after, projectId, docs, now)
  {
    var u := UserMatch(s, docs[0]).value;
    var m1 := before[(u, projectId) := Membership(docs[0].role, now)];
    var rest := docs[1..];
    forall j | 0 <= j < |docs| && UserMatch(s, docs[j]).Some?
      ensures (UserMatch(s, docs[j]).value, projectId) in after
      ensures after[(UserMatch(s, docs[j]).value, projectId)] == Membership(docs[j].role, now)
    {
      if j > 0 {
        assert docs[j] == rest[j - 1];
      }
    }
    forall k | k in after && k !in before
      ensures k.1 == projectId && exists j :: 0 <= j < |docs| && UserMatch(s, docs[j]) == Some(k.0)
    {
      if k != (u, projectId) {
        var j :| 0 <= j < |rest| && UserMatch(s, rest[j]) == Some(k.0);
        assert docs[j + 1] == rest[j];
      }
    }
  }

  /** After members are added, each matched document gives its user the
      document's role, the memberships already there stay, and every new
      membership is in the project and comes from a document. */
  lemma {:induction false} AddedMembers(s: Store, members: map<(nat, nat), Membership>, projectId: nat,
                                        docs: seq<UserDoc>, now: nat)
    requires AddMembers(s, members, projectId, docs, now).Ok?
    ensures MembersFromDocs(s, members, AddMembers(s, members, projectId, docs, now).value, projectId, docs, now)
    decreases |docs|
  {
    var r := AddMembers(s, members, projectId, docs, now).value;
    if |docs| > 0 {
      AddMembersOk(s, members, projectId, docs, now);
      match UserMatch(s, docs[0])
      case None =>
        AddedMembers(s, members, projectId, docs[1..], now);
        FromDocsSkip(s, members, r, projectId, docs, now);
      case Some(u) =>
        AddedMembers(s, members[(u, projectId) := Membership(docs[0].role, now)], projectId, docs[1..], now);
        FromDocsAdd(s, members, r, projectId, docs, now);
    }
  }

  // ---------------------------------------------------------------------------
  // Whitelist entries

  /** A restored entry is project-wide and not marked as a host name, whatever
      the original was. */
  function EntryOf(projectId: nat, d: IpDoc, now: nat): AllowedIp {
    AllowedIp(d.ipAddress, projectId, None, d.description, false, now)
  }

  /** The entry documents, in order; the entry table has no unique constraint. */
  function RestoreIps(s: Store, projectId: nat, docs: seq<IpDoc>, now: nat): (r: Store)
    ensures r == s.(allowedIps := r.allowedIps, nextId := s.nextId + |docs|)
    decreases |docs|
  {
    if |docs| == 0 then s
    else RestoreIps(InsertAllowedIp(s, EntryOf(projectId, docs[0], now)), projectId, docs[1..], now)
  }

  /** Document `k` becomes the entry with id `s.nextId + k`. */
  lemma {:induction false} RestoredIpAt(s: Store, projectId: nat, docs: seq<IpDoc>, now: nat, k: nat)
    requires k < |docs|
    ensures var r := RestoreIps(s, projectId, docs, now);
      s.nextId + k in r.allowedIps && r.allowedIps[s.nextId + k] == EntryOf(projectId, docs[k], now)
    decreases |docs|
  {
    var s1 := InsertAllowedIp(s, EntryOf(projectId, docs[0], now));
    if k == 0 {
      RestoredIps(s1, projectId, docs[1..], now);
      assert s.nextId in s1.allowedIps;
    } else {
      RestoredIpAt(s1, projectId, docs[1..], now, k - 1);
      assert docs[k] == docs[1..][k - 1];
      assert s.nextId + k == s1.nextId + (k - 1);
    }
  }

  /** The entries already there stay, and every new entry has an id the
      documents were given. */
  lemma {:induction false} RestoredIps(s: Store, projectId: nat, docs: seq<IpDoc>, now: nat)
    ensures var r := RestoreIps(s, projectId, docs, now);
      && (forall i :: i in s.allowedIps && i < s.nextId ==> i in r.allowedIps && r.allowedIps[i] == s.allowedIps[i])
      && (forall i :: i in r.allowedIps && i !in s.allowedIps ==> s.nextId <= i < s.nextId + |docs|)
    decreases |docs|
  {
    if |docs| > 0 {
      var s1 := InsertAllowedIp(s, EntryOf(projectId, docs[0], now));
      RestoredIps(s1, projectId, docs[1..], now);
      var r := RestoreIps(s, projectId, docs, now);
      assert r == RestoreIps(s1, projectId, docs[1..], now);
      forall i | i in s.allowedIps && i < s.nextId ensures i in r.allowedIps && r.allowedIps[i] == s.allowedIps[i] {
        assert i in s1.allowedIps && s1.allowedIps[i] == s.allowedIps[i];
      }
      forall i | i in r.allowedIps && i !in s.allowedIps ensures s.nextId <= i < s.nextId + |docs| {
        if i != s.nextId {
          assert i !in s1.allowedIps;
        }
      }
    }
  }

  lemma {:induction false} RestoreIpsValid(s: Store, projectId: nat, docs: seq<IpDoc>, now: nat)
    requires Valid(s)
    ensures Valid(RestoreIps(s, projectId, docs, now))
    decreases |docs|
  {
    if |docs| > 0 {
      InsertAllowedIpValid(s, EntryOf(projectId, docs[0], now));
      RestoreIpsValid(InsertAllowedIp(s, EntryOf(projectId, docs[0], now)), projectId, docs[1..], now);
    }
  }

  // ---------------------------------------------------------------------------
  // The whole restore

  /** The name of the new project: the one asked for, unless empty. */
  function RestoredName(newName: Option<string>, d: ProjectDoc): (name: string)
    ensures newName.Some? && newName.value != "" ==> name == newName.value
    ensures newName.None? || newName.value == "" ==> name == d.name
  {
    if newName.Some? && newName.value != "" then newName.value else d.name
  }

  /** The members stage, when asked for and when the document has members. */
  function RestoreUsers(s: Store, projectId: nat, doc: Backup, restoreUsers: bool, now: nat): (r: Result<Store, BackupError>)
    ensures !restoreUsers || doc.users.None? ==> r == Ok(s)
    ensures r.Ok? ==> r.value == s.(members := r.value.members)
  {
    if restoreUsers && doc.users.Some? then RestoreMembers(s, projectId, doc.users.value, now) else Ok(s)
  }

  /** `restore_project_backup`: on success, the new store and the new project's id. */
  function Restore(s: Store, doc: Backup, newName: Option<string>, restoreUsers: bool, now: nat)
    : (r: Result<(Store, nat), BackupError>)
    ensures doc.version.None? || doc.project.None? ==> r == Err(InvalidFormat)
    ensures doc.version.Some? && doc.project.Some? && !ProjectNameFree(s, RestoredName(newName, doc.project.value)) ==>
      r == Err(ProjectExists(RestoredName(newName, doc.project.value)))
    ensures r.Err? ==> r.error in {InvalidFormat, Integrity} || r.error.ProjectExists?
    ensures r.Ok? ==>
      && doc.version.Some? && doc.project.Some?
      && r.value.1 == s.nextId
      && r.value.0.projects == s.projects[s.nextId := Project(RestoredName(newName, doc.project.value),
                                                             doc.project.value.description, now)]
      && r.value.0.users == s.users
      && r.value.0.tokens == s.tokens
  {
    if doc.version.None? || doc.project.None? then Err(InvalidFormat)
    else
      var name := RestoredName(newName, doc.project.value);
      if !ProjectNameFree(s, name) then Err(ProjectExists(name))
      else
        var projectId := s.nextId;
        var s1 := InsertProject(s, Project(name, doc.project.value.description, now));
        match RestoreEnvironments(s1, projectId, doc.environments, now)
        case Err(e) => Err(e)
        case Ok(s2) =>
          match RestoreUsers(s2, projectId, doc, restoreUsers, now)
          case Err(e) => Err(e)
          case Ok(s3) => Ok((RestoreIps(s3, projectId, doc.allowedIps, now), projectId))
  }

  // ---------------------------------------------------------------------------
  // When a restore succeeds, and what it builds

  /** The documents a brand-new project can take: distinct environment names,
      and distinct config and secret keys within each environment. */
  predicate EnvDocsSound(docs: seq<EnvDoc>) {
    && (forall j :: 0 <= j < |docs| ==>
          KeysNew([], ConfigPairs(docs[j].configs)) && KeysNew([], SecretPairs(docs[j].secrets)))
    && (forall i, j :: 0 <= i < j < |docs| ==> docs[i].name != docs[j].name)
  }

  /** In a project with no environments yet, documents fit exactly when they
      are sound. */
  lemma EnvDocsFitNew(s: Store, projectId: nat, docs: seq<EnvDoc>)
    requires forall e :: e in s.environments ==> s.environments[e].projectId != projectId
    ensures EnvDocsFit(s, projectId, docs) <==> EnvDocsSound(docs)
  {
    assert forall n :: EnvironmentNameFree(s, projectId, n);
  }

  /** Adding rows of other tables, or raising the id counter, changes no
      user's match. */
  lemma UserMatchStable(s: Store, s': Store, d: UserDoc)
    requires s'.users == s.users && s.nextId >= 1 && KeysBelow(s.users, s.nextId) && s.nextId <= s'.nextId
    ensures UserMatch(s', d) == UserMatch(s, d)
  {
    var keep := (x: User) => x.username == d.username || x.email == d.email;
    var a := First(s.users, s.nextId, keep);
    var b := First(s'.users, s'.nextId, keep);
    if b.Some? {
      assert b.value < s.nextId;
    }
    if a.Some? {
      assert b.Some?;
    }
  }

  /** Members fit alike in two stores with the same users and memberships. */
  lemma MembersFitStable(s: Store, s': Store, projectId: nat, docs: seq<UserDoc>)
    requires s'.users == s.users && s'.members == s.members
    requires s.nextId >= 1 && KeysBelow(s.users, s.nextId) && s.nextId <= s'.nextId
    ensures MembersFit(s', s'.members, projectId, docs) <==> MembersFit(s, s.members, projectId, docs)
  {
    forall d ensures UserMatch(s', d) == UserMatch(s, d) {
      UserMatchStable(s, s', d);
    }
  }

  /** Members come from the documents alike in two stores with the same users. */
  lemma FromDocsStable(s: Store, s': Store, before: map<(nat, nat), Membership>, after: map<(nat, nat), Membership>,
                       projectId: nat, docs: seq<UserDoc>, now: nat)
    requires s'.users == s.users
    requires s.nextId >= 1 && KeysBelow(s.users, s.nextId) && s.nextId <= s'.nextId
    requires MembersFromDocs(s', before, after, projectId, docs, now)
    ensures MembersFromDocs(s, before, after, projectId, docs, now)
  {
    forall d ensures UserMatch(s', d) == UserMatch(s, d) {
      UserMatchStable(s, s', d);
    }
  }

  /** Everything a restore needs: a well-formed document, a free project name,
      sound environments, and, when members are restored, members that fit
      the new project. */
  predicate Restorable(s: Store, doc: Backup, newName: Option<string>, restoreUsers: bool) {
    && doc.version.Some? && doc.project.Some?
    && ProjectNameFree(s, RestoredName(newName, doc.project.value))
    && EnvDocsSound(doc.environments)
    && (restoreUsers && doc.users.Some? ==> MembersFit(s, s.members, s.nextId, doc.users.value))
  }

  /** The new project row keeps the invariant and has no environments yet. */
  lemma NewProject(s: Store, p: Project)
    requires Valid(s) && ProjectNameFree(s, p.name)
    ensures Valid(InsertProject(s, p)) && s.nextId in InsertProject(s, p).projects
    ensures forall e :: e in s.environments ==> s.environments[e].projectId != s.nextId
  {
    InsertProjectValid(s, p);
  }

  /** Past the format and name checks, a restore succeeds exactly when its
      environments and then its members do. */
  lemma RestoreOkStages(s: Store, doc: Backup, newName: Option<string>, restoreUsers: bool, now: nat)
    requires doc.version.Some? && doc.project.Some? && ProjectNameFree(s, ProjectOf(doc, newName, now).name)
    ensures var s1 := InsertProject(s, ProjectOf(doc, newName, now));
      var envs := RestoreEnvironments(s1, s.nextId, doc.environments, now);
      Restore(s, doc, newName, restoreUsers, now).Ok? <==>
        envs.Ok? && RestoreUsers(envs.value, s.nextId, doc, restoreUsers, now).Ok?
  {
  }

  /** A restore succeeds exactly when the document is restorable. */
  lemma RestoreOk(s: Store, doc: Backup, newName: Option<string>, restoreUsers: bool, now: nat)
    requires Valid(s)
    ensures Restore(s, doc, newName, restoreUsers, now).Ok? <==> Restorable(s, doc, newName, restoreUsers)
  {
    if doc.version.Some? && doc.project.Some? && ProjectNameFree(s, RestoredName(newName, doc.project.value)) {
      var q := s.nextId;
      var p := ProjectOf(doc, newName, now);
      var s1 := InsertProject(s, p);
      RestoreOkStages(s, doc, newName, restoreUsers, now);
      NewProject(s, p);
      RestoreEnvironmentsOk(s1, q, doc.environments, now);
      EnvDocsFitNew(s1, q, doc.environments);
      if RestoreEnvironments(s1, q, doc.environments, now).Ok? {
        var s2 := RestoreEnvironments(s1, q, doc.environments, now).value;
        RestoreEnvironmentsGrow(s1, q, doc.environments, now);
        if restoreUsers && doc.users.Some? {
          AddMembersOk(s2, s2.members, q, doc.users.value, now);
          MembersFitStable(s, s2, q, doc.users.value);
        }
      }
    }
  }

  /** A restore keeps the invariant. */
  lemma RestoreValid(s: Store, doc: Backup, newName: Option<string>, restoreUsers: bool, now: nat)
    requires Valid(s) && Restore(s, doc, newName, restoreUsers, now).Ok?
    ensures Valid(Restore(s, doc, newName, restoreUsers, now).value.0)
  {
    var q := s.nextId;
    var p := Project(RestoredName(newName, doc.project.value), doc.project.value.description, now);
    var s1 := InsertProject(s, p);
    NewProject(s, p);
    RestoreEnvironmentsGrow(s1, q, doc.environments, now);
    var s2 := RestoreEnvironments(s1, q, doc.environments, now).value;
    var s3 := RestoreUsers(s2, q, doc, restoreUsers, now).value;
    MembersFree(s2, s3.members);
    assert s3 == s2.(members := s3.members);
    RestoreIpsValid(s3, q, doc.allowedIps, now);
  }

  /** In a project that had no environments, the project's environments after
      a restore are exactly the new ones. */
  lemma NewProjectEnvironments(s: Store, projectId: nat, docs: seq<EnvDoc>, now: nat)
    requires Valid(s) && projectId in s.projects
    requires forall e :: e in s.environments ==> s.environments[e].projectId != projectId
    requires RestoreEnvironments(s, projectId, docs, now).Ok?
    ensures var r := RestoreEnvironments(s, projectId, docs, now).value;
      forall e :: EnvironmentOf(r, e, projectId) <==> e in r.environments && e !in s.environments
  {
    RestoreEnvironmentsGrow(s, projectId, docs, now);
  }

  /** Some environment of the project is the restored form of `d`. */
  ghost predicate HasEnvironmentFor(s: Store, projectId: nat, d: EnvDoc, now: nat) {
    exists e :: EnvironmentOf(s, e, projectId) && Restored(s, e, projectId, d, now)
  }

  /** Environment `e` is the restored form of one of the documents. */
  predicate FromSomeDoc(s: Store, e: nat, projectId: nat, docs: seq<EnvDoc>, now: nat) {
    exists j :: 0 <= j < |docs| && Restored(s, e, projectId, docs[j], now)
  }

  /** The project's environments are exactly the documents' environments,
      each with exactly its rows. */
  ghost predicate EnvironmentsMatch(s: Store, projectId: nat, docs: seq<EnvDoc>, now: nat) {
    && (forall j :: 0 <= j < |docs| ==> HasEnvironmentFor(s, projectId, docs[j], now))
    && (forall e :: EnvironmentOf(s, e, projectId) ==> FromSomeDoc(s, e, projectId, docs, now))
  }

  /** Restoring environments into a project that has none yet makes its
      environments match the documents. */
  lemma EnvironmentsOfNewProject(s: Store, projectId: nat, docs: seq<EnvDoc>, now: nat)
    requires Valid(s) && projectId in s.projects
    requires forall e :: e in s.environments ==> s.environments[e].projectId != projectId
    requires RestoreEnvironments(s, projectId, docs, now).Ok?
    ensures EnvironmentsMatch(RestoreEnvironments(s, projectId, docs, now).value, projectId, docs, now)
  {
    var r := RestoreEnvironments(s, projectId, docs, now).value;
    NewProjectEnvironments(s, projectId, docs, now);
    EnvironmentsFromDocs(s, projectId, docs, now);
    DocsOfEnvironments(s, projectId, docs, now);
    forall j | 0 <= j < |docs| ensures HasEnvironmentFor(r, projectId, docs[j], now) {
      var d := docs[j];
      assert exists e :: e in r.environments && e !in s.environments && Restored(r, e, projectId, d, now);
    }
    forall e | EnvironmentOf(r, e, projectId) ensures FromSomeDoc(r, e, projectId, docs, now) {
      assert e in r.environments && e !in s.environments;
    }
  }

  /** Whether an environment is restored depends on the environment, config
      and secret tables alone. */
  lemma RestoredFrame(a: Store, b: Store, e: nat, projectId: nat, d: EnvDoc, now: nat)
    requires a.environments == b.environments && a.configs == b.configs && a.secrets == b.secrets
    requires Restored(a, e, projectId, d, now)
    ensures Restored(b, e, projectId, d, now) && EnvironmentOf(b, e, projectId)
  {
  }

  /** Whether environments match depends on the environment, config and
      secret tables alone. */
  lemma MatchFrame(a: Store, b: Store, projectId: nat, docs: seq<EnvDoc>, now: nat)
    requires a.environments == b.environments && a.configs == b.configs && a.secrets == b.secrets
    requires EnvironmentsMatch(a, projectId, docs, now)
    ensures EnvironmentsMatch(b, projectId, docs, now)
  {
    forall j | 0 <= j < |docs| ensures HasEnvironmentFor(b, projectId, docs[j], now) {
      var d := docs[j];
      assert HasEnvironmentFor(a, projectId, d, now);
      var e :| EnvironmentOf(a, e, projectId) && Restored(a, e, projectId, d, now);
      RestoredFrame(a, b, e, projectId, d, now);
    }
    forall e | EnvironmentOf(b, e, projectId) ensures FromSomeDoc(b, e, projectId, docs, now) {
      assert FromSomeDoc(a, e, projectId, docs, now);
      var j :| 0 <= j < |docs| && Restored(a, e, projectId, docs[j], now);
      RestoredFrame(a, b, e, projectId, docs[j], now);
    }
  }

  /** The row of the new project. */
  function ProjectOf(doc: Backup, newName: Option<string>, now: nat): Project
    requires doc.project.Some?
  {
    Project(RestoredName(newName, doc.project.value), doc.project.value.description, now)
  }

  /** A successful restore, stage by stage: the project row, then the
      environments, whose tables the later stages leave alone. */
  lemma RestoreStages(s: Store, doc: Backup, newName: Option<string>, restoreUsers: bool, now: nat)
    requires Restore(s, doc, newName, restoreUsers, now).Ok?
    ensures doc.project.Some? && ProjectNameFree(s, ProjectOf(doc, newName, now).name)
    ensures RestoreEnvironments(InsertProject(s, ProjectOf(doc, newName, now)), s.nextId, doc.environments, now).Ok?
    ensures var s2 := RestoreEnvironments(InsertProject(s, ProjectOf(doc, newName, now)), s.nextId, doc.environments, now).value;
      var (r, q) := Restore(s, doc, newName, restoreUsers, now).value;
      && q == s.nextId
      && r.environments == s2.environments && r.configs == s2.configs && r.secrets == s2.secrets
  {
  }

  /** The environments of the restored project match the documents. */
  lemma RestoredProjectEnvironments(s: Store, doc: Backup, newName: Option<string>, restoreUsers: bool, now: nat)
    requires Valid(s) && Restore(s, doc, newName, restoreUsers, now).Ok?
    ensures var (r, q) := Restore(s, doc, newName, restoreUsers, now).value;
      EnvironmentsMatch(r, q, doc.environments, now)
  {
    RestoreStages(s, doc, newName, restoreUsers, now);
    var p := ProjectOf(doc, newName, now);
    NewProject(s, p);
    EnvironmentsOfNewProject(InsertProject(s, p), s.nextId, doc.environments, now);
    MatchFrame(RestoreEnvironments(InsertProject(s, p), s.nextId, doc.environments, now).value,
               Restore(s, doc, newName, restoreUsers, now).value.0, s.nextId, doc.environments, now);
  }

  /** `r` keeps the environments, configs and secrets of `s`, and its new
      config and secret rows belong to environments of project `q`. */
  predicate KeepsEnvironments(s: Store, r: Store, q: nat) {
    && (forall e :: e in s.environments ==> e in r.environments && r.environments[e] == s.environments[e])
    && (forall i :: i in s.configs ==> i in r.configs && r.configs[i] == s.configs[i])
    && (forall i :: i in r.configs && i !in s.configs ==> EnvironmentOf(r, r.configs[i].envId, q))
    && (forall i :: i in s.secrets ==> i in r.secrets && r.secrets[i] == s.secrets[i])
    && (forall i :: i in r.secrets && i !in s.secrets ==> EnvironmentOf(r, r.secrets[i].envId, q))
  }

  /** Environments added to a project that had none keep everything else. */
  lemma AddedToNewProject(s: Store, s1: Store, s2: Store, r: Store, q: nat)
    requires s1.environments == s.environments && s1.configs == s.configs && s1.secrets == s.secrets
    requires forall e :: e in s.environments ==> s.environments[e].projectId != q
    requires EnvironmentsAdded(s1, s2, q)
    requires r.environments == s2.environments && r.configs == s2.configs && r.secrets == s2.secrets
    ensures KeepsEnvironments(s, r, q)
  {
  }

  /** Environments already there stay, with their configs and secrets; the
      new config and secret rows belong to environments of the new project. */
  lemma RestoreKeepsEnvironments(s: Store, doc: Backup, newName: Option<string>, restoreUsers: bool, now: nat)
    requires Valid(s) && Restore(s, doc, newName, restoreUsers, now).Ok?
    ensures var (r, q) := Restore(s, doc, newName, restoreUsers, now).value;
      KeepsEnvironments(s, r, q)
  {
    RestoreStages(s, doc, newName, restoreUsers, now);
    var p := ProjectOf(doc, newName, now);
    var s1 := InsertProject(s, p);
    NewProject(s, p);
    RestoreEnvironmentsGrow(s1, s.nextId, doc.environments, now);
    AddedToNewProject(s, s1, RestoreEnvironments(s1, s.nextId, doc.environments, now).value,
                      Restore(s, doc, newName, restoreUsers, now).value.0, s.nextId);
  }

  /** Restoring members gives each user a document matches the document's
      role in the new project; other memberships stay, and no other
      membership appears. Without members to restore, memberships are
      unchanged. */
  lemma RestoredProjectMembers(s: Store, doc: Backup, newName: Option<string>, restoreUsers: bool, now: nat)
    requires Valid(s) && Restore(s, doc, newName, restoreUsers, now).Ok?
    ensures var (r, q) := Restore(s, doc, newName, restoreUsers, now).value;
      && (forall k :: k in s.members ==> k in r.members && r.members[k] == s.members[k])
      && (!restoreUsers || doc.users.None? ==> r.members == s.members)
      && (restoreUsers && doc.users.Some? ==> MembersFromDocs(s, s.members, r.members, q, doc.users.value, now))
  {
    var (r, q) := Restore(s, doc, newName, restoreUsers, now).value;
    var p := Project(RestoredName(newName, doc.project.value), doc.project.value.description, now);
    var s1 := InsertProject(s, p);
    NewProject(s, p);
    RestoreEnvironmentsGrow(s1, q, doc.environments, now);
    var s2 := RestoreEnvironments(s1, q, doc.environments, now).value;
    if restoreUsers && doc.users.Some? {
      AddedMembers(s2, s2.members, q, doc.users.value, now);
      FromDocsStable(s, s2, s.members, r.members, q, doc.users.value, now);
    }
  }

  /** Each document has an entry of project `q` among `entries`, and each
      entry not already in `before` comes from a document. */
  predicate EntriesFromDocs(before: map<nat, AllowedIp>, entries: map<nat, AllowedIp>, q: nat, ips: seq<IpDoc>, now: nat) {
    && (forall k :: 0 <= k < |ips| ==>
          exists i :: i in entries && entries[i] == EntryOf(q, ips[k], now))
    && (forall i :: i in entries && i !in before ==>
          exists k :: 0 <= k < |ips| && entries[i] == EntryOf(q, ips[k], now))
  }

  /** The entries `RestoreIps` adds are exactly the documents' entries. */
  lemma EntriesOfDocs(s: Store, projectId: nat, docs: seq<IpDoc>, now: nat)
    requires s.nextId >= 1 && KeysBelow(s.allowedIps, s.nextId)
    ensures var r := RestoreIps(s, projectId, docs, now);
      && (forall i :: i in s.allowedIps ==> i in r.allowedIps && r.allowedIps[i] == s.allowedIps[i])
      && EntriesFromDocs(s.allowedIps, r.allowedIps, projectId, docs, now)
  {
    var r := RestoreIps(s, projectId, docs, now);
    RestoredIps(s, projectId, docs, now);
    var n := s.nextId;
    forall k | 0 <= k < |docs|
      ensures exists i :: i in r.allowedIps && r.allowedIps[i] == EntryOf(projectId, docs[k], now)
    {
      RestoredIpAt(s, projectId, docs, now, k);
    }
    forall i | i in r.allowedIps && i !in s.allowedIps
      ensures exists k :: 0 <= k < |docs| && r.allowedIps[i] == EntryOf(projectId, docs[k], now)
    {
      var k: nat := i - n;
      RestoredIpAt(s, projectId, docs, now, k);
      assert n + k == i;
    }
  }

  /** The new project's whitelist is the documents' entries, project-wide and
      not marked as host names; entries already there stay. */
  lemma RestoredProjectEntries(s: Store, doc: Backup, newName: Option<string>, restoreUsers: bool, now: nat)
    requires Valid(s) && Restore(s, doc, newName, restoreUsers, now).Ok?
    ensures var (r, q) := Restore(s, doc, newName, restoreUsers, now).value;
      && (forall i :: i in s.allowedIps ==> i in r.allowedIps && r.allowedIps[i] == s.allowedIps[i])
      && EntriesFromDocs(s.allowedIps, r.allowedIps, q, doc.allowedIps, now)
  {
    var (r, q) := Restore(s, doc, newName, restoreUsers, now).value;
    var p := Project(RestoredName(newName, doc.project.value), doc.project.value.description, now);
    var s1 := InsertProject(s, p);
    NewProject(s, p);
    RestoreEnvironmentsGrow(s1, q, doc.environments, now);
    var s2 := RestoreEnvironments(s1, q, doc.environments, now).value;
    var s3 := RestoreUsers(s2, q, doc, restoreUsers, now).value;
    MembersFree(s2, s3.members);
    assert s3 == s2.(members := s3.members);
    assert r == RestoreIps(s3, q, doc.allowedIps, now);
    assert s3.allowedIps == s.allowedIps;
    EntriesOfDocs(s3, q, doc.allowedIps, now);
  }

  /** The version a document carries must be present, but its value is not
      checked. */
  lemma RestoreIgnoresVersion(s: Store, doc: Backup, v: string, w: string, newName: Option<string>,
                              restoreUsers: bool, now: nat)
    ensures Restore(s, doc.(version := Some(v)), newName, restoreUsers, now)
         == Restore(s, doc.(version := Some(w)), newName, restoreUsers, now)
  {
  }
}

=== FILE: roundtrip.dfy ===
/** Export followed by restore, on one store: the restored project is a copy
    of the exported one under a new name. Each environment keeps its name and
    key and serves the same configs and secrets to a client; members keep their
    roles; whitelist entries keep their text and description but become
    project-wide, and lose their host-name flag. */
module RoundTrip {
  import opened Wrappers
  import opened Schema
  import opened Tables
  import opened Rows
  import Api
  import opened BackupDocs
  import opened ProjectRestore

  /** Two environments carry the same name and key and serve the same
      configs and secrets. */
  predicate SameEnvironment(s: Store, e: nat, r: Store, e': nat)
    requires e in s.environments && e' in r.environments
  {
    && r.environments[e'].name == s.environments[e].name
    && r.environments[e'].secretKey == s.environments[e].secretKey
    && Api.ConfigMap(r, e') == Api.ConfigMap(s, e)
    && Api.SecretMap(r, e') == Api.SecretMap(s, e)
  }

  /** Two dictionaries holding exactly the same key-value pairs are equal. */
  lemma SameMap(a: map<string, string>, b: map<string, string>, pairs: set<(string, string)>)
    requires forall k, v :: (k, v) in pairs <==> k in a && a[k] == v
    requires forall k, v :: (k, v) in pairs <==> k in b && b[k] == v
    ensures a == b
  {
    forall k | k in a ensures k in b && b[k] == a[k] {
      assert (k, a[k]) in pairs;
    }
    forall k | k in b ensures k in a {
      assert (k, b[k]) in pairs;
    }
  }

  /** The configs an environment serves are exactly its (key, value) pairs. */
  lemma ConfigMapPairs(s: Store, e: nat)
    requires Valid(s)
    ensures forall k, v :: (k, v) in RowPairs(s.configs, ConfigEnv, ConfigPair, e) <==>
      k in Api.ConfigMap(s, e) && Api.ConfigMap(s, e)[k] == v
  {
    var m := Api.ConfigMap(s, e);
    var pairs := RowPairs(s.configs, ConfigEnv, ConfigPair, e);
    Api.ConfigMapExact(s, e);
    forall k, v ensures (k, v) in pairs <==> k in m && m[k] == v {
      if (k, v) in pairs {
        var i :| i in s.configs && ConfigEnv(s.configs[i]) == e && ConfigPair(s.configs[i]) == (k, v);
      }
      if k in m && m[k] == v {
        var i :| i in s.configs && s.configs[i].envId == e && s.configs[i].key == k;
        assert ConfigPair(s.configs[i]) in pairs;
      }
    }
  }

  /** The secrets an environment serves are exactly its (key, ciphertext) pairs. */
  lemma SecretMapPairs(s: Store, e: nat)
    requires Valid(s)
    ensures forall k, v :: (k, v) in RowPairs(s.secrets, SecretEnv, SecretPair, e) <==>
      k in Api.SecretMap(s, e) && Api.SecretMap(s, e)[k] == v
  {
    var m := Api.SecretMap(s, e);
    var pairs := RowPairs(s.secrets, SecretEnv, SecretPair, e);
    Api.SecretMapExact(s, e);
    forall k, v ensures (k, v) in pairs <==> k in m && m[k] == v {
      if (k, v) in pairs {
        var i :| i in s.secrets && SecretEnv(s.secrets[i]) == e && SecretPair(s.secrets[i]) == (k, v);
      }
      if k in m && m[k] == v {
        var i :| i in s.secrets && s.secrets[i].envId == e && s.secrets[i].key == k;
        assert SecretPair(s.secrets[i]) in pairs;
      }
    }
  }

  /** An environment restored from another's export is the same environment. */
  lemma RestoredIsSame(s: Store, e: nat, r: Store, e': nat, q: nat, now: nat)
    requires Valid(s) && Valid(r) && e in s.environments
    requires Restored(r, e', q, ExportEnvironment(s, e), now)
    ensures SameEnvironment(s, e, r, e')
  {
    var d := ExportEnvironment(s, e);
    ExportedRows(s, e);
    ConfigMapPairs(s, e);
    ConfigMapPairs(r, e');
    SameMap(Api.ConfigMap(r, e'), Api.ConfigMap(s, e), set p | p in ConfigPairs(d.configs));
    SecretMapPairs(s, e);
    SecretMapPairs(r, e');
    SameMap(Api.SecretMap(r, e'), Api.SecretMap(s, e), set p | p in SecretPairs(d.secrets));
  }

  /** The conditions of a round trip: a consistent store, an export that
      succeeded, a fresh non-empty name, and, when members travel, no stale
      membership already naming the id the new project will get. */
  predicate RoundTripReady(s: Store, projectId: nat, includeUsers: bool, now: nat, name: string) {
    && Valid(s)
    && Export(s, projectId, includeUsers, now).Ok?
    && name != "" && ProjectNameFree(s, name)
    && (includeUsers ==> forall k :: k in s.members ==> k.1 != s.nextId)
  }

  /** The exported members match their own users, and match distinct users. */
  lemma ExportedMembersMatch(s: Store, projectId: nat, now: nat)
    requires Valid(s) && Export(s, projectId, true, now).Ok?
    ensures var users := Export(s, projectId, true, now).value.users.value;
      var us := MemberIds(s.members, projectId, s.nextId);
      && |users| == |us|
      && (forall u :: (u, projectId) in s.members <==> u in us)
      && (forall k :: 0 <= k < |us| ==>
            UserMatch(s, users[k]) == Some(us[k]) && users[k].role == s.members[(us[k], projectId)].role)
  {
    var users := Export(s, projectId, true, now).value.users.value;
    var us := MemberIds(s.members, projectId, s.nextId);
    ExportedMembers(s, projectId, now);
    forall k | 0 <= k < |us| ensures UserMatch(s, users[k]) == Some(us[k]) {
      UserMatchOwn(s, us[k], users[k]);
    }
  }

  /** An export's environments are sound for a new project. */
  lemma ExportedEnvDocsSound(s: Store, projectId: nat, includeUsers: bool, now: nat)
    requires Valid(s) && Export(s, projectId, includeUsers, now).Ok?
    ensures EnvDocsSound(Export(s, projectId, includeUsers, now).value.environments)
  {
    var envs := Export(s, projectId, includeUsers, now).value.environments;
    ExportedEnvironments(s, projectId, includeUsers, now);
    var es := EnvironmentIds(s, projectId);
    forall j | 0 <= j < |envs|
      ensures KeysNew([], ConfigPairs(envs[j].configs)) && KeysNew([], SecretPairs(envs[j].secrets))
    {
      ExportedRows(s, es[j]);
    }
  }

  /** An export's members fit a new project that no stale membership names. */
  lemma ExportedMembersFit(s: Store, projectId: nat, now: nat)
    requires Valid(s) && Export(s, projectId, true, now).Ok?
    requires forall k :: k in s.members ==> k.1 != s.nextId
    ensures MembersFit(s, s.members, s.nextId, Export(s, projectId, true, now).value.users.value)
  {
    ExportedMembersMatch(s, projectId, now);
  }

  /** A successful export restores under a fresh name. */
  lemma ExportRestores(s: Store, projectId: nat, includeUsers: bool, now: nat, name: string, now': nat)
    requires RoundTripReady(s, projectId, includeUsers, now, name)
    ensures Restore(s, Export(s, projectId, includeUsers, now).value, Some(name), includeUsers, now').Ok?
  {
    var doc := Export(s, projectId, includeUsers, now).value;
    RestoreOk(s, doc, Some(name), includeUsers, now');
    ExportedEnvDocsSound(s, projectId, includeUsers, now);
    if includeUsers {
      ExportedMembersFit(s, projectId, now);
    }
  }

  /** When the environments of a new project `q` match `envs`, the export of
      the environments `es` of `projectId`, each side's environments have a
      counterpart on the other side. */
  lemma EnvironmentsCorrespond(s: Store, projectId: nat, r: Store, q: nat, envs: seq<EnvDoc>, es: seq<nat>, now: nat)
    requires Valid(s) && Valid(r)
    requires |envs| == |es|
    requires forall e :: EnvironmentOf(s, e, projectId) <==> e in es
    requires forall k :: 0 <= k < |es| ==> es[k] in s.environments && envs[k] == ExportEnvironment(s, es[k])
    requires EnvironmentsMatch(r, q, envs, now)
    ensures forall e :: EnvironmentOf(s, e, projectId) ==>
      exists e' :: EnvironmentOf(r, e', q) && SameEnvironment(s, e, r, e')
    ensures forall e' :: EnvironmentOf(r, e', q) ==>
      exists e :: EnvironmentOf(s, e, projectId) && SameEnvironment(s, e, r, e')
  {
    forall e | EnvironmentOf(s, e, projectId)
      ensures exists e' :: EnvironmentOf(r, e', q) && SameEnvironment(s, e, r, e')
    {
      var k :| 0 <= k < |es| && es[k] == e;
      assert HasEnvironmentFor(r, q, envs[k], now);
      var e' :| EnvironmentOf(r, e', q) && Restored(r, e', q, envs[k], now);
      RestoredIsSame(s, e, r, e', q, now);
    }
    forall e' | EnvironmentOf(r, e', q)
      ensures exists e :: EnvironmentOf(s, e, projectId) && SameEnvironment(s, e, r, e')
    {
      assert FromSomeDoc(r, e', q, envs, now);
      var j :| 0 <= j < |envs| && Restored(r, e', q, envs[j], now);
      RestoredIsSame(s, es[j], r, e', q, now);
      assert EnvironmentOf(s, es[j], projectId);
    }
  }

  /** Every environment of the exported project has a counterpart in the
      restored one, and every environment of the restored project has one in
      the exported project: same name, same key, same configs and secrets. */
  lemma RoundTripEnvironments(s: Store, projectId: nat, includeUsers: bool, now: nat, name: string, now': nat)
    requires RoundTripReady(s, projectId, includeUsers, now, name)
    ensures var doc := Export(s, projectId, includeUsers, now).value;
      var res := Restore(s, doc, Some(name), includeUsers, now');
      res.Ok? &&
      var (r, q) := res.value;
      && q == s.nextId
      && r.projects[q] == Project(name, s.projects[projectId].description, now')
      && (forall e :: EnvironmentOf(s, e, projectId) ==>
            exists e' :: EnvironmentOf(r, e', q) && SameEnvironment(s, e, r, e'))
      && (forall e' :: EnvironmentOf(r, e', q) ==>
            exists e :: EnvironmentOf(s, e, projectId) && SameEnvironment(s, e, r, e'))
  {
    var doc := Export(s, projectId, includeUsers, now).value;
    ExportRestores(s, projectId, includeUsers, now, name, now');
    var (r, q) := Restore(s, doc, Some(name), includeUsers, now').value;
    RestoreValid(s, doc, Some(name), includeUsers, now');
    RestoredProjectEnvironments(s, doc, Some(name), includeUsers, now');
    ExportedEnvironments(s, projectId, includeUsers, now);
    EnvironmentsCorrespond(s, projectId, r, q, doc.environments, EnvironmentIds(s, projectId), now');
  }

  /** The memberships of a new project `q` built from `users`, where the k-th
      document names the k-th member `us[k]` of `projectId`, are those of
      `projectId`, role for role. */
  lemma MembersCorrespond(s: Store, projectId: nat, members: map<(nat, nat), Membership>, q: nat,
                          users: seq<UserDoc>, us: seq<nat>, now: nat)
    requires forall k :: k in s.members ==> k.1 != q
    requires |users| == |us|
    requires forall u :: (u, projectId) in s.members <==> u in us
    requires forall k :: 0 <= k < |us| ==>
      UserMatch(s, users[k]) == Some(us[k]) && users[k].role == s.members[(us[k], projectId)].role
    requires MembersFromDocs(s, s.members, members, q, users, now)
    ensures forall u ::
      && ((u, q) in members <==> (u, projectId) in s.members)
      && ((u, q) in members ==> members[(u, q)].role == s.members[(u, projectId)].role)
  {
    forall u ensures ((u, q) in members <==> (u, projectId) in s.members)
      && ((u, q) in members ==> members[(u, q)].role == s.members[(u, projectId)].role)
    {
      if (u, projectId) in s.members {
        var k :| 0 <= k < |us| && us[k] == u;
        assert UserMatch(s, users[k]) == Some(u);
      }
      if (u, q) in members {
        assert (u, q) !in s.members;
        var j :| 0 <= j < |users| && UserMatch(s, users[j]) == Some(u);
        assert us[j] == u;
      }
    }
  }

  /** With members included, the restored project has exactly the exported
      project's members, each with the same role. */
  lemma RoundTripMembers(s: Store, projectId: nat, now: nat, name: string, now': nat)
    requires RoundTripReady(s, projectId, true, now, name)
    ensures var doc := Export(s, projectId, true, now).value;
      var res := Restore(s, doc, Some(name), true, now');
      res.Ok? &&
      var (r, q) := res.value;
      forall u :: ((u, q) in r.members <==> (u, projectId) in s.members)
        && ((u, q) in r.members ==> r.members[(u, q)].role == s.members[(u, projectId)].role)
  {
    var doc := Export(s, projectId, true, now).value;
    ExportRestores(s, projectId, true, now, name, now');
    var (r, q) := Restore(s, doc, Some(name), true, now').value;
    assert q == s.nextId;
    RestoredProjectMembers(s, doc, Some(name), true, now');
    ExportedMembersMatch(s, projectId, now);
    MembersCorrespond(s, projectId, r.members, q, doc.users.value, MemberIds(s.members, projectId, s.nextId), now');
  }

  /** When the new entries of `r` are exactly the entries of `ips`, the export
      of the entries `entries` of `projectId`, each side's entries have a
      counterpart on the other side. */
  lemma EntriesCorrespond(s: Store, projectId: nat, r: Store, q: nat, ips: seq<IpDoc>, entries: seq<nat>, now: nat)
    requires EntriesListed(s, projectId, ips, entries)
    requires EntriesFromDocs(s.allowedIps, r.allowedIps, q, ips, now)
    ensures forall i :: i in s.allowedIps && s.allowedIps[i].projectId == projectId ==>
      exists i' :: i' in r.allowedIps && r.allowedIps[i'] == EntryOf(q, IpDocOf(s.allowedIps[i]), now)
    ensures forall i' :: i' in r.allowedIps && i' !in s.allowedIps ==>
      exists i :: (i in s.allowedIps && s.allowedIps[i].projectId == projectId
                   && r.allowedIps[i'] == EntryOf(q, IpDocOf(s.allowedIps[i]), now))
  {
    forall i | i in s.allowedIps && s.allowedIps[i].projectId == projectId
      ensures exists i' :: i' in r.allowedIps && r.allowedIps[i'] == EntryOf(q, IpDocOf(s.allowedIps[i]), now)
    {
      var k :| 0 <= k < |entries| && entries[k] == i;
      var d := ips[k];
      assert EntryOf(q, d, now) == EntryOf(q, IpDocOf(s.allowedIps[i]), now);
      assert exists i' :: i' in r.allowedIps && r.allowedIps[i'] == EntryOf(q, d, now);
    }
    forall i' | i' in r.allowedIps && i' !in s.allowedIps
      ensures exists i :: (i in s.allowedIps && s.allowedIps[i].projectId == projectId
                           && r.allowedIps[i'] == EntryOf(q, IpDocOf(s.allowedIps[i]), now))
    {
      var k :| 0 <= k < |ips| && r.allowedIps[i'] == EntryOf(q, ips[k], now);
      assert EntryOf(q, ips[k], now) == EntryOf(q, IpDocOf(s.allowedIps[entries[k]]), now);
    }
  }

  /** Every whitelist entry of the exported project reappears in the restored
      project, project-wide and not marked as a host name, with its text and
      description; every entry the restore adds is one of them. */
  lemma RoundTripEntries(s: Store, projectId: nat, includeUsers: bool, now: nat, name: string, now': nat)
    requires RoundTripReady(s, projectId, includeUsers, now, name)
    ensures var doc := Export(s, projectId, includeUsers, now).value;
      var res := Restore(s, doc, Some(name), includeUsers, now');
      res.Ok? &&
      var (r, q) := res.value;
      && (forall i :: i in s.allowedIps && s.allowedIps[i].projectId == projectId ==>
            exists i' :: i' in r.allowedIps && r.allowedIps[i'] == EntryOf(q, IpDocOf(s.allowedIps[i]), now'))
      && (forall i' :: i' in r.allowedIps && i' !in s.allowedIps ==>
            exists i :: (i in s.allowedIps && s.allowedIps[i].projectId == projectId
                         && r.allowedIps[i'] == EntryOf(q, IpDocOf(s.allowedIps[i]), now')))
  {
    var doc := Export(s, projectId, includeUsers, now).value;
    ExportRestores(s, projectId, includeUsers, now, name, now');
    var (r, q) := Restore(s, doc, Some(name), includeUsers, now').value;
    RestoredProjectEntries(s, doc, Some(name), includeUsers, now');
    ExportedEntries(s, projectId, includeUsers, now);
    EntriesCorrespond(s, projectId, r, q, doc.allowedIps, EntryIds(s, projectId), now');
  }

  /** Restoring a project's export into the same store without a new name
      fails: the name is taken by the project itself. */
  lemma RestoreUnderOwnName(s: Store, projectId: nat, includeUsers: bool, now: nat, restoreUsers: bool, now': nat)
    requires Export(s, projectId, includeUsers, now).Ok?
    ensures Restore(s, Export(s, projectId, includeUsers, now).value, None, restoreUsers, now')
      == Err(ProjectExists(s.projects[projectId].name))
  {
  }
}

=== FILE: rows.dfy ===
/** Row-level changes to the store, shared by the routes and by restore, and the
    conditions under which each keeps the store invariant. An insert takes the
    next id from the counter; updates and deletes touch one row. */
module Rows {
  import opened Wrappers
  import opened Schema

  function InsertProject(s: Store, p: Project): Store {
    s.(projects := s.projects[s.nextId := p], nextId := s.nextId + 1)
  }

  function InsertEnvironment(s: Store, e: Environment): Store {
    s.(environments := s.environments[s.nextId := e], nextId := s.nextId + 1)
  }

  function InsertConfig(s: Store, c: Config): Store {
    s.(configs := s.configs[s.nextId := c], nextId := s.nextId + 1)
  }

  function InsertSecret(s: Store, c: Secret): Store {
    s.(secrets := s.secrets[s.nextId := c], nextId := s.nextId + 1)
  }

  function InsertAllowedIp(s: Store, a: AllowedIp): Store {
    s.(allowedIps := s.allowedIps[s.nextId := a], nextId := s.nextId + 1)
  }

  function InsertToken(s: Store, t: ApiToken): Store {
    s.(tokens := s.tokens[s.nextId := t], nextId := s.nextId + 1)
  }

  // ---------------------------------------------------------------------------
  // The conditions the routes check before inserting

  /** No project carries this name. */
  predicate ProjectNameFree(s: Store, name: string) {
    forall p :: p in s.projects ==> s.projects[p].name != name
  }

  /** No environment of the project carries this name. */
  predicate EnvironmentNameFree(s: Store, projectId: nat, name: string) {
    forall e :: e in s.environments && s.environments[e].projectId == projectId ==> s.environments[e].name != name
  }

  /** `envId` names an environment of the project. */
  predicate EnvironmentOf(s: Store, envId: nat, projectId: nat) {
    envId in s.environments && s.environments[envId].projectId == projectId
  }

  predicate ConfigKeyFree(s: Store, envId: nat, key: string) {
    forall i :: i in s.configs && s.configs[i].envId == envId ==> s.configs[i].key != key
  }

  predicate SecretKeyFree(s: Store, envId: nat, key: string) {
    forall i :: i in s.secrets && s.secrets[i].envId == envId ==> s.secrets[i].key != key
  }

  predicate TokenFree(s: Store, token: string) {
    forall t :: t in s.tokens ==> s.tokens[t].token != token
  }

  /** The users holding role `owner` in the project. */
  function Owners(s: Store, projectId: nat): set<nat> {
    set k | k in s.members && k.1 == projectId && s.members[k].role == Owner :: k.0
  }

  lemma OwnersMembership(s: Store, projectId: nat, u: nat)
    ensures u in Owners(s, projectId) <==> (u, projectId) in s.members && s.members[(u, projectId)].role == Owner
  {
    if u in Owners(s, projectId) {
      var k :| k in s.members && k.1 == projectId && s.members[k].role == Owner && k.0 == u;
      assert k == (u, projectId);
    }
  }

  /** Dropping a membership of the project drops that user from its owners. */
  lemma OwnersAfterRemove(s: Store, projectId: nat, u: nat)
    ensures Owners(s.(members := s.members - {(u, projectId)}), projectId) == Owners(s, projectId) - {u}
  {
    var s' := s.(members := s.members - {(u, projectId)});
    forall v ensures v in Owners(s', projectId) <==> v in Owners(s, projectId) - {u} {
      OwnersMembership(s', projectId, v);
      OwnersMembership(s, projectId, v);
    }
  }

  /** Writing a membership of the project adds the user to its owners or drops
      them, according to the role written. */
  lemma OwnersAfterSet(s: Store, projectId: nat, u: nat, m: Membership)
    ensures Owners(s.(members := s.members[(u, projectId) := m]), projectId) ==
      if m.role == Owner then Owners(s, projectId) + {u} else Owners(s, projectId) - {u}
  {
    var s' := s.(members := s.members[(u, projectId) := m]);
    forall v ensures v in Owners(s', projectId) <==>
      v in (if m.role == Owner then Owners(s, projectId) + {u} else Owners(s, projectId) - {u}) {
      OwnersMembership(s', projectId, v);
      OwnersMembership(s, projectId, v);
    }
  }

  // ---------------------------------------------------------------------------
  // The invariant under each change

  /** A key below the counter stays below it as the counter grows. */
  lemma KeysBelowMore<T>(m: map<nat, T>, n: nat, n': nat)
    requires KeysBelow(m, n) && n <= n'
    ensures KeysBelow(m, n')
  {
  }

  /** A row inserted under the counter's value is below the next value. */
  lemma KeysBelowInsert<T>(m: map<nat, T>, n: nat, v: T)
    requires KeysBelow(m, n) && n >= 1
    ensures KeysBelow(m[n := v], n + 1)
  {
  }

  /** Tables an insert leaves alone stay below the advanced counter. */
  lemma IdsFreshAfterInsert(s: Store, s': Store)
    requires s.nextId >= 1 && IdsFresh(s) && s'.nextId == s.nextId + 1
    ensures s'.users == s.users ==> KeysBelow(s'.users, s'.nextId)
    ensures s'.projects == s.projects ==> KeysBelow(s'.projects, s'.nextId)
    ensures s'.environments == s.environments ==> KeysBelow(s'.environments, s'.nextId)
    ensures s'.configs == s.configs ==> KeysBelow(s'.configs, s'.nextId)
    ensures s'.secrets == s.secrets ==> KeysBelow(s'.secrets, s'.nextId)
    ensures s'.allowedIps == s.allowedIps ==> KeysBelow(s'.allowedIps, s'.nextId)
    ensures s'.tokens == s.tokens ==> KeysBelow(s'.tokens, s'.nextId)
  {
    KeysBelowMore(s.users, s.nextId, s'.nextId);
    KeysBelowMore(s.projects, s.nextId, s'.nextId);
    KeysBelowMore(s.environments, s.nextId, s'.nextId);
    KeysBelowMore(s.configs, s.nextId, s'.nextId);
    KeysBelowMore(s.secrets, s.nextId, s'.nextId);
    KeysBelowMore(s.allowedIps, s.nextId, s'.nextId);
    KeysBelowMore(s.tokens, s.nextId, s'.nextId);
  }

  /** A fresh environment with a name new to its project keeps the
      environments well formed, and the tables that hang off them too. */
  lemma EnvironmentsInsert(projects: map<nat, Project>, environments: map<nat, Environment>, n: nat, e: Environment)
    requires EnvironmentsWellFormed(projects, environments) && n !in environments && e.projectId in projects
    requires forall f :: f in environments && environments[f].projectId == e.projectId ==> environments[f].name != e.name
    ensures EnvironmentsWellFormed(projects, environments[n := e])
  {
  }

  lemma ConfigsInsert(environments: map<nat, Environment>, configs: map<nat, Config>, n: nat, c: Config)
    requires ConfigsWellFormed(environments, configs) && n !in configs && c.envId in environments
    requires forall i :: i in configs && configs[i].envId == c.envId ==> configs[i].key != c.key
    ensures ConfigsWellFormed(environments, configs[n := c])
  {
  }

  lemma SecretsInsert(environments: map<nat, Environment>, secrets: map<nat, Secret>, n: nat, c: Secret)
    requires SecretsWellFormed(environments, secrets) && n !in secrets && c.envId in environments
    requires forall i :: i in secrets && secrets[i].envId == c.envId ==> secrets[i].key != c.key
    ensures SecretsWellFormed(environments, secrets[n := c])
  {
  }

  lemma TokensInsert(environments: map<nat, Environment>, tokens: map<nat, ApiToken>, n: nat, t: ApiToken)
    requires TokensWellFormed(environments, tokens) && n !in tokens
    requires t.envId in environments && environments[t.envId].projectId == t.projectId
    requires forall u :: u in tokens ==> tokens[u].token != t.token
    ensures TokensWellFormed(environments, tokens[n := t])
  {
  }

  /** Rows that name environments keep naming existing ones as environments
      are added. */
  lemma EnvironmentAdded(s: Store, n: nat, e: Environment)
    requires Valid(s) && n !in s.environments
    ensures ConfigsWellFormed(s.environments[n := e], s.configs)
    ensures SecretsWellFormed(s.environments[n := e], s.secrets)
    ensures TokensWellFormed(s.environments[n := e], s.tokens)
    ensures EntriesWellFormed(s.environments[n := e], s.allowedIps)
  {
  }

  lemma InsertProjectValid(s: Store, p: Project)
    requires Valid(s) && ProjectNameFree(s, p.name)
    ensures Valid(InsertProject(s, p))
  {
    IdsFreshAfterInsert(s, InsertProject(s, p));
    KeysBelowInsert(s.projects, s.nextId, p);
  }

  lemma InsertEnvironmentValid(s: Store, e: Environment)
    requires Valid(s) && e.projectId in s.projects && EnvironmentNameFree(s, e.projectId, e.name)
    ensures Valid(InsertEnvironment(s, e))
  {
    IdsFreshAfterInsert(s, InsertEnvironment(s, e));
    KeysBelowInsert(s.environments, s.nextId, e);
    EnvironmentsInsert(s.projects, s.environments, s.nextId, e);
    EnvironmentAdded(s, s.nextId, e);
  }

  lemma InsertConfigValid(s: Store, c: Config)
    requires Valid(s) && c.envId in s.environments && ConfigKeyFree(s, c.envId, c.key)
    ensures Valid(InsertConfig(s, c))
  {
    IdsFreshAfterInsert(s, InsertConfig(s, c));
    KeysBelowInsert(s.configs, s.nextId, c);
    ConfigsInsert(s.environments, s.configs, s.nextId, c);
  }

  lemma InsertSecretValid(s: Store, c: Secret)
    requires Valid(s) && c.envId in s.environments && SecretKeyFree(s, c.envId, c.key)
    ensures Valid(InsertSecret(s, c))
  {
    IdsFreshAfterInsert(s, InsertSecret(s, c));
    KeysBelowInsert(s.secrets, s.nextId, c);
    SecretsInsert(s.environments, s.secrets, s.nextId, c);
  }

  lemma InsertAllowedIpValid(s: Store, a: AllowedIp)
    requires Valid(s) && (a.envId.Some? ==> EnvironmentOf(s, a.envId.value, a.projectId))
    ensures Valid(InsertAllowedIp(s, a))
  {
    IdsFreshAfterInsert(s, InsertAllowedIp(s, a));
    KeysBelowInsert(s.allowedIps, s.nextId, a);
  }

  lemma InsertTokenValid(s: Store, t: ApiToken)
    requires Valid(s) && EnvironmentOf(s, t.envId, t.projectId) && TokenFree(s, t.token)
    ensures Valid(InsertToken(s, t))
  {
    IdsFreshAfterInsert(s, InsertToken(s, t));
    KeysBelowInsert(s.tokens, s.nextId, t);
    TokensInsert(s.environments, s.tokens, s.nextId, t);
  }

  /** Changing a config's value in place. */
  lemma UpdateConfigValid(s: Store, i: nat, c: Config)
    requires Valid(s) && i in s.configs && c.envId == s.configs[i].envId && c.key == s.configs[i].key
    ensures Valid(s.(configs := s.configs[i := c]))
  {
  }

  /** Changing a secret's ciphertext in place. */
  lemma UpdateSecretValid(s: Store, i: nat, c: Secret)
    requires Valid(s) && i in s.secrets && c.envId == s.secrets[i].envId && c.key == s.secrets[i].key
    ensures Valid(s.(secrets := s.secrets[i := c]))
  {
  }

  lemma RemoveConfigValid(s: Store, i: nat)
    requires Valid(s)
    ensures Valid(s.(configs := s.configs - {i}))
  {
  }

  lemma RemoveSecretValid(s: Store, i: nat)
    requires Valid(s)
    ensures Valid(s.(secrets := s.secrets - {i}))
  {
  }

  lemma RemoveAllowedIpValid(s: Store, i: nat)
    requires Valid(s)
    ensures Valid(s.(allowedIps := s.allowedIps - {i}))
  {
  }

  lemma RemoveTokenValid(s: Store, i: nat)
    requires Valid(s)
    ensures Valid(s.(tokens := s.tokens - {i}))
  {
  }

  /** Flipping a token's active flag. */
  lemma ToggleTokenValid(s: Store, i: nat)
    requires Valid(s) && i in s.tokens
    ensures Valid(s.(tokens := s.tokens[i := s.tokens[i].(isActive := !s.tokens[i].isActive)]))
  {
  }

  /** Memberships are not constrained by the invariant. */
  lemma MembersFree(s: Store, members: map<(nat, nat), Membership>)
    requires Valid(s)
    ensures Valid(s.(members := members))
  {
  }

  /** Flipping a user's administrator flag. */
  lemma UserFlagValid(s: Store, u: nat)
    requires Valid(s) && u in s.users
    ensures Valid(s.(users := s.users[u := s.users[u].(isAdmin := !s.users[u].isAdmin)]))
  {
  }

  /** Removing a user together with their memberships. */
  lemma RemoveUserValid(s: Store, u: nat)
    requires Valid(s)
    ensures Valid(s.(users := s.users - {u}))
  {
  }
}

=== FILE: schema.dfy ===
/** The records the application persists (app/models.py) and the store that
    holds them. Tables are maps from row id to row; memberships are keyed by
    their (user, project) pair, the pair the schema declares unique. Timestamps
    are naturals. Every row id lies in [1, nextId), and an insert into any
    table takes `nextId`: one counter serves every table, where the database
    numbers each table's rows on its own. */
module Schema {
  import opened Wrappers

  datatype User = User(username: string, email: string, isAdmin: bool)

  datatype Project = Project(name: string, description: Option<string>, createdAt: nat)

  /** `secretKey` is the environment's own symmetric key, chosen when the
      environment is created and never rotated. */
  datatype Environment = Environment(name: string, projectId: nat, secretKey: string, createdAt: nat)

  /** A user's role in one project. The role is free text in the database:
      `add_user` stores whatever it was given. */
  datatype Membership = Membership(role: string, createdAt: nat)

  datatype Config = Config(envId: nat, key: string, value: string, createdAt: nat, updatedAt: nat)

  /** `encryptedValue` is ciphertext under the owning environment's key. */
  datatype Secret = Secret(envId: nat, key: string, encryptedValue: string, createdAt: nat, updatedAt: nat)

  /** A whitelist entry. `envId == None` marks a project-wide entry; `ipAddress`
      is the text the operator typed (address, CIDR block, host name, any of
      them with `:port`, or for CORS a full origin). */
  datatype AllowedIp = AllowedIp(
    ipAddress: string,
    projectId: nat,
    envId: Option<nat>,
    description: Option<string>,
    isFqdn: bool,
    createdAt: nat)

  datatype ApiToken = ApiToken(
    token: string,
    projectId: nat,
    envId: nat,
    name: string,
    createdAt: nat,
    expiresAt: nat,
    isActive: bool)

  datatype Store = Store(
    users: map<nat, User>,
    projects: map<nat, Project>,
    environments: map<nat, Environment>,
    members: map<(nat, nat), Membership>,
    configs: map<nat, Config>,
    secrets: map<nat, Secret>,
    allowedIps: map<nat, AllowedIp>,
    tokens: map<nat, ApiToken>,
    nextId: nat)

  /** The role names the application knows. */
  const Owner := "owner"
  const Maintainer := "maintainer"
  const Reader := "reader"

  // ---------------------------------------------------------------------------
  // The invariant the operations maintain

  predicate KeysBelow<T>(m: map<nat, T>, next: nat) {
    forall i :: i in m ==> 1 <= i < next
  }

  /** Every table draws its ids from the one counter. */
  predicate IdsFresh(s: Store) {
    && KeysBelow(s.users, s.nextId)
    && KeysBelow(s.projects, s.nextId)
    && KeysBelow(s.environments, s.nextId)
    && KeysBelow(s.configs, s.nextId)
    && KeysBelow(s.secrets, s.nextId)
    && KeysBelow(s.allowedIps, s.nextId)
    && KeysBelow(s.tokens, s.nextId)
  }

  /** `username` and `email` are unique columns of the user table. */
  predicate UsersUnique(users: map<nat, User>) {
    forall u, v :: u in users && v in users && u != v ==>
      users[u].username != users[v].username && users[u].email != users[v].email
  }

  /** Project names are kept unique by the code that creates projects. */
  predicate ProjectNamesUnique(projects: map<nat, Project>) {
    forall p, q :: p in projects && q in projects && p != q ==> projects[p].name != projects[q].name
  }

  /** Environments belong to existing projects; (name, project) is unique. */
  predicate EnvironmentsWellFormed(projects: map<nat, Project>, environments: map<nat, Environment>) {
    && (forall e :: e in environments ==> environments[e].projectId in projects)
    && (forall e, f ::
          (e in environments && f in environments && e != f
           && environments[e].projectId == environments[f].projectId) ==>
          environments[e].name != environments[f].name)
  }

  /** Configs belong to existing environments; (key, environment) is unique. */
  predicate ConfigsWellFormed(environments: map<nat, Environment>, configs: map<nat, Config>) {
    && (forall i :: i in configs ==> configs[i].envId in environments)
    && (forall i, j :: i in configs && j in configs && i != j && configs[i].envId == configs[j].envId ==>
          configs[i].key != configs[j].key)
  }

  /** Secrets belong to existing environments; (key, environment) is unique. */
  predicate SecretsWellFormed(environments: map<nat, Environment>, secrets: map<nat, Secret>) {
    && (forall i :: i in secrets ==> secrets[i].envId in environments)
    && (forall i, j :: i in secrets && j in secrets && i != j && secrets[i].envId == secrets[j].envId ==>
          secrets[i].key != secrets[j].key)
  }

  /** A token is bound to one environment of its own project; token text is unique. */
  predicate TokensWellFormed(environments: map<nat, Environment>, tokens: map<nat, ApiToken>) {
    && (forall t :: t in tokens ==>
          tokens[t].envId in environments && environments[tokens[t].envId].projectId == tokens[t].projectId)
    && (forall t, u :: t in tokens && u in tokens && t != u ==> tokens[t].token != tokens[u].token)
  }

  /** An environment-scoped whitelist entry names an environment of its project. */
  predicate EntriesWellFormed(environments: map<nat, Environment>, entries: map<nat, AllowedIp>) {
    forall i :: i in entries && entries[i].envId.Some? ==>
      entries[i].envId.value in environments
      && environments[entries[i].envId.value].projectId == entries[i].projectId
  }

  /** The store invariant. Foreign keys are not enforced by the default SQLite
      database, so memberships and project-wide entries may name projects or
      users that do not exist; the invariant says nothing about them. */
  predicate Valid(s: Store) {
    && s.nextId >= 1
    && IdsFresh(s)
    && UsersUnique(s.users)
    && ProjectNamesUnique(s.projects)
    && EnvironmentsWellFormed(s.projects, s.environments)
    && ConfigsWellFormed(s.environments, s.configs)
    && SecretsWellFormed(s.environments, s.secrets)
    && TokensWellFormed(s.environments, s.tokens)
    && EntriesWellFormed(s.environments, s.allowedIps)
  }
}

=== FILE: tables.dfy ===
/** Tables keyed by integer row ids, scanned in ascending id order: the order in
    which a query without ORDER BY returns rows of a rowid table. */
module Tables {
  import opened Wrappers

  predicate Increasing(ids: seq<nat>) {
    forall a, b :: 0 <= a < b < |ids| ==> ids[a] < ids[b]
  }

  /** The ids of `m` below `bound`, ascending. */
  function IdsBelow<T>(m: map<nat, T>, bound: nat): (ids: seq<nat>)
    ensures forall i :: i in ids <==> i in m && i < bound
    ensures forall k :: 0 <= k < |ids| ==> ids[k] < bound
    ensures Increasing(ids)
  {
    if bound == 0 then []
    else
      var prefix := IdsBelow(m, bound - 1);
      if bound - 1 in m then prefix + [bound - 1] else prefix
  }

  /** The ids among `ids` whose rows satisfy `keep`, in the same order. */
  function Where<T>(m: map<nat, T>, ids: seq<nat>, keep: T -> bool): (r: seq<nat>)
    requires forall i :: i in ids ==> i in m
    ensures forall i :: i in r <==> i in ids && keep(m[i])
    ensures Increasing(ids) ==> Increasing(r)
    ensures |r| <= |ids|
  {
    if |ids| == 0 then []
    else
      var rest := Where(m, ids[1..], keep);
      assert forall i :: i in rest ==> i in ids[1..];
      assert Increasing(ids) ==> forall k :: 0 <= k < |rest| ==> ids[0] < rest[k] by {
        if Increasing(ids) {
          forall k | 0 <= k < |rest| ensures ids[0] < rest[k] {
            assert rest[k] in ids[1..];
          }
        }
      }
      if keep(m[ids[0]]) then [ids[0]] + rest else rest
  }

  /** The rows of `m` below `bound` satisfying `keep`, by ascending id. */
  function Select<T>(m: map<nat, T>, bound: nat, keep: T -> bool): (r: seq<nat>)
    ensures forall i :: i in r <==> i in m && i < bound && keep(m[i])
    ensures Increasing(r)
  {
    Where(m, IdsBelow(m, bound), keep)
  }

  /** The first row (lowest id below `bound`) satisfying `keep`, as `.first()` finds it. */
  function First<T>(m: map<nat, T>, bound: nat, keep: T -> bool): (r: Option<nat>)
    ensures r.Some? ==> r.value in m && r.value < bound && keep(m[r.value])
    ensures r.Some? ==> forall i :: i in m && i < r.value && keep(m[i]) ==> false
    ensures r.None? ==> forall i :: i in m && i < bound ==> !keep(m[i])
  {
    if bound == 0 then None
    else match First(m, bound - 1, keep)
      case Some(i) => Some(i)
      case None => if bound - 1 in m && keep(m[bound - 1]) then Some(bound - 1) else None
  }

  /** When at most one row satisfies `keep`, `.first()` finds exactly that row. */
  lemma FirstUnique<T>(m: map<nat, T>, bound: nat, keep: T -> bool, id: nat)
    requires id in m && id < bound && keep(m[id])
    requires forall j :: j in m && keep(m[j]) ==> j == id
    ensures First(m, bound, keep) == Some(id)
  {
  }

  /** A sequence of distinct ids lists a set exactly once each. */
  lemma IncreasingDistinct(ids: seq<nat>, a: nat, b: nat)
    requires Increasing(ids)
    requires a < |ids| && b < |ids| && ids[a] == ids[b]
    ensures a == b
  {
  }

  /** A dictionary filled row by row, as `d[key(row)] = value(row)` in a loop:
      a later row overwrites an earlier one with the same key. */
  function Collect<T>(m: map<nat, T>, ids: seq<nat>, key: T -> string, value: T -> string): (r: map<string, string>)
    requires forall i :: i in ids ==> i in m
    ensures forall k :: k in r <==> exists j :: 0 <= j < |ids| && key(m[ids[j]]) == k
  {
    if |ids| == 0 then map[]
    else
      var last := m[ids[|ids| - 1]];
      var r := Collect(m, ids[..|ids| - 1], key, value)[key(last) := value(last)];
      assert forall k :: k in r ==> exists j :: 0 <= j < |ids| && key(m[ids[j]]) == k by {
        forall k | k in r ensures exists j :: 0 <= j < |ids| && key(m[ids[j]]) == k {
          if k != key(last) {
            var j :| 0 <= j < |ids| - 1 && key(m[ids[..|ids| - 1][j]]) == k;
            assert ids[..|ids| - 1][j] == ids[j];
          } else {
            assert key(m[ids[|ids| - 1]]) == k;
          }
        }
      }
      assert forall k :: (exists j :: 0 <= j < |ids| && key(m[ids[j]]) == k) ==> k in r by {
        forall k | exists j :: 0 <= j < |ids| && key(m[ids[j]]) == k ensures k in r {
          var j :| 0 <= j < |ids| && key(m[ids[j]]) == k;
          if j < |ids| - 1 {
            assert ids[..|ids| - 1][j] == ids[j];
          }
        }
      }
      r
  }

  /** When the rows' keys are distinct, each row's value is found under its key. */
  lemma {:induction false} CollectDistinct<T>(m: map<nat, T>, ids: seq<nat>, key: T -> string, value: T -> string, j: nat)
    requires forall i :: i in ids ==> i in m
    requires forall a, b :: 0 <= a < b < |ids| ==> key(m[ids[a]]) != key(m[ids[b]])
    requires j < |ids|
    ensures Collect(m, ids, key, value)[key(m[ids[j]])] == value(m[ids[j]])
  {
    if j < |ids| - 1 {
      var init := ids[..|ids| - 1];
      assert init[j] == ids[j];
      assert key(m[ids[j]]) != key(m[ids[|ids| - 1]]);
      assert forall a, b :: 0 <= a < b < |init| ==> key(m[init[a]]) != key(m[init[b]]) by {
        forall a, b | 0 <= a < b < |init| ensures key(m[init[a]]) != key(m[init[b]]) {
          assert init[a] == ids[a] && init[b] == ids[b];
        }
      }
      CollectDistinct(m, init, key, value, j);
    }
  }

  /** Filling a dictionary from the rows a query selects, when the selected rows
      have distinct keys: the dictionary maps each selected row's key to its
      value, and holds nothing else. */
  lemma SelectCollect<T>(m: map<nat, T>, bound: nat, keep: T -> bool, key: T -> string, value: T -> string)
    requires forall i :: i in m ==> i < bound
    requires forall i, j :: i in m && j in m && i != j && keep(m[i]) && keep(m[j]) ==> key(m[i]) != key(m[j])
    ensures forall i :: i in m && keep(m[i]) ==>
      key(m[i]) in Collect(m, Select(m, bound, keep), key, value)
      && Collect(m, Select(m, bound, keep), key, value)[key(m[i])] == value(m[i])
    ensures forall k :: k in Collect(m, Select(m, bound, keep), key, value) ==>
      exists i :: i in m && keep(m[i]) && key(m[i]) == k
  {
    var ids := Select(m, bound, keep);
    SelectedKeysDistinct(m, bound, keep, key);
    forall i | i in m && keep(m[i])
      ensures key(m[i]) in Collect(m, ids, key, value) && Collect(m, ids, key, value)[key(m[i])] == value(m[i])
    {
      assert i in ids;
      var j :| 0 <= j < |ids| && ids[j] == i;
      CollectDistinct(m, ids, key, value, j);
    }
    forall k | k in Collect(m, ids, key, value)
      ensures exists i :: i in m && keep(m[i]) && key(m[i]) == k
    {
      var j :| 0 <= j < |ids| && key(m[ids[j]]) == k;
      assert ids[j] in ids;
    }
  }

  /** Rows selected by a query whose kept rows have distinct keys are listed
      with distinct keys. */
  lemma SelectedKeysDistinct<T>(m: map<nat, T>, bound: nat, keep: T -> bool, key: T -> string)
    requires forall i, j :: i in m && j in m && i != j && keep(m[i]) && keep(m[j]) ==> key(m[i]) != key(m[j])
    ensures var ids := Select(m, bound, keep);
      forall a, b :: 0 <= a < b < |ids| ==> key(m[ids[a]]) != key(m[ids[b]])
  {
    var ids := Select(m, bound, keep);
    forall a, b | 0 <= a < b < |ids| ensures key(m[ids[a]]) != key(m[ids[b]]) {
      assert ids[a] in ids && ids[b] in ids;
      assert ids[a] < ids[b];
    }
  }
}

=== FILE: text.dfy ===
/** The few pieces of Python string behaviour configlake's routes rely on: digit runs,
    prefixes, `int()` on digits, `str.split(' ')`, `str.strip()`, and the hexadecimal
    text that carries a backup's salt (`bytes.hex()` / `bytes.fromhex()`). */
module Text {
  import opened Wrappers

  newtype byte = x: int | 0 <= x < 256

  predicate IsDigit(c: char) {
    '0' <= c <= '9'
  }

  /** A non-empty run of decimal digits: what `\d+` matches (ASCII digits only). */
  predicate IsDigits(s: string) {
    |s| > 0 && forall i :: 0 <= i < |s| ==> IsDigit(s[i])
  }

  /** A word character of a regular expression (`\w`, ASCII letters, digits and `_`). */
  predicate IsWordChar(c: char) {
    IsDigit(c) || ('a' <= c <= 'z') || ('A' <= c <= 'Z') || c == '_'
  }

  predicate StartsWith(s: string, prefix: string) {
    |prefix| <= |s| && s[..|prefix|] == prefix
  }

  /** One differing character rules a prefix out. */
  lemma Mismatch(s: string, prefix: string, i: nat)
    requires i < |s| && i < |prefix| && s[i] != prefix[i]
    ensures !StartsWith(s, prefix)
  {
    if |prefix| <= |s| {
      assert s[..|prefix|][i] == s[i];
    }
  }

  /** The value of a digit string, as `int()` reads it. */
  function DecimalValue(s: string): (n: nat)
    requires forall i :: 0 <= i < |s| ==> IsDigit(s[i])
    ensures |s| == 1 ==> n == (s[0] as int) - ('0' as int)
    ensures n < Pow10(|s|)
  {
    if |s| == 0 then 0
    else
      assert IsDigit(s[|s| - 1]);
      10 * DecimalValue(s[..|s| - 1]) + ((s[|s| - 1] as int) - ('0' as int))
  }

  function Pow10(k: nat): (p: nat)
    ensures p >= 1
  {
    if k == 0 then 1 else 10 * Pow10(k - 1)
  }

  /** The digit character of a value below ten. */
  function DigitChar(d: nat): (c: char)
    requires d < 10
    ensures IsDigit(c) && (c as int) - ('0' as int) == d
  {
    ('0' as int + d) as char
  }

  /** `str(n)`: the decimal digits of `n`, with no leading zero. */
  function DecimalText(n: nat): (t: string)
    ensures IsDigits(t)
    ensures |t| > 1 ==> t[0] != '0'
    decreases n
  {
    if n < 10 then [DigitChar(n)] else DecimalText(n / 10) + [DigitChar(n % 10)]
  }

  /** `int(str(n)) == n`. */
  lemma {:induction false} DecimalRoundTrip(n: nat)
    ensures DecimalValue(DecimalText(n)) == n
    decreases n
  {
    if n >= 10 {
      var p := DecimalText(n / 10);
      var t := DecimalText(n);
      DecimalRoundTrip(n / 10);
      assert t[..|t| - 1] == p;
    }
  }

  // ---------------------------------------------------------------------------
  // str.split(' ')

  /** Index of the first occurrence of `c` in `s`, if any. */
  function IndexOf(s: string, c: char): (r: Option<nat>)
    ensures r.None? <==> c !in s
    ensures r.Some? ==> r.value < |s| && s[r.value] == c && c !in s[..r.value]
  {
    if |s| == 0 then None
    else if s[0] == c then Some(0)
    else match IndexOf(s[1..], c)
      case None => None
      case Some(i) =>
        assert s[..i + 1] == [s[0]] + s[1..][..i];
        Some(i + 1)
  }

  /** Index of the last occurrence of `c` in `s`, if any. */
  function LastIndexOf(s: string, c: char): (r: Option<nat>)
    ensures r.None? <==> c !in s
    ensures r.Some? ==> r.value < |s| && s[r.value] == c && c !in s[r.value + 1..]
  {
    if |s| == 0 then None
    else if s[|s| - 1] == c then Some(|s| - 1)
    else
      var r := LastIndexOf(s[..|s| - 1], c);
      assert s == s[..|s| - 1] + [s[|s| - 1]];
      if r.Some? then
        assert s[r.value + 1..] == s[..|s| - 1][r.value + 1..] + [s[|s| - 1]];
        r
      else r
  }

  /** Any occurrence of `c` after which `c` does not occur is the last one. */
  lemma LastIndexOfUnique(s: string, c: char, i: nat)
    requires i < |s| && s[i] == c && c !in s[i + 1..]
    ensures LastIndexOf(s, c) == Some(i)
  {
  }

  /** Python's `s.split(sep)` with an explicit one-character separator: every
      occurrence cuts, so neighbouring separators give empty fields. */
  function Split(s: string, sep: char): (fields: seq<string>)
    ensures |fields| >= 1
    ensures forall i :: 0 <= i < |fields| ==> sep !in fields[i]
    decreases |s|
  {
    match IndexOf(s, sep)
    case None => [s]
    case Some(i) => [s[..i]] + Split(s[i + 1..], sep)
  }

  /** The inverse of `Split`: glue the fields back with the separator. */
  function Join(fields: seq<string>, sep: char): string
    requires |fields| >= 1
  {
    if |fields| == 1 then fields[0] else fields[0] + [sep] + Join(fields[1..], sep)
  }

  lemma {:induction false} SplitJoin(s: string, sep: char)
    ensures Join(Split(s, sep), sep) == s
    decreases |s|
  {
    match IndexOf(s, sep)
    case None =>
    case Some(i) =>
      var fields := Split(s, sep);
      var rest := Split(s[i + 1..], sep);
      assert fields == [s[..i]] + rest;
      assert fields[0] == s[..i] && fields[1..] == rest;
      SplitJoin(s[i + 1..], sep);
      assert Join(fields, sep) == s[..i] + [sep] + Join(rest, sep);
      assert s == s[..i] + [sep] + s[i + 1..];
  }

  /** Splitting a string built from a separator-free head: the head is the first field. */
  lemma SplitHead(head: string, sep: char, rest: string)
    requires sep !in head
    ensures Split(head + [sep] + rest, sep)[0] == head
    ensures |Split(head + [sep] + rest, sep)| >= 2
    ensures Split(head + [sep] + rest, sep)[1..] == Split(rest, sep)
  {
    var s := head + [sep] + rest;
    assert s[..|head|] == head;
    assert s[|head|] == sep;
    var i := IndexOf(s, sep);
    assert i == Some(|head|);
    assert s[|head| + 1..] == rest;
  }

  // ---------------------------------------------------------------------------
  // str.strip()

  /** The characters for which Python's `str.isspace()` holds. */
  predicate IsSpace(c: char) {
    || c == ' '
    || ('\t' <= c <= '\r')
    || ('\U{1c}' <= c <= '\U{1f}')
    || c == '\U{85}' || c == '\U{a0}' || c == '\U{1680}'
    || ('\U{2000}' <= c <= '\U{200a}')
    || c == '\U{2028}' || c == '\U{2029}' || c == '\U{202f}' || c == '\U{205f}' || c == '\U{3000}'
  }

  predicate AllSpace(s: string) {
    forall i :: 0 <= i < |s| ==> IsSpace(s[i])
  }

  /** The end of the run of whitespace starting at `i`. */
  function SpaceRun(s: string, i: nat): (j: nat)
    requires i <= |s|
    ensures i <= j <= |s| && (j == |s| || !IsSpace(s[j]))
    ensures forall k :: i <= k < j ==> IsSpace(s[k])
    decreases |s| - i
  {
    if i < |s| && IsSpace(s[i]) then SpaceRun(s, i + 1) else i
  }

  /** `s.lstrip()`: what is left after the leading whitespace. */
  function TrimStart(s: string): (r: string)
    ensures |r| == 0 || !IsSpace(r[0])
    ensures |r| <= |s| && r == s[|s| - |r|..] && AllSpace(s[..|s| - |r|])
  {
    s[SpaceRun(s, 0)..]
  }

  /** `s.rstrip()`: what is left before the trailing whitespace. */
  function TrimEnd(s: string): (r: string)
    ensures |r| == 0 || !IsSpace(r[|r| - 1])
    ensures |r| <= |s| && r == s[..|r|] && AllSpace(s[|r|..])
  {
    if |s| > 0 && IsSpace(s[|s| - 1]) then
      var r := TrimEnd(s[..|s| - 1]);
      TrimEndStep(s, |r|);
      r
    else
      s
  }

  /** Whitespace after position `n` of all but the last character, followed by
      a whitespace last character, is whitespace after `n` of the whole text. */
  lemma TrimEndStep(s: string, n: nat)
    requires |s| > 0 && IsSpace(s[|s| - 1]) && n <= |s| - 1
    requires AllSpace(s[..|s| - 1][n..])
    ensures s[..|s| - 1][..n] == s[..n] && AllSpace(s[n..])
  {
    assert s[n..] == s[..|s| - 1][n..] + [s[|s| - 1]];
  }

  /** Python's `s.strip()`: the text between the leading and trailing whitespace. */
  function Strip(s: string): (r: string)
    ensures |r| == 0 || (!IsSpace(r[0]) && !IsSpace(r[|r| - 1]))
    ensures exists a, b :: 0 <= a <= b <= |s| && AllSpace(s[..a]) && AllSpace(s[b..]) && r == s[a..b]
  {
    var t := TrimStart(s);
    var k := |s| - |t|;
    var r := TrimEnd(t);
    assert t == s[k..];
    assert s[k..k + |r|] == t[..|r|];
    assert s[k + |r|..] == t[|r|..];
    r
  }

  /** Text without surrounding whitespace is its own strip. */
  lemma StripUnpadded(s: string)
    requires |s| == 0 || (!IsSpace(s[0]) && !IsSpace(s[|s| - 1]))
    ensures Strip(s) == s
  {
    assert TrimStart(s) == s by {
      if |s| > 0 { assert !IsSpace(s[0]); }
    }
    assert TrimEnd(s) == s by {
      if |s| > 0 { assert !IsSpace(s[|s| - 1]); }
    }
  }

  // ---------------------------------------------------------------------------
  // bytes.hex() / bytes.fromhex()

  function HexDigit(n: nat): (c: char)
    requires n < 16
  {
    "0123456789abcdef"[n]
  }

  /** The value of one hexadecimal digit of either case. */
  function HexValue(c: char): (r: Option<nat>)
    ensures r.Some? ==> r.value < 16
  {
    if '0' <= c <= '9' then Some(c as int - '0' as int)
    else if 'a' <= c <= 'f' then Some(c as int - 'a' as int + 10)
    else if 'A' <= c <= 'F' then Some(c as int - 'A' as int + 10)
    else None
  }

  lemma HexDigitValue(n: nat)
    requires n < 16
    ensures HexValue(HexDigit(n)) == Some(n)
  {
  }

  /** `bytes.hex()`: two lower-case digits per byte, high nibble first. */
  function Hex(bs: seq<byte>): (s: string)
    ensures |s| == 2 * |bs|
    ensures forall k :: 0 <= k < |s| ==> HexValue(s[k]).Some? && !IsAsciiSpace(s[k])
  {
    if |bs| == 0 then ""
    else
      HexDigitValue(bs[0] as nat / 16);
      HexDigitValue(bs[0] as nat % 16);
      [HexDigit(bs[0] as nat / 16), HexDigit(bs[0] as nat % 16)] + Hex(bs[1..])
  }

  /** The ASCII whitespace that `bytes.fromhex()` skips between byte pairs. */
  predicate IsAsciiSpace(c: char) {
    c == ' ' || ('\t' <= c <= '\r')
  }

  /** `bytes.fromhex()`: pairs of hexadecimal digits, whitespace allowed between
      pairs but not inside one; anything else fails. */
  function FromHex(s: string): (r: Option<seq<byte>>)
    ensures r.Some? ==> 2 * |r.value| <= |s|
    ensures r.Some? ==> forall k :: 0 <= k < |s| ==> IsAsciiSpace(s[k]) || HexValue(s[k]).Some?
    decreases |s|
  {
    if |s| == 0 then Some([])
    else if IsAsciiSpace(s[0]) then FromHex(s[1..])
    else if |s| >= 2 && HexValue(s[0]).Some? && HexValue(s[1]).Some? then
      match FromHex(s[2..])
      case None => None
      case Some(rest) => Some([(16 * HexValue(s[0]).value + HexValue(s[1]).value) as byte] + rest)
    else None
  }

  /** The two digits `hex()` writes for a byte read back as that byte. */
  lemma HexPair(b: byte)
    ensures var s := [HexDigit(b as nat / 16), HexDigit(b as nat % 16)];
      && !IsAsciiSpace(s[0])
      && HexValue(s[0]) == Some(b as nat / 16) && HexValue(s[1]) == Some(b as nat % 16)
      && (16 * (b as nat / 16) + b as nat % 16) as byte == b
  {
    HexDigitValue(b as nat / 16);
    HexDigitValue(b as nat % 16);
  }

  lemma HexCons(bs: seq<byte>)
    requires |bs| > 0
    ensures Hex(bs) == [HexDigit(bs[0] as nat / 16), HexDigit(bs[0] as nat % 16)] + Hex(bs[1..])
  {
  }

  /** A leading pair of digits is read as one byte before the rest. */
  lemma FromHexPair(s: string)
    requires |s| >= 2 && !IsAsciiSpace(s[0]) && HexValue(s[0]).Some? && HexValue(s[1]).Some?
    requires FromHex(s[2..]).Some?
    ensures FromHex(s) == Some([(16 * HexValue(s[0]).value + HexValue(s[1]).value) as byte] + FromHex(s[2..]).value)
  {
  }

  /** The salt written with `hex()` reads back with `fromhex()` unchanged. */
  lemma {:induction false} HexRoundTrip(bs: seq<byte>)
    ensures FromHex(Hex(bs)) == Some(bs)
  {
    if |bs| > 0 {
      var s := Hex(bs);
      HexPair(bs[0]);
      HexCons(bs);
      assert s[2..] == Hex(bs[1..]);
      HexRoundTrip(bs[1..]);
      FromHexPair(s);
      assert [bs[0]] + bs[1..] == bs;
    }
  }
}

=== FILE: whitelist.dfy ===
/** The whitelist matcher of app/utils/security.py: which stored entries apply
    to a request, how an entry is split into host and port, how a client IP is
    compared with each entry, how a browser Origin is compared with each entry,
    and how app/routes/projects.py validates an entry before storing it. */
module Whitelist {
  import opened Wrappers
  import opened Text
  import opened Net
  import opened Schema

  // ---------------------------------------------------------------------------
  // Host and port: re.match(r'^(.+):(\d+)$', entry)

  datatype HostPort = HostPort(host: string, port: string)

  /** The two groups of `^(.+):(\d+)$`. `.` does not match a newline and `$` also
      matches just before a final newline, so one trailing newline is ignored.
      The greedy `.+` makes the split happen at the last colon. */
  function SplitHostPort(s: string): (r: Option<HostPort>)
    ensures r.Some? ==>
      && Chomp(s) == r.value.host + ":" + r.value.port
      && |r.value.host| > 0 && '\n' !in r.value.host && IsDigits(r.value.port)
  {
    var body := Chomp(s);
    match LastIndexOf(body, ':')
    case None => None
    case Some(i) =>
      if 1 <= i && IsDigits(body[i + 1..]) && '\n' !in body[..i] then Some(HostPort(body[..i], body[i + 1..]))
      else None
  }

  /** The text without one final newline, if it has one. */
  function Chomp(s: string): (body: string)
    ensures s == body || (s == body + "\n")
  {
    if |s| > 0 && s[|s| - 1] == '\n' then s[..|s| - 1] else s
  }

  /** What it means for the pattern to match with these two groups. */
  ghost predicate PatternMatch(s: string, h: string, p: string) {
    && |h| > 0 && '\n' !in h && IsDigits(p)
    && (s == h + ":" + p || s == h + ":" + p + "\n")
  }

  /** A split `SplitHostPort` finds is a match of the pattern. */
  lemma SplitHostPortSound(s: string)
    ensures SplitHostPort(s).Some? ==> PatternMatch(s, SplitHostPort(s).value.host, SplitHostPort(s).value.port)
  {
    var body := Chomp(s);
    if SplitHostPort(s).Some? {
      var i := LastIndexOf(body, ':').value;
      var h, p := body[..i], body[i + 1..];
      assert body == h + ":" + p;
    }
  }

  /** Any match of the pattern is the one `SplitHostPort` finds: the
      decomposition is unique. */
  lemma SplitHostPortComplete(s: string, h: string, p: string)
    requires PatternMatch(s, h, p)
    ensures SplitHostPort(s) == Some(HostPort(h, p))
  {
    var body := h + ":" + p;
    ChompMatch(s, h, p);
    assert body[|h|] == ':';
    assert body[|h| + 1..] == p;
    assert ':' !in p by {
      assert forall k :: 0 <= k < |p| ==> IsDigit(p[k]);
    }
    LastIndexOfUnique(body, ':', |h|);
    assert body[..|h|] == h;
  }

  /** The pattern sees the text without its final newline. */
  lemma ChompMatch(s: string, h: string, p: string)
    requires PatternMatch(s, h, p)
    ensures Chomp(s) == h + ":" + p
  {
    var body := h + ":" + p;
    if s == body + "\n" {
      assert s[..|s| - 1] == body;
    } else {
      assert IsDigit(p[|p| - 1]);
      assert s[|s| - 1] == p[|p| - 1];
    }
  }

  /** `host:port` splits into its parts whenever the port is digits and the host
      is non-empty, even when the host itself holds colons. */
  lemma SplitOfHostPort(h: string, p: string)
    requires |h| > 0 && '\n' !in h && IsDigits(p)
    ensures SplitHostPort(h + ":" + p) == Some(HostPort(h, p))
  {
    assert PatternMatch(h + ":" + p, h, p);
    SplitHostPortComplete(h + ":" + p, h, p);
  }

  /** The IPv6 loopback `::1` reads as host `:` with port `1`. */
  lemma LoopbackV6Splits()
    ensures SplitHostPort("::1") == Some(HostPort(":", "1"))
  {
    assert "::1" == ":" + ":" + "1";
    SplitOfHostPort(":", "1");
  }

  /** The part of an entry compared with the client: the host of a `host:port`
      entry, otherwise the whole text. */
  function HostOf(text: string): string {
    match SplitHostPort(text)
    case Some(hp) => hp.host
    case None => text
  }

  // ---------------------------------------------------------------------------
  // Which entries apply

  /** Entries scoped to environment `envId` of the project. */
  function EnvironmentEntries(ips: map<nat, AllowedIp>, projectId: nat, envId: nat): set<nat> {
    set i | i in ips && ips[i].projectId == projectId && ips[i].envId == Some(envId)
  }

  /** Project-wide entries (no environment). */
  function ProjectWideEntries(ips: map<nat, AllowedIp>, projectId: nat): set<nat> {
    set i | i in ips && ips[i].projectId == projectId && ips[i].envId.None?
  }

  /** Every entry of the project, whatever its environment. */
  function ProjectEntries(ips: map<nat, AllowedIp>, projectId: nat): set<nat> {
    set i | i in ips && ips[i].projectId == projectId
  }

  /** The entries loaded for a check: with a (truthy) environment id, that
      environment's entries together with the project-wide ones; without one,
      every entry of the project, environment-scoped ones included. */
  function Scope(ips: map<nat, AllowedIp>, projectId: nat, envId: Option<nat>): (ids: set<nat>)
    ensures envId.Some? && envId.value != 0 ==>
      ids == EnvironmentEntries(ips, projectId, envId.value) + ProjectWideEntries(ips, projectId)
    ensures envId.None? || envId.value == 0 ==> ids == ProjectEntries(ips, projectId)
    ensures ids <= ProjectEntries(ips, projectId)
  {
    if envId.Some? && envId.value != 0 then
      set i | i in ips && ips[i].projectId == projectId && (ips[i].envId == envId || ips[i].envId.None?)
    else
      set i | i in ips && ips[i].projectId == projectId
  }

  // ---------------------------------------------------------------------------
  // Client IP against one entry

  /** The client address text: the X-Forwarded-For header when present and
      non-empty, otherwise the peer address. */
  function ClientIp(forwardedFor: Option<string>, remoteAddr: Option<string>): (ip: Option<string>)
    ensures forwardedFor.Some? && forwardedFor.value != "" ==> ip == forwardedFor
    ensures forwardedFor.None? || forwardedFor.value == "" ==> ip == remoteAddr
  {
    if forwardedFor.Some? && forwardedFor.value != "" then forwardedFor else remoteAddr
  }

  /** Walk the resolved address texts in order: a match wins, an unparseable
      one raises ValueError and abandons the entry. */
  function ResolvedMatch(r: Resolver, addrs: seq<string>, client: Addr): (b: bool)
    ensures b ==> exists k :: 0 <= k < |addrs| && r.address(addrs[k]) == Some(client)
  {
    if |addrs| == 0 then false
    else match r.address(addrs[0])
      case None => false
      case Some(a) => a == client || ResolvedMatch(r, addrs[1..], client)
  }

  /** Resolve `host` and look for the client among its addresses; a name the
      codec refuses and a resolver failure both mean no match, since the check
      catches `socket.gaierror` and `ValueError` alike. */
  function ResolvesTo(r: Resolver, host: string, client: Addr): bool {
    if !r.encodes(host) then false
    else match r.lookup(host)
      case None => false
      case Some(addrs) => ResolvedMatch(r, addrs, client)
  }

  /** One host text against the client. A flagged name is resolved; text with
      `/` is a network; anything else must be a literal address, and when it is
      not, `dnsFallback` says whether it is tried as a host name (the entry had a
      port) or skipped (it had none). */
  function HostMatches(r: Resolver, host: string, isFqdn: bool, dnsFallback: bool, client: Addr): (b: bool)
    ensures b ==> Admits(r, host, client)
    ensures !isFqdn && '/' !in host && r.address(host).Some? ==> (b <==> r.address(host) == Some(client))
  {
    if isFqdn then ResolvesTo(r, host, client)
    else if '/' in host then
      match ParseNetwork(r, host)
      case None => false
      case Some(n) => Contains(n, client)
    else
      match r.address(host)
      case Some(a) => a == client
      case None => dnsFallback && ResolvesTo(r, host, client)
  }

  /** The ways a host text can admit a client: as the client's own address, as
      a network holding it, or as a name resolving to it. */
  predicate Admits(r: Resolver, host: string, client: Addr) {
    || r.address(host) == Some(client)
    || (ParseNetwork(r, host).Some? && Contains(ParseNetwork(r, host).value, client))
    || ResolvesTo(r, host, client)
  }

  /** One stored entry against the client (the body of the loop over entries). */
  function EntryMatches(r: Resolver, e: AllowedIp, client: Addr): (b: bool)
    ensures b ==> Admits(r, HostOf(e.ipAddress), client)
  {
    match SplitHostPort(e.ipAddress)
    case Some(hp) => HostMatches(r, hp.host, e.isFqdn, true, client)
    case None => HostMatches(r, e.ipAddress, e.isFqdn, false, client)
  }

  /** `check_ip_whitelist`: deny when no entry applies or the client text is not
      one address; otherwise allow when some applicable entry matches. */
  function CheckIpWhitelist(r: Resolver, ips: map<nat, AllowedIp>, projectId: nat, envId: Option<nat>,
                            client: Option<string>): (allowed: bool)
    ensures Scope(ips, projectId, envId) == {} ==> !allowed
    ensures client.None? || r.address(client.value).None? ==> !allowed
    ensures allowed <==>
      client.Some? && r.address(client.value).Some? &&
      exists i :: i in Scope(ips, projectId, envId) && EntryMatches(r, ips[i], r.address(client.value).value)
  {
    var scope := Scope(ips, projectId, envId);
    if scope == {} then false
    else if client.None? then false
    else match r.address(client.value)
      case None => false
      case Some(c) => exists i :: i in scope && EntryMatches(r, ips[i], c)
  }

  /** The loop of `check_ip_whitelist`: visit the applicable entries one at a
      time and stop at the first that matches. */
  method CheckIpWhitelistLoop(r: Resolver, ips: map<nat, AllowedIp>, projectId: nat, envId: Option<nat>,
                              client: Option<string>) returns (allowed: bool)
    ensures allowed == CheckIpWhitelist(r, ips, projectId, envId, client)
  {
    var scope := Scope(ips, projectId, envId);
    if scope == {} {
      return false;
    }
    if client.None? {
      return false;
    }
    var parsed := r.address(client.value);
    if parsed.None? {
      return false;
    }
    var c := parsed.value;
    var remaining := scope;
    while remaining != {}
      invariant remaining <= scope
      invariant forall i :: i in scope && i !in remaining ==> !EntryMatches(r, ips[i], c)
      decreases remaining
    {
      var i :| i in remaining;
      if EntryMatches(r, ips[i], c) {
        return true;
      }
      remaining := remaining - {i};
    }
    return false;
  }

  // ---------------------------------------------------------------------------
  // Properties of the IP matcher

  /** Only the host of a `host:port` entry is compared: the port never matters. */
  lemma PortNeverMatters(r: Resolver, e: AllowedIp, h: string, p1: string, p2: string, client: Addr)
    requires |h| > 0 && '\n' !in h && IsDigits(p1) && IsDigits(p2)
    ensures EntryMatches(r, e.(ipAddress := h + ":" + p1), client) == EntryMatches(r, e.(ipAddress := h + ":" + p2), client)
    ensures EntryMatches(r, e.(ipAddress := h + ":" + p1), client) == HostMatches(r, h, e.isFqdn, true, client)
  {
    SplitOfHostPort(h, p1);
    SplitOfHostPort(h, p2);
  }

  /** An unflagged entry with `/` matches exactly the clients inside its network;
      one that does not parse as a network never matches. */
  lemma CidrEntryMatches(r: Resolver, e: AllowedIp, client: Addr)
    requires !e.isFqdn && '/' in HostOf(e.ipAddress)
    ensures EntryMatches(r, e, client) <==>
      ParseNetwork(r, HostOf(e.ipAddress)).Some? && Contains(ParseNetwork(r, HostOf(e.ipAddress)).value, client)
  {
  }

  /** An unflagged literal entry matches only the equal address. */
  lemma LiteralEntryMatches(r: Resolver, e: AllowedIp, a: Addr, client: Addr)
    requires !e.isFqdn && '/' !in HostOf(e.ipAddress) && r.address(HostOf(e.ipAddress)) == Some(a)
    ensures EntryMatches(r, e, client) <==> client == a
  {
  }

  /** An unflagged entry without a port whose text is no address is skipped,
      never resolved; with a port, the host is resolved instead. */
  lemma UnparseableEntry(r: Resolver, e: AllowedIp, client: Addr)
    requires !e.isFqdn && '/' !in HostOf(e.ipAddress) && r.address(HostOf(e.ipAddress)).None?
    ensures SplitHostPort(e.ipAddress).None? ==> !EntryMatches(r, e, client)
    ensures SplitHostPort(e.ipAddress).Some? ==> EntryMatches(r, e, client) == ResolvesTo(r, HostOf(e.ipAddress), client)
  {
  }

  /** A flagged entry is always resolved (host part only when it has a port);
      a resolver failure just means no match. */
  lemma FqdnEntryMatches(r: Resolver, e: AllowedIp, client: Addr)
    requires e.isFqdn
    ensures EntryMatches(r, e, client) == ResolvesTo(r, HostOf(e.ipAddress), client)
    ensures r.lookup(HostOf(e.ipAddress)).None? || !r.encodes(HostOf(e.ipAddress)) ==> !EntryMatches(r, e, client)
  {
  }

  /** An entry that cannot match (malformed, unresolvable) does not change the
      verdict, provided another entry still applies. */
  lemma DeadEntryIgnored(r: Resolver, ips: map<nat, AllowedIp>, projectId: nat, envId: Option<nat>,
                         client: string, c: Addr, dead: nat)
    requires r.address(client) == Some(c)
    requires dead in ips && !EntryMatches(r, ips[dead], c)
    requires Scope(ips - {dead}, projectId, envId) != {}
    ensures CheckIpWhitelist(r, ips, projectId, envId, Some(client))
         == CheckIpWhitelist(r, ips - {dead}, projectId, envId, Some(client))
  {
    var rest := ips - {dead};
    assert Scope(rest, projectId, envId) == Scope(ips, projectId, envId) - {dead};
    assert Scope(ips, projectId, envId) != {};
    if CheckIpWhitelist(r, ips, projectId, envId, Some(client)) {
      var i :| i in Scope(ips, projectId, envId) && EntryMatches(r, ips[i], c);
      assert i in Scope(rest, projectId, envId) && rest[i] == ips[i];
    }
  }

  // ---------------------------------------------------------------------------
  // Origin against the entries: check_origin_whitelist

  /** The host and optional port of an Origin header. */
  datatype OriginParts = OriginParts(host: string, port: Option<string>)

  /** Length of the longest prefix free of `:` and `/` (`[^:/]+`). */
  function HostRun(s: string): (n: nat)
    ensures n <= |s|
    ensures forall k :: 0 <= k < n ==> s[k] != ':' && s[k] != '/'
    ensures n < |s| ==> s[n] == ':' || s[n] == '/'
  {
    if |s| == 0 || s[0] == ':' || s[0] == '/' then 0 else 1 + HostRun(s[1..])
  }

  /** Length of the longest prefix of digits (`\d+`). */
  function DigitRun(s: string): (n: nat)
    ensures n <= |s|
    ensures forall k :: 0 <= k < n ==> IsDigit(s[k])
    ensures n < |s| ==> !IsDigit(s[n])
  {
    if |s| == 0 || !IsDigit(s[0]) then 0 else 1 + DigitRun(s[1..])
  }

  /** What follows `http://` or `https://`, if the origin starts with either. */
  function AfterScheme(origin: string): (rest: Option<string>)
    ensures rest.Some? ==> exists k :: (k == 7 || k == 8) && k <= |origin| && rest.value == origin[k..]
  {
    if StartsWith(origin, "http://") then Some(origin[7..])
    else if StartsWith(origin, "https://") then Some(origin[8..])
    else None
  }

  /** `([^:/]+)(?::(\d+))?` at the start of `t`. */
  function ParseAuthority(t: string): Option<OriginParts> {
    var n := HostRun(t);
    if n == 0 then None
    else
      var after := t[n..];
      var d := if |after| > 0 && after[0] == ':' then DigitRun(after[1..]) else 0;
      Some(OriginParts(t[..n], if d > 0 then Some(after[1..1 + d]) else None))
  }

  /** `re.match(r'^https?://([^:/]+)(?::(\d+))?', origin)`: a prefix match, so
      anything may follow the host and port. */
  function ParseOrigin(origin: string): (o: Option<OriginParts>)
    ensures o.Some? ==> AfterScheme(origin).Some?
    ensures o.Some? ==> |o.value.host| > 0 && ':' !in o.value.host && '/' !in o.value.host
    ensures o.Some? && o.value.port.Some? ==> IsDigits(o.value.port.value)
  {
    match AfterScheme(origin)
    case None => None
    case Some(t) => ParseAuthority(t)
  }

  lemma SchemeOf(scheme: string, t: string)
    requires scheme == "http" || scheme == "https"
    ensures AfterScheme(scheme + "://" + t) == Some(t)
  {
    var origin := scheme + "://" + t;
    if scheme == "http" {
      assert origin[..7] == "http://";
      assert origin[7..] == t;
    } else {
      assert origin[4] == 's';
      assert origin[..8] == "https://";
      assert origin[8..] == t;
    }
  }

  /** A host, an optional port and a path parse back into that host and port. */
  lemma AuthorityOfParts(h: string, port: Option<string>, path: string)
    requires |h| > 0 && ':' !in h && '/' !in h
    requires port.Some? ==> IsDigits(port.value)
    requires path == "" || path[0] == '/'
    ensures ParseAuthority(h + (if port.Some? then ":" + port.value else "") + path) == Some(OriginParts(h, port))
  {
    var tail := (if port.Some? then ":" + port.value else "") + path;
    var t := h + tail;
    assert t == h + (if port.Some? then ":" + port.value else "") + path;
    HostRunOf(h, tail);
    assert t[|h|..] == tail;
    assert t[..|h|] == h;
    if port.Some? {
      var p := port.value;
      assert tail[1..] == p + path;
      DigitRunOf(p, path);
      assert tail[1..1 + |p|] == p;
    } else {
      assert tail == path;
    }
  }

  /** An origin assembled from a scheme, a host, an optional port and a path
      parses back into that host and port. */
  lemma ParseOriginOfParts(scheme: string, h: string, port: Option<string>, path: string)
    requires scheme == "http" || scheme == "https"
    requires |h| > 0 && ':' !in h && '/' !in h
    requires port.Some? ==> IsDigits(port.value)
    requires path == "" || path[0] == '/'
    ensures ParseOrigin(scheme + "://" + h + (if port.Some? then ":" + port.value else "") + path)
         == Some(OriginParts(h, port))
  {
    var t := h + (if port.Some? then ":" + port.value else "") + path;
    assert scheme + "://" + h + (if port.Some? then ":" + port.value else "") + path == scheme + "://" + t;
    SchemeOf(scheme, t);
    AuthorityOfParts(h, port, path);
  }

  lemma {:induction false} HostRunOf(h: string, tail: string)
    requires ':' !in h && '/' !in h
    requires tail == [] || tail[0] == ':' || tail[0] == '/'
    ensures HostRun(h + tail) == |h|
  {
    if |h| == 0 {
      assert h + tail == tail;
    } else {
      assert (h + tail)[0] == h[0];
      assert (h + tail)[1..] == h[1..] + tail;
      HostRunOf(h[1..], tail);
    }
  }

  lemma DigitRunOf(p: string, path: string)
    requires IsDigits(p)
    requires path == "" || path[0] == '/'
    ensures DigitRun(p + path) == |p|
  {
    DigitsThenOther(p, path);
  }

  lemma {:induction false} DigitsThenOther(p: string, path: string)
    requires forall k :: 0 <= k < |p| ==> IsDigit(p[k])
    requires path == "" || path[0] == '/'
    ensures DigitRun(p + path) == |p|
  {
    if |p| == 0 {
      assert p + path == path;
    } else {
      assert (p + path)[0] == p[0];
      assert (p + path)[1..] == p[1..] + path;
      DigitsThenOther(p[1..], path);
    }
  }

  /** One entry against the origin. The entry is stripped first. A full URL must
      equal the origin; `host:port` needs both parts equal; a bare host matches
      that host on any port. */
  function OriginEntryMatches(raw: string, origin: string, o: OriginParts): (b: bool)
    ensures b ==> origin == Strip(raw) || o.host == HostOf(Strip(raw))
  {
    var entry := Strip(raw);
    if StartsWith(entry, "http://") || StartsWith(entry, "https://") then origin == entry
    else match SplitHostPort(entry)
      case Some(hp) => o.host == hp.host && o.port == Some(hp.port)
      case None => o.host == entry
  }

  /** `check_origin_whitelist`: deny an empty origin, an empty scope and an origin
      that does not parse; otherwise allow when some applicable entry matches. */
  function CheckOriginWhitelist(ips: map<nat, AllowedIp>, origin: string, projectId: nat, envId: Option<nat>): (allowed: bool)
    ensures origin == "" || Scope(ips, projectId, envId) == {} || ParseOrigin(origin).None? ==> !allowed
    ensures allowed <==>
      origin != "" && ParseOrigin(origin).Some? &&
      exists i :: i in Scope(ips, projectId, envId) && OriginEntryMatches(ips[i].ipAddress, origin, ParseOrigin(origin).value)
  {
    if origin == "" then false
    else
      var scope := Scope(ips, projectId, envId);
      if scope == {} then false
      else match ParseOrigin(origin)
        case None => false
        case Some(o) => exists i :: i in scope && OriginEntryMatches(ips[i].ipAddress, origin, o)
  }

  /** A `host:port` entry matches exactly the origins with that host and that
      port, so never an origin without a port. */
  lemma OriginHostPortEntry(h: string, p: string, origin: string, o: OriginParts)
    requires |h| > 0 && '\n' !in h && IsDigits(p)
    requires !IsSpace(h[0]) && !StartsWith(h, "http://") && !StartsWith(h, "https://")
    ensures OriginEntryMatches(h + ":" + p, origin, o) <==> o.host == h && o.port == Some(p)
    ensures o.port.None? ==> !OriginEntryMatches(h + ":" + p, origin, o)
  {
    var e := h + ":" + p;
    HostPortUnpadded(h, p);
    HostPortNotUrl(h, p);
    SplitOfHostPort(h, p);
    UnpaddedHostPortMatches(e, origin, o, HostPort(h, p));
  }

  lemma UnpaddedHostPortMatches(e: string, origin: string, o: OriginParts, hp: HostPort)
    requires Strip(e) == e && !StartsWith(e, "http://") && !StartsWith(e, "https://")
    requires SplitHostPort(e) == Some(hp)
    ensures OriginEntryMatches(e, origin, o) <==> o.host == hp.host && o.port == Some(hp.port)
  {
  }

  lemma HostPortUnpadded(h: string, p: string)
    requires |h| > 0 && !IsSpace(h[0]) && IsDigits(p)
    ensures Strip(h + ":" + p) == h + ":" + p
  {
    var e := h + ":" + p;
    assert e[0] == h[0];
    assert e[|e| - 1] == p[|p| - 1];
    assert IsDigit(p[|p| - 1]);
    StripUnpadded(e);
  }

  lemma HostPortNotUrl(h: string, p: string)
    requires !StartsWith(h, "http://") && !StartsWith(h, "https://") && IsDigits(p)
    ensures !StartsWith(h + ":" + p, "http://") && !StartsWith(h + ":" + p, "https://")
  {
    assert (":" + p)[1] == p[0];
    assert IsDigit(p[0]);
    NoUrlPrefix(h, ":" + p, "http://");
    NoUrlPrefix(h, ":" + p, "https://");
  }

  /** A host that does not start with a URL scheme, followed by `:` and no `/`,
      does not start with one either. */
  lemma NoUrlPrefix(h: string, tail: string, scheme: string)
    requires scheme == "http://" || scheme == "https://"
    requires !StartsWith(h, scheme)
    requires |tail| >= 2 && tail[0] == ':' && tail[1] != '/'
    ensures !StartsWith(h + tail, scheme)
  {
    var e := h + tail;
    if |h| >= |scheme| {
      assert e[..|scheme|] == h[..|scheme|];
    } else {
      assert e[|h|] == ':' && e[|h| + 1] == tail[1];
    }
  }

  /** A bare entry (no port, not a URL) matches its host on every port. */
  lemma OriginBareEntry(entry: string, origin: string, o: OriginParts)
    requires |entry| > 0 && !IsSpace(entry[0]) && !IsSpace(entry[|entry| - 1])
    requires !StartsWith(entry, "http://") && !StartsWith(entry, "https://")
    requires SplitHostPort(entry).None?
    ensures OriginEntryMatches(entry, origin, o) <==> o.host == entry
  {
    StripUnpadded(entry);
  }

  /** A full-URL entry matches only the identical origin text. */
  lemma OriginUrlEntry(raw: string, origin: string, o: OriginParts)
    requires StartsWith(Strip(raw), "http://") || StartsWith(Strip(raw), "https://")
    ensures OriginEntryMatches(raw, origin, o) <==> origin == Strip(raw)
  {
  }

  /** `localhost:3000` admits an origin on port 3000 and refuses one on 4000. */
  lemma HostPortEntryExample()
    ensures OriginEntryMatches("localhost:3000", "http://localhost:3000", OriginParts("localhost", Some("3000")))
    ensures !OriginEntryMatches("localhost:3000", "http://localhost:4000", OriginParts("localhost", Some("4000")))
  {
    assert "localhost:3000" == "localhost" + ":" + "3000";
    Mismatch("localhost", "http://", 0);
    Mismatch("localhost", "https://", 0);
    OriginHostPortEntry("localhost", "3000", "http://localhost:3000", OriginParts("localhost", Some("3000")));
    OriginHostPortEntry("localhost", "3000", "http://localhost:4000", OriginParts("localhost", Some("4000")));
  }

  /** `localhost` admits an origin on any port. */
  lemma BareEntryExample()
    ensures OriginEntryMatches("localhost", "http://localhost:4000", OriginParts("localhost", Some("4000")))
  {
    assert ':' !in "localhost";
    Mismatch("localhost", "http://", 0);
    Mismatch("localhost", "https://", 0);
    OriginBareEntry("localhost", "http://localhost:4000", OriginParts("localhost", Some("4000")));
  }

  // ---------------------------------------------------------------------------
  // Validating a new entry: add_allowed_ip / add_environment_ip

  datatype EntryError =
    | PortOutOfRange   // "Port number must be between 1 and 65535"
    | BadHostWithPort  // "Invalid IP address or hostname in IP:port format"
    | BadEntry         // "Invalid IP address, CIDR, hostname, or IP:port format"
    | HostNotEncodable // `UnicodeError` from `getaddrinfo`: only `socket.gaierror`
                       // is caught, so it escapes the route as a 500

  /** The host text parses as what it looks like: a network when it holds `/`,
      an address otherwise. */
  predicate ParsesAsIp(r: Resolver, text: string) {
    if '/' in text then ParseNetwork(r, text).Some? else r.address(text).Some?
  }

  /** The entry check of the two add routes; on success, the `is_fqdn` flag to
      store. */
  function ValidateEntry(r: Resolver, text: string): (res: Result<bool, EntryError>)
    ensures res == Err(PortOutOfRange) <==>
      SplitHostPort(text).Some? && !(1 <= DecimalValue(SplitHostPort(text).value.port) <= 65535)
    ensures res.Ok? ==> res.value == !ParsesAsIp(r, HostOf(text))
    ensures res.Ok? <==>
      (SplitHostPort(text).Some? ==> 1 <= DecimalValue(SplitHostPort(text).value.port) <= 65535)
      && (ParsesAsIp(r, HostOf(text)) || (r.encodes(HostOf(text)) && r.lookup(HostOf(text)).Some?))
    ensures res == Err(HostNotEncodable) <==>
      (SplitHostPort(text).Some? ==> 1 <= DecimalValue(SplitHostPort(text).value.port) <= 65535)
      && !ParsesAsIp(r, HostOf(text)) && !r.encodes(HostOf(text))
  {
    match SplitHostPort(text)
    case Some(hp) =>
      var port := DecimalValue(hp.port);
      if !(1 <= port <= 65535) then Err(PortOutOfRange)
      else if ParsesAsIp(r, hp.host) then Ok(false)
      else if !r.encodes(hp.host) then Err(HostNotEncodable)
      else if r.lookup(hp.host).Some? then Ok(true)
      else Err(BadHostWithPort)
    case None =>
      if ParsesAsIp(r, text) then Ok(false)
      else if !r.encodes(text) then Err(HostNotEncodable)
      else if r.lookup(text).Some? then Ok(true)
      else Err(BadEntry)
  }

  /** What a stored entry then matches: an accepted literal only its address, an
      accepted network its members, an accepted name whatever it resolves to. */
  lemma ValidatedEntryMatches(r: Resolver, e: AllowedIp, client: Addr)
    requires ValidateEntry(r, e.ipAddress) == Ok(e.isFqdn)
    ensures e.isFqdn ==> EntryMatches(r, e, client) == ResolvesTo(r, HostOf(e.ipAddress), client)
    ensures !e.isFqdn && '/' !in HostOf(e.ipAddress) ==>
      (EntryMatches(r, e, client) <==> r.address(HostOf(e.ipAddress)) == Some(client))
    ensures !e.isFqdn && '/' in HostOf(e.ipAddress) ==>
      (EntryMatches(r, e, client) <==> Contains(ParseNetwork(r, HostOf(e.ipAddress)).value, client))
  {
  }
}

=== FILE: wrappers.dfy ===
/** Failure-compatible wrappers shared by every module of the model. */
module Wrappers {

  /** An optional value: a nullable column, a missing form field, a lookup that found nothing. */
  datatype Option<+T> = None | Some(value: T)

  /** The outcome of an operation that either produces a value or fails with a reason. */
  datatype Result<+T, +E> = Ok(value: T) | Err(error: E) {

    predicate IsFailure() {
      Err?
    }

    function PropagateFailure<U>(): Result<U, E>
      requires Err?
    {
      Err(error)
    }

    function Extract(): T
      requires Ok?
    {
      value
    }
  }
}
